=== FILE: README.md ===
# AegisX PF4J scaffold — a Dafny model of its core

AegisX is a Spring Boot host for PF4J plugins. This project models the core of that host in Dafny 4.11 and proves properties of the model.

The host does three kinds of work:

- **Plugin calls.** It finds a plugin or extension by name and picks one of its public methods. It converts the JSON parameters of a call into the method's argument types, calls the method, and wraps the outcome in an `ApiResponse` envelope.
- **Database configuration.** Two generations of the configuration service are modelled:
  - the `pf4jscaffold` one validates a `DatabaseConfig`, tests it, backs it up, saves it and rebuilds the data source;
  - the older `pf4j` one writes properties into the Spring environment.
- **A user table.** The `JavaAdmin` entity sits behind a JPA repository. `DatabaseService` guards every call with a try/catch, and `DatabaseUtil` forwards to that service once it is initialised.

The demo plugins that ship with the host are modelled too: hello-world, data-processor, useradmin, hello, auto and database-demo.

**How the model works.**

- Every operation is a pure function over immutable datatypes.
- Stateful classes become a state value passed in and returned:
  - the useradmin user map (the program as written derives a new id from the map's size; a corrected variant adds an id counter);
  - the greeting history;
  - the scheduler and its task history;
  - the configuration service with its current configuration and data source.
- Things outside the host become parameters:
  - the clock, the random draw and reflection's invoke;
  - the connection probe, the configuration file manager and the data-source builder.
- A JSON value (`Map<String,Object>`, `List`, boxed numbers, strings) is the `Values.Value` datatype. A Java `HashMap` is an association list whose keys are kept distinct.

**Modules.**

| area | modules |
|---|---|
| Java library behaviour the code relies on | `JavaStrings`, `JavaNumbers`, `Values`, `Wrappers` |
| response envelopes | `Responses` |
| authentication and the `/api` interceptor | `Security` |
| plugin lookup, method dispatch, controllers and API docs | `PluginModel`, `PluginService`, `PluginMethodService`, `PluginMethodController`, `ApiDocController` |
| database configuration | `DatabaseConfigModel`, `ConfigService`, `LegacyConfigService`, `LegacyConfigController` |
| the user table | `JavaAdminEntity`, `JavaAdminRepository`, `DatabaseService`, `DatabaseUtil` |
| the demo plugins | `HelloWorldPlugin`, `DataProcessorPlugin`, `UserAdmin`, `HelloExtension`, `AutoExtension`, `DatabaseDemoExtension`, `BoundedHistory` |

## Model

| member | source | states |
|---|---|---|
| JavaStrings.Trim | src/main/java/com/example/pf4jscaffold/config/DatabaseConfig.java:105-111 | `String.trim()`: the result is no longer than the input, and it neither starts nor ends with a character at or below U+0020 |
| JavaStrings.BlankIffAllTrimmable | src/main/java/com/example/pf4j/controller/DatabaseConfigController.java:189-191 | `s.trim().isEmpty()` holds exactly when every character of `s` is at or below U+0020 |
| JavaStrings.TrimOfTrimmed | src/main/java/com/example/pf4jscaffold/config/DatabaseConfig.java:105-106 | trimming text that has no outer whitespace leaves it unchanged |
| JavaStrings.ContainsIffOccurs | src/main/java/com/example/pf4j/service/PluginMethodService.java:84 | `contains` holds exactly when the target occurs at some offset |
| JavaStrings.Replace | src/main/java/com/example/pf4j/service/PluginMethodService.java:85 | `replace` leaves text without the target unchanged |
| JavaStrings.ToLower | src/main/java/com/example/pf4j/service/PluginMethodService.java:83 | `toLowerCase` keeps the length and lower-cases each character in place |
| JavaStrings.ToUpper | src/main/java/com/example/pf4j/plugin/impl/DataProcessorPlugin.java:81 | `toUpperCase` keeps the length and upper-cases each character in place |
| JavaStrings.Reverse | src/main/java/com/example/pf4j/plugin/impl/DataProcessorPlugin.java:84 | `StringBuilder.reverse` puts character `i` at position `n-1-i` |
| JavaStrings.ReplaceTrailingTarget | src/main/java/com/example/pf4j/service/PluginMethodService.java:85 | `replace` on text whose only occurrence of the target is at the end swaps exactly that occurrence |
| JavaStrings.Split | src/main/java/com/example/pf4j/service/DatabaseConfigService.java:59-67 | `split(c)`: no piece contains `c`, and text without `c` splits to itself |
| JavaStrings.SplitJoin | src/main/java/com/example/pf4jscaffold/config/DatabaseConfig.java:188-209 | splitting the join of separator-free pieces gives the pieces back; trailing empty pieces are dropped, as Java does |
| JavaStrings.SplitEdgeCases | src/main/java/com/example/pf4j/service/DatabaseConfigService.java:59 | the empty text splits to one empty piece; the bare separator splits to nothing |
| JavaStrings.SplitBeforeFirst | src/main/java/com/example/pf4jscaffold/config/DatabaseConfig.java:198-209 | `s.split(c)` is empty exactly when `s` consists of `c` alone, and otherwise its first piece is the text before the first `c` |
| JavaStrings.SplitSpaceRunsAllShape | src/main/java/com/example/pf4j/plugin/impl/DataProcessorPlugin.java:83 | splitting on `\s+` gives one more piece than there are whitespace runs; the first or last piece is empty exactly when the text starts or ends with whitespace |
| JavaStrings.WordsOfTrimmedText | src/main/java/com/example/pf4j/plugin/impl/DataProcessorPlugin.java:83 | text with no outer whitespace splits into (runs + 1) non-empty words |
| JavaStrings.AllSpaceSplitsToNothing | src/main/java/com/example/pf4j/plugin/impl/DataProcessorPlugin.java:83 | text made only of whitespace splits to an empty array |
| JavaNumbers.WrapInt | src/main/java/com/example/pf4jscaffold/config/DatabaseConfig.java:199 | 32-bit wrap-around: the result is congruent to the input modulo 2^32 and equals it when the input is in `int` range |
| JavaNumbers.IntToString | src/main/java/com/example/pf4jscaffold/config/DatabaseConfig.java:111 | decimal text of an integer: digits, with a leading `-` exactly for negatives |
| JavaNumbers.ParseInteger | src/main/java/com/example/pf4j/service/PluginMethodService.java:191-193 | a parsed value lies within the target range, and empty text is rejected |
| JavaNumbers.ParseIntRoundTrip | src/main/java/com/example/pf4j/service/PluginMethodService.java:191 | `Integer.valueOf(String.valueOf(x)) == x` for every `int` |
| JavaNumbers.ParseLongRoundTrip | src/main/java/com/example/pf4j/service/PluginMethodService.java:193 | `Long.valueOf(String.valueOf(x)) == x` for every `long` |
| JavaNumbers.IntToStringInjective | src/main/java/com/example/pf4j/service/PluginMethodService.java:191-193 | distinct integers have distinct decimal texts |
| JavaNumbers.ParseBoolean | src/main/java/com/example/pf4j/service/PluginMethodService.java:195 | `Boolean.valueOf` is true exactly for "true" in any letter case |
| Values.Lookup | plugins/hello-plugin/src/main/java/com/example/plugin/hello/HelloExtension.java:104 | a map lookup finds a value exactly when some entry has that key, and the value is that entry's |
| Values.LookupAt | src/main/java/com/example/pf4j/plugin/impl/DataProcessorPlugin.java:143 | the first entry with a key is the one a lookup returns |
| Values.Put | src/main/java/com/example/pf4j/plugin/impl/DataProcessorPlugin.java:143 | `put` binds the key, leaves every other key as it was, and keeps keys distinct |
| Values.Remove | plugins/useradmin/src/main/java/com/example/plugin/useradmin/UserAdminExtension.java:192-202 | `remove` unbinds the key and leaves every other key as it was |
| Values.CastString | plugins/useradmin/src/main/java/com/example/plugin/useradmin/UserAdminExtension.java:133-147 | `(String) obj`: null passes as null, a string as itself, and anything else raises `ClassCastException` |
| Responses.JsonKeys | src/main/java/com/example/pf4jscaffold/common/ApiResponse.java:9 | only non-null fields are serialised |
| Responses.Success | src/main/java/com/example/pf4jscaffold/common/ApiResponse.java:32-34 | code 200 and message "success", serialised with no data field |
| Responses.SuccessWith | src/main/java/com/example/pf4jscaffold/common/ApiResponse.java:39-41 | code 200, message "success" and the data; null data is the plain success |
| Responses.SuccessWithMessage | src/main/java/com/example/pf4jscaffold/common/ApiResponse.java:46-48 | code 200 with the given message and data |
| Responses.Error | src/main/java/com/example/pf4jscaffold/common/ApiResponse.java:53-55 | code 400 with the message and no data, never equal to a success |
| Responses.ServerError | src/main/java/com/example/pf4jscaffold/common/ApiResponse.java:60-62 | code 500 with the message and no data, never equal to a client error |
| Responses.Custom | src/main/java/com/example/pf4jscaffold/common/ApiResponse.java:67-69 | keeps the given fields, and agrees with the named factories for codes 200 and 400 |
| Responses.NewResultt | src/main/java/com/example/pf4jscaffold/common/utils/Resultt.java:15-16 | the no-argument constructor leaves code 0 and null message and data |
| Responses.NewResulttWithoutData | src/main/java/com/example/pf4jscaffold/common/utils/Resultt.java:18-21 | the two-argument constructor leaves the data null |
| Responses.ResulttSuccessWith | src/main/java/com/example/pf4jscaffold/common/utils/Resultt.java:27-29 | `success(data)` is code 200, message "success" |
| Responses.ResulttSuccess | src/main/java/com/example/pf4jscaffold/common/utils/Resultt.java:23-25 | `success()` is `success(null)` |
| Responses.ResulttError | src/main/java/com/example/pf4jscaffold/common/utils/Resultt.java:31-33 | `error(code, msg)` is the two-argument constructor |
| Responses.SettersRebuildResultt | src/main/java/com/example/pf4jscaffold/common/utils/Resultt.java:35-63 | the three setters, in either order, rebuild what the three-argument constructor makes |
| Security.CurrentUsername | src/main/java/com/example/pf4j/service/AuthService.java:20-31 | a user-details principal yields its username, any other principal its text, and no or unauthenticated authentication yields null |
| Security.IsAuthenticated | src/main/java/com/example/pf4j/service/AuthService.java:38-42 | authenticated and not named "anonymousUser" |
| Security.IsAdmin | src/main/java/com/example/pf4j/service/AuthService.java:49-56 | authenticated and holding ROLE_ADMIN |
| Security.AnonymousAdmin | src/main/java/com/example/pf4j/service/AuthService.java:38-56 | an anonymous token holding ROLE_ADMIN counts as admin but not as authenticated |
| Security.UsernameNeedsAuthentication | src/main/java/com/example/pf4j/service/AuthService.java:20-56 | every positive answer implies an authenticated token |
| Security.PreHandle | src/main/java/com/example/pf4j/interceptor/SecurityInterceptor.java:26-55 | paths outside `/api` pass untouched; inside it, unauthenticated requests get 401 and non-admins 403; a request passes exactly when it is outside `/api` or made by an authenticated admin |
| Security.UnauthenticatedNeverForbidden | src/main/java/com/example/pf4j/interceptor/SecurityInterceptor.java:34-49 | the 401 check comes first, so an unauthenticated caller never sees 403 |
| Security.BareApiPathPasses | src/main/java/com/example/pf4j/interceptor/SecurityInterceptor.java:33 | the prefix test is on `/api/`, so `/api` itself is not guarded |
| PluginModel.FindFirst | src/main/java/com/example/pf4j/service/PluginMethodService.java:101-128 | the index of the first element satisfying the predicate, or none when none does |
| PluginModel.Filter | src/main/java/com/example/pf4j/controller/ApiDocController.java:111-140 | keeps exactly the elements satisfying the predicate, as many as `CountWhere` counts |
| PluginModel.MethodInfo | src/main/java/com/example/pf4j/service/PluginMethodService.java:241-253 | a method's description holds its name, return type and one entry per parameter |
| PluginModel.ParamInfos | src/main/java/com/example/pf4j/service/PluginMethodService.java:245-252 | one name/type entry per parameter, in order |
| PluginModel.MethodInfos | src/main/java/com/example/pf4j/service/PluginMethodService.java:238-257 | the description of each kept method, in declaration order |
| PluginService.GetPluginByName | src/main/java/com/example/pf4j/service/PluginService.java:41-47 | the first plugin with that name, or null exactly when none has it |
| PluginService.ExecutePlugin | src/main/java/com/example/pf4j/service/PluginService.java:55-69 | an unknown name gives the "not found" text; otherwise the plugin's answer, or the failure text when it throws |
| PluginService.StartPlugin | src/main/java/com/example/pf4j/service/PluginService.java:93-102 | true exactly when the manager call does not throw |
| PluginService.StopPlugin | src/main/java/com/example/pf4j/service/PluginService.java:109-118 | true exactly when the manager call does not throw |
| PluginService.RunUntilFailure | src/main/java/com/example/pf4j/service/PluginService.java:123-133 | a prefix of the steps, stopping at the first one that throws |
| PluginService.ReloadPlugins | src/main/java/com/example/pf4j/service/PluginService.java:123-133 | stop, unload, load and start, in that order, stopping at the first failure |
| PluginService.StateTextInjective | src/main/java/com/example/pf4j/service/PluginService.java:153-172 | distinct plugin states have distinct texts, so counting by text counts by state |
| PluginService.CountInState | src/main/java/com/example/pf4j/service/PluginService.java:150-166 | the count is zero exactly when no plugin is in the state |
| PluginService.Increment | src/main/java/com/example/pf4j/service/PluginService.java:170-174 | `groupingBy(..., counting())` step: one key goes up by one, every other key is unchanged, and keys stay distinct |
| PluginService.Distribution | src/main/java/com/example/pf4j/service/PluginService.java:170-174 | the status distribution has distinct keys, sums to the number of plugins and gives each state its count |
| PluginService.GetPluginStats | src/main/java/com/example/pf4j/service/PluginService.java:139-178 | the total, started, stopped and failed counts agree with the wrappers, and so does the distribution |
| PluginService.StatsCountsBounded | src/main/java/com/example/pf4j/service/PluginService.java:150-166 | started + stopped + failed never exceeds the total |
| PluginMethodService.GetPluginInstance | src/main/java/com/example/pf4j/service/PluginMethodService.java:70-91 | the first plugin matching by id or stripped class name; failing that, the first extension matching by containment or stripped name; null exactly when nothing matches |
| PluginMethodService.EmptyNameSelectsFirstExtension | src/main/java/com/example/pf4j/service/PluginMethodService.java:83-85 | every class name contains "", so an empty name selects the first extension |
| PluginMethodService.HelloExtensionLookup | src/main/java/com/example/pf4j/service/PluginMethodService.java:74-85 | "hello" finds `HelloExtension` through the stripped plugin name; "Hello" misses there but finds it through the case-insensitive extension match |
| PluginMethodService.FindMethod | src/main/java/com/example/pf4j/service/PluginMethodService.java:101-128 | the first method with the name and a fitting parameter count, else the first with the name, else null |
| PluginMethodService.DefaultValue | src/main/java/com/example/pf4j/service/PluginMethodService.java:209-219 | null exactly for reference types; the default is always an acceptable argument |
| PluginMethodService.ConvertParameter | src/main/java/com/example/pf4j/service/PluginMethodService.java:178-201 | null becomes the default, an assignable value passes, strings are parsed for numbers and booleans, and only numeric parsing can fail |
| PluginMethodService.ConvertedArgumentAccepted | src/main/java/com/example/pf4j/service/PluginMethodService.java:178-198 | a successful conversion to a supported type yields an acceptable argument |
| PluginMethodService.IntConversionRoundTrip | src/main/java/com/example/pf4j/service/PluginMethodService.java:178-191 | an `Integer` for an `int` parameter is not assignable, so it goes through its decimal text, and still arrives unchanged |
| PluginMethodService.LongConversionRoundTrip | src/main/java/com/example/pf4j/service/PluginMethodService.java:178-193 | a `Long` for a `long` parameter goes through its decimal text and arrives unchanged |
| PluginMethodService.NonNumericIntArgument | src/main/java/com/example/pf4j/service/PluginMethodService.java:190-195 | "abc" for an `int` raises NumberFormatException; "5" becomes 5; "TRUE" becomes true |
| PluginMethodService.BindEach | src/main/java/com/example/pf4j/service/PluginMethodService.java:150-166 | arguments are bound left to right, and the first failure is the one reported |
| PluginMethodService.PrepareMethodArguments | src/main/java/com/example/pf4j/service/PluginMethodService.java:137-169 | one argument per parameter; without parameters every argument is its type's default |
| PluginMethodService.DefaultArgumentsAccepted | src/main/java/com/example/pf4j/service/PluginMethodService.java:141-147 | a call without parameters always binds acceptable arguments |
| PluginMethodService.ExecuteMethod | src/main/java/com/example/pf4j/service/PluginMethodService.java:38-62 | unknown plugin gives IllegalArgumentException and unknown method NoSuchMethodException; otherwise the method `findMethod` picked on the instance found is called with the arguments `prepareMethodArguments` bound: a binding failure is reported as is, unacceptable arguments give "argument type mismatch", a returned value is the result and a thrown exception becomes an `InvocationTargetException` |
| PluginMethodService.GetPluginMethods | src/main/java/com/example/pf4j/service/PluginMethodService.java:228-287 | fails exactly for an unknown plugin; otherwise the class name and one entry per method that is not hidden |
| PluginMethodService.ShouldIncludeMethod | src/main/java/com/example/pf4j/service/PluginMethodService.java:270-287 | getters other than `getClass`, setters and `is` methods are always listed |
| PluginMethodService.HiddenNamesAreNotAccessors | src/main/java/com/example/pf4j/service/PluginMethodService.java:272-275 | of the hidden `Object` method names only `getClass` looks like an accessor |
| PluginMethodController.MapOf | src/main/java/com/example/pf4j/controller/PluginMethodController.java:45-49 | `Map.of` succeeds exactly when no value is null |
| PluginMethodController.Envelope | src/main/java/com/example/pf4j/controller/PluginMethodController.java:50-54 | always HTTP 200: a success carries the data, a failure the prefixed message |
| PluginMethodController.ExecutionData | src/main/java/com/example/pf4j/controller/PluginMethodController.java:44-49 | plugin, method and result, provided the result is not null |
| PluginMethodController.ExecutePluginMethod | src/main/java/com/example/pf4j/controller/PluginMethodController.java:36-55 | a non-null result is wrapped in a success; an exception or a null result becomes an error |
| PluginMethodController.ExecutePluginMethodGet | src/main/java/com/example/pf4j/controller/PluginMethodController.java:65-83 | the GET form is the POST form without parameters |
| PluginMethodController.ThrowingAndVoidMethodsLookAlike | src/main/java/com/example/pf4j/controller/PluginMethodController.java:44-54 | a method that throws and a method that returns null produce the same response |
| PluginMethodController.GetPluginMethods | src/main/java/com/example/pf4j/controller/PluginMethodController.java:92-104 | wraps the method listing, or its error, in the envelope |
| ApiDocController.IsPluginMethodCases | src/main/java/com/example/pf4j/controller/ApiDocController.java:145-165 | Object's methods and the lifecycle methods are excluded; interface methods are included; other methods are included unless they are getters or setters |
| ApiDocController.IsPluginMethod | src/main/java/com/example/pf4j/controller/ApiDocController.java:145-165 | an included method is not declared by `Object` and is not `initialize` or `destroy`; every interface method not declared by `Object` is included |
| ApiDocController.GettersAreHidden | src/main/java/com/example/pf4j/controller/ApiDocController.java:159-164 | `getCount` is hidden, `process` is shown, and the interface method `getPluginName` is shown |
| ApiDocController.PluginDoc | src/main/java/com/example/pf4j/controller/ApiDocController.java:86-106 | each plugin is documented with its name, version, description, its call endpoint and its documented methods |
| ApiDocController.DocumentedMethods | src/main/java/com/example/pf4j/controller/ApiDocController.java:111-140 | the documented methods are exactly the plugin methods that pass the filter, as many as pass it, each described by its own method, and never a lifecycle method |
| ApiDocController.KeptMethodsListed | src/main/java/com/example/pf4j/controller/ApiDocController.java:117-124 | every method that passes the filter has its description in the list |
| ApiDocController.GeneratePluginDocs | src/main/java/com/example/pf4j/controller/ApiDocController.java:86-106 | one document per plugin, in order |
| ApiDocController.GetSystemApis | src/main/java/com/example/pf4j/controller/ApiDocController.java:170-202 | one API description per table row |
| ApiDocController.SystemApisGrouping | src/main/java/com/example/pf4j/controller/ApiDocController.java:170-190 | the ten system APIs: six under `/api/plugins`, two elsewhere, two under `/database/api/` |
| ApiDocController.DocsData | src/main/java/com/example/pf4j/controller/ApiDocController.java:51-61 | plugins, system APIs and a count equal to the number of plugins |
| ApiDocController.GetApiDocsData | src/main/java/com/example/pf4j/controller/ApiDocController.java:51-61 | always a 200 success carrying the docs data |
| ApiDocController.CallPluginApi | src/main/java/com/example/pf4j/controller/ApiDocController.java:68-81 | always a success carrying whatever `executePlugin` returned for the body's `input` |
| ApiDocController.UnknownPluginCallSucceeds | src/main/java/com/example/pf4j/controller/ApiDocController.java:72-80 | calling an unknown plugin still answers code 200, with the "not found" text as data |
| DatabaseConfigModel.GetJdbcUrl | src/main/java/com/example/pf4jscaffold/config/DatabaseConfig.java:104-115 | a non-blank url wins, trimmed; otherwise the url is built from host, port and database; null exactly when neither is possible |
| DatabaseConfigModel.IsValid | src/main/java/com/example/pf4jscaffold/config/DatabaseConfig.java:122-135 | a valid configuration has a JDBC url and a non-blank username |
| DatabaseConfigModel.IsValidCases | src/main/java/com/example/pf4jscaffold/config/DatabaseConfig.java:122-135 | valid exactly when the username is non-blank and either the url is non-blank or host and database are non-blank with a port in 1..65535 |
| DatabaseConfigModel.CreateDefault | src/main/java/com/example/pf4jscaffold/config/DatabaseConfig.java:158-172 | the default localhost:3306/pf4j_db configuration, with its pool and timeout settings |
| DatabaseConfigModel.DefaultIsValid | src/main/java/com/example/pf4jscaffold/config/DatabaseConfig.java:158-172 | the default configuration passes validation |
| DatabaseConfigModel.CopyWithoutPassword | src/main/java/com/example/pf4jscaffold/config/DatabaseConfig.java:227-242 | only the password is dropped, so validity and the url are unchanged |
| DatabaseConfigModel.WithDatabase | src/main/java/com/example/pf4jscaffold/config/DatabaseConfig.java:206-212 | without `?` the whole part is the database; with `?` the database is the text before the first `?`, and a part made only of `?` leaves the configuration unchanged (the index exception is caught) |
| DatabaseConfigModel.WithHostPortAndDatabase | src/main/java/com/example/pf4jscaffold/config/DatabaseConfig.java:192-213 | without `:` the whole part is the host; with `:` the host is the text before the first `:`, the port is set exactly when the second piece parses as an `int`, and a missing second piece skips the port and database steps |
| DatabaseConfigModel.FromUrl | src/main/java/com/example/pf4jscaffold/config/DatabaseConfig.java:180-220 | keeps the url and default credentials; a null or non-MySQL url leaves the other defaults |
| DatabaseConfigModel.FromUrlOfBuiltUrl | src/main/java/com/example/pf4jscaffold/config/DatabaseConfig.java:104-220 | parsing the url built from host, port and database gives them back |
| DatabaseConfigModel.FromUrlKeepsDefaultPort | src/main/java/com/example/pf4jscaffold/config/DatabaseConfig.java:195-212 | an unparsable port keeps 3306, and the host and database are still read |
| DatabaseConfigModel.FromUrlEmptyPortSkipsDatabase | src/main/java/com/example/pf4jscaffold/config/DatabaseConfig.java:195-217 | `host:` splits to one piece, so reading the port throws and the outer catch skips the database part |
| ConfigService.DisplayMessage | src/main/java/com/example/pf4jscaffold/service/DatabaseConfigService.java:302-304 | the message, then " (耗时: ", the duration and "ms)" |
| ConfigService.DisplayMessageDeterminesDuration | src/main/java/com/example/pf4jscaffold/service/DatabaseConfigService.java:302-304 | for messages of equal length, equal display text means equal message and duration |
| ConfigService.TestConnection | src/main/java/com/example/pf4jscaffold/service/DatabaseConfigService.java:134-180 | invalid or null configurations fail with duration 0; success exactly when valid and the probe connects |
| ConfigService.GetCurrentConfig | src/main/java/com/example/pf4jscaffold/service/DatabaseConfigService.java:63-68 | returns the cached configuration, loading it once when there is none |
| ConfigService.ReloadDataSource | src/main/java/com/example/pf4jscaffold/service/DatabaseConfigService.java:185-208 | an invalid configuration leaves no data source; otherwise a built one, or a RuntimeException carrying the cause |
| ConfigService.BackupCurrent | src/main/java/com/example/pf4jscaffold/service/DatabaseConfigService.java:93-96 | only a valid current configuration is backed up |
| ConfigService.UpdateConfig | src/main/java/com/example/pf4jscaffold/service/DatabaseConfigService.java:76-117 | rejected without a change unless valid and connectable; succeeds exactly when the configuration is valid and connects, the backup and the save do not throw and the data source builds; once the backup passes the new configuration is installed, even if a later step fails; the manager is only ever asked to back up and then save |
| ConfigService.UnsavedConfigStillApplies | src/main/java/com/example/pf4jscaffold/service/DatabaseConfigService.java:101-111 | a save that answers false is only logged: once the backup passes, the update still succeeds |
| ConfigService.FailedReloadKeepsNewConfig | src/main/java/com/example/pf4jscaffold/service/DatabaseConfigService.java:98-116 | once the backup passes, a reload failure reports false but leaves the new configuration in place without a data source |
| ConfigService.UpdateBackupRule | src/main/java/com/example/pf4jscaffold/service/DatabaseConfigService.java:76-117 | the manager is touched only after a successful test, and any backup is of the previous valid configuration |
| ConfigService.ResetToDefault | src/main/java/com/example/pf4jscaffold/service/DatabaseConfigService.java:242-265 | succeeds unless the backup or the delete throws, and then installs the default without a data source |
| ConfigService.Init | src/main/java/com/example/pf4jscaffold/service/DatabaseConfigService.java:41-56 | loads the configuration; a valid one is built, and a build failure falls back to the default |
| ConfigService.IsConnected | src/main/java/com/example/pf4jscaffold/service/DatabaseConfigService.java:215-223 | true exactly when the current configuration is valid and connects |
| ConfigService.GetCurrentDataSource | src/main/java/com/example/pf4jscaffold/service/DatabaseConfigService.java:230-235 | the cached data source; when there is none, nothing for an invalid configuration, else the freshly built data source, or the reload's RuntimeException when building throws |
| LegacyConfigService.GetProperty | src/main/java/com/example/pf4j/service/DatabaseConfigService.java:108-115 | the dynamic property source, added first, shadows the base environment |
| LegacyConfigService.GetOrDefault | src/main/java/com/example/pf4j/service/DatabaseConfigService.java:94-99 | `getOrDefault` falls back only for a missing key; a key mapped to null stays null |
| LegacyConfigService.UrlToStore | src/main/java/com/example/pf4j/service/DatabaseConfigService.java:91-106 | a non-empty url is kept; otherwise a MySQL url is built from host, port and database |
| LegacyConfigService.UpdateConfig | src/main/java/com/example/pf4j/service/DatabaseConfigService.java:84-131 | stores exactly the four datasource properties and the current configuration; a null map fails |
| LegacyConfigService.UrlDetails | src/main/java/com/example/pf4j/service/DatabaseConfigService.java:57-69 | adds host, port and database only for urls with more than three slash-separated parts |
| LegacyConfigService.GetCurrentConfig | src/main/java/com/example/pf4j/service/DatabaseConfigService.java:43-76 | url, username and driver from the environment, with the password masked |
| LegacyConfigService.TestConnection | src/main/java/com/example/pf4j/service/DatabaseConfigService.java:138-162 | fails without a url and username; otherwise it is the connection attempt on the stored settings |
| LegacyConfigService.ReloadDataSource | src/main/java/com/example/pf4j/service/DatabaseConfigService.java:221-251 | replaces the data source only when url and username exist and the build succeeds |
| LegacyConfigService.UrlDetailsOfLegacyUrl | src/main/java/com/example/pf4j/service/DatabaseConfigService.java:57-69 | reading a built url gives back its host, port and database |
| LegacyConfigService.UpdateThenReadRoundTrip | src/main/java/com/example/pf4j/service/DatabaseConfigService.java:43-106 | updating with host, port and database and then reading the configuration returns them |
| LegacyConfigController.IsValidConfig | src/main/java/com/example/pf4j/controller/DatabaseConfigController.java:183-192 | url, username and password keys present; url and username non-null and non-blank |
| LegacyConfigController.PasswordUnconstrained | src/main/java/com/example/pf4j/controller/DatabaseConfigController.java:186-191 | the password key must be present but its value is never checked |
| LegacyConfigController.UrlRequired | src/main/java/com/example/pf4j/controller/DatabaseConfigController.java:187-189 | a missing, null or blank url is rejected |
| LegacyConfigController.UpdateConfig | src/main/java/com/example/pf4j/controller/DatabaseConfigController.java:79-111 | an invalid body gets 400 and no change; a valid one is stored and gets 200 |
| LegacyConfigController.UpdateAcceptsExactlyValid | src/main/java/com/example/pf4j/controller/DatabaseConfigController.java:79-111 | 200 exactly for valid bodies, and then the stored url is the body's url |
| JavaAdminEntity.NewJavaAdmin | src/main/java/com/example/pf4j/entity/JavaAdmin.java:60-93 | a fresh entity has status 1 and role "user", and nothing else set |
| JavaAdminEntity.NewWithCredentials | src/main/java/com/example/pf4j/entity/JavaAdmin.java:98-104 | sets the credentials and both timestamps to now |
| JavaAdminEntity.OnCreate | src/main/java/com/example/pf4j/entity/JavaAdmin.java:110-113 | sets both timestamps and nothing else |
| JavaAdminEntity.OnUpdate | src/main/java/com/example/pf4j/entity/JavaAdmin.java:119-121 | sets the update time and nothing else |
| JavaAdminEntity.EqualsIsAnEquivalence | src/main/java/com/example/pf4j/entity/JavaAdmin.java:206-212 | equality by id and username is reflexive, symmetric and transitive, and never holds for null or another class |
| JavaAdminEntity.EqualityIgnoresOtherFields | src/main/java/com/example/pf4j/entity/JavaAdmin.java:206-212 | changing status, password or update time keeps an entity equal to what it was |
| JavaAdminEntity.EqualsDependsOnlyOnIdentity | src/main/java/com/example/pf4j/entity/JavaAdmin.java:205-212 | two entities with the same id and user name are equal, and equal to exactly the same entities in either direction, whatever their other fields |
| JavaAdminEntity.DifferentIdentityNotEqual | src/main/java/com/example/pf4j/entity/JavaAdmin.java:209-211 | a different id or user name makes two entities unequal, in either direction |
| JavaAdminEntity.Equals | src/main/java/com/example/pf4j/entity/JavaAdmin.java:206-212 | only another entity can be equal, and an entity is equal to itself |
| JavaAdminEntity.LongHash | src/main/java/com/example/pf4j/entity/JavaAdmin.java:216 | `Long.hashCode` is the identity on non-negative `int`-sized ids |
| JavaAdminEntity.StringHash | src/main/java/com/example/pf4j/entity/JavaAdmin.java:216 | `String.hashCode` is 0 for "" and the character code for one character |
| JavaAdminEntity.HashCode | src/main/java/com/example/pf4j/entity/JavaAdmin.java:215-217 | `Objects.hash(id, username)`: 961 when both are null, 961 + 31·id for a small id alone |
| JavaAdminEntity.EqualsImpliesSameHash | src/main/java/com/example/pf4j/entity/JavaAdmin.java:205-217 | equal entities have equal hash codes |
| JavaAdminEntity.CredentialsWithinLimits | src/main/java/com/example/pf4j/entity/JavaAdmin.java:31-69 | a new entity meets the declared limits exactly when its username and password are non-blank and within 50 and 255 characters and its email is within 100 |
| JavaAdminEntity.DefaultEntityIsIncomplete | src/main/java/com/example/pf4j/entity/JavaAdmin.java:31-40 | the no-argument entity violates the not-blank constraints |
| JavaAdminRepository.EmptyIsValid | src/main/java/com/example/pf4j/repository/JavaAdminRepository.java:26 | the empty table satisfies the id invariant |
| JavaAdminRepository.Where | src/main/java/com/example/pf4j/repository/JavaAdminRepository.java:74-91 | a derived query keeps exactly the rows satisfying its condition |
| JavaAdminRepository.CountIsSizeOfWhere | src/main/java/com/example/pf4j/repository/JavaAdminRepository.java:126-134 | a count query equals the size of the matching find |
| JavaAdminRepository.FindById | src/main/java/com/example/pf4j/repository/JavaAdminRepository.java:26 | present exactly when the id is a key, and then that row |
| JavaAdminRepository.FindUnique | src/main/java/com/example/pf4j/repository/JavaAdminRepository.java:34-50 | an `Optional` finder fails on more than one match, is empty on none, and otherwise returns the match |
| JavaAdminRepository.FindByUsername | src/main/java/com/example/pf4j/repository/JavaAdminRepository.java:34 | a found row has the username; empty exactly when no row has it; a failure only when two distinct rows have it |
| JavaAdminRepository.FindByEmail | src/main/java/com/example/pf4j/repository/JavaAdminRepository.java:42 | a found row has the email; empty exactly when no row has it; a failure only when two distinct rows have it |
| JavaAdminRepository.FindByPhone | src/main/java/com/example/pf4j/repository/JavaAdminRepository.java:50 | a found row has the phone; empty exactly when no row has it; a failure only when two distinct rows have it |
| JavaAdminRepository.ExistsByUsername | src/main/java/com/example/pf4j/repository/JavaAdminRepository.java:58 | true exactly when some row has the username |
| JavaAdminRepository.ExistsByEmail | src/main/java/com/example/pf4j/repository/JavaAdminRepository.java:66 | true exactly when some row has the email |
| JavaAdminRepository.ExistsAgreesWithFind | src/main/java/com/example/pf4j/repository/JavaAdminRepository.java:34-58 | `existsByUsername` is false exactly when `findByUsername` answers empty |
| JavaAdminRepository.FindByStatus | src/main/java/com/example/pf4j/repository/JavaAdminRepository.java:74 | exactly the rows with that status |
| JavaAdminRepository.FindByRole | src/main/java/com/example/pf4j/repository/JavaAdminRepository.java:82 | exactly the rows with that role |
| JavaAdminRepository.FindByStatusAndRole | src/main/java/com/example/pf4j/repository/JavaAdminRepository.java:91 | the rows with that status, narrowed to that role |
| JavaAdminRepository.CountByStatus | src/main/java/com/example/pf4j/repository/JavaAdminRepository.java:126 | the number of rows with that status |
| JavaAdminRepository.CountByRole | src/main/java/com/example/pf4j/repository/JavaAdminRepository.java:134 | the number of rows with that role |
| JavaAdminRepository.CountsMatchFinds | src/main/java/com/example/pf4j/repository/JavaAdminRepository.java:74-134 | `countByStatus`/`countByRole` equal the sizes of the matching finds |
| JavaAdminRepository.Like | src/main/java/com/example/pf4j/repository/JavaAdminRepository.java:194-195 | `column LIKE %x%` holds exactly when the column is not null and `x` occurs in it at some offset |
| JavaAdminRepository.FindByUsernameContaining | src/main/java/com/example/pf4j/repository/JavaAdminRepository.java:100 | rows whose username contains the text; a null username never matches |
| JavaAdminRepository.FindByEmailContaining | src/main/java/com/example/pf4j/repository/JavaAdminRepository.java:109 | rows whose email contains the text; a null email never matches |
| JavaAdminRepository.FindByCreateTimeBetween | src/main/java/com/example/pf4j/repository/JavaAdminRepository.java:118 | rows created within the closed interval |
| JavaAdminRepository.FindByMultipleConditions | src/main/java/com/example/pf4j/repository/JavaAdminRepository.java:193-203 | a null parameter imposes no condition; with all four null, every row |
| JavaAdminRepository.EmptyPatternExcludesNull | src/main/java/com/example/pf4j/repository/JavaAdminRepository.java:195 | `LIKE '%%'` still excludes a row whose email is null |
| JavaAdminRepository.Save | src/main/java/com/example/pf4j/repository/JavaAdminRepository.java:26 | a new entity gets the next id and creation timestamps; an existing id is updated in place keeping its creation time; nothing else changes |
| JavaAdminRepository.SaveAll | src/main/java/com/example/pf4j/repository/JavaAdminRepository.java:26 | saves each entity in turn, keeping the old rows and giving every saved entity an id |
| JavaAdminRepository.DeleteById | src/main/java/com/example/pf4j/repository/JavaAdminRepository.java:26 | removes exactly that row, and fails when it is absent |
| JavaAdminRepository.DeleteAllById | src/main/java/com/example/pf4j/repository/JavaAdminRepository.java:26 | a success keeps the id invariant and only removes rows |
| JavaAdminRepository.DeleteAllByIdSucceeds | src/main/java/com/example/pf4j/repository/JavaAdminRepository.java:26 | succeeds exactly when the ids are distinct and all present |
| JavaAdminRepository.DeleteAllByIdRows | src/main/java/com/example/pf4j/repository/JavaAdminRepository.java:26 | leaves exactly the rows not listed, unchanged |
| JavaAdminRepository.UpdateStatusById | src/main/java/com/example/pf4j/repository/JavaAdminRepository.java:143-146 | changes status and update time of that row only and reports 1 or 0 |
| JavaAdminRepository.UpdatePasswordById | src/main/java/com/example/pf4j/repository/JavaAdminRepository.java:155-158 | changes password and update time of that row only and reports 1 or 0 |
| JavaAdminRepository.UpdateStatusByIds | src/main/java/com/example/pf4j/repository/JavaAdminRepository.java:167-170 | updates exactly the listed rows that exist and reports how many |
| JavaAdminRepository.DeleteByCreateTimeBefore | src/main/java/com/example/pf4j/repository/JavaAdminRepository.java:178-181 | deletes exactly the rows created before the time and reports how many |
| JavaAdminRepository.SumWhen | src/main/java/com/example/pf4j/repository/JavaAdminRepository.java:212-215 | SQL `SUM(CASE ...)` is null on an empty table and otherwise the count |
| JavaAdminRepository.UserStatisticsRow | src/main/java/com/example/pf4j/repository/JavaAdminRepository.java:210-217 | the count, then the enabled, disabled, admin and user sums: all four null on an empty table, and otherwise each equal to the number of matching rows |
| JavaAdminRepository.StatisticsBounded | src/main/java/com/example/pf4j/repository/JavaAdminRepository.java:210-217 | enabled + disabled and admin + user never exceed the total |
| DatabaseService.Guarded | src/main/java/com/example/pf4j/service/DatabaseService.java:47-55 | an answer passes through; any failure becomes a RuntimeException with the operation's prefix and the cause's message |
| DatabaseService.FailuresCarryPrefix | src/main/java/com/example/pf4j/service/DatabaseService.java:47-55 | every failure is a RuntimeException whose message starts with the prefix |
| DatabaseService.Save | src/main/java/com/example/pf4j/service/DatabaseService.java:47-55 | the repository save, or the prefixed failure |
| DatabaseService.SaveAll | src/main/java/com/example/pf4j/service/DatabaseService.java:63-71 | the repository saveAll, or the prefixed failure |
| DatabaseService.FindById | src/main/java/com/example/pf4j/service/DatabaseService.java:80-88 | the repository lookup; a null id fails with Spring's message |
| DatabaseService.FindByUsername | src/main/java/com/example/pf4j/service/DatabaseService.java:97-105 | the repository answer whenever it has one |
| DatabaseService.FindByEmail | src/main/java/com/example/pf4j/service/DatabaseService.java:184-192 | the repository answer whenever it has one |
| DatabaseService.FindByPhone | src/main/java/com/example/pf4j/service/DatabaseService.java:201-209 | the repository answer whenever it has one |
| DatabaseService.FindAll | src/main/java/com/example/pf4j/service/DatabaseService.java:113-121 | every row |
| DatabaseService.DeleteById | src/main/java/com/example/pf4j/service/DatabaseService.java:150-158 | removes exactly the row, failing with the prefix when the id is null or missing |
| DatabaseService.DeleteByIds | src/main/java/com/example/pf4j/service/DatabaseService.java:165-173 | the repository deleteAllById, failures prefixed |
| DatabaseService.FindByStatus | src/main/java/com/example/pf4j/service/DatabaseService.java:218-226 | the repository answer |
| DatabaseService.FindByRole | src/main/java/com/example/pf4j/service/DatabaseService.java:235-243 | the repository answer |
| DatabaseService.FindByConditions | src/main/java/com/example/pf4j/service/DatabaseService.java:259-292 | blank text filters are ignored, others narrow the rows; without filters, every row |
| DatabaseService.ConditionsAgreeWithRepository | src/main/java/com/example/pf4j/service/DatabaseService.java:265-281 | with non-blank filters the service query equals the repository's multi-condition query |
| DatabaseService.BlankFilterIsIgnoredHereOnly | src/main/java/com/example/pf4j/service/DatabaseService.java:265-268 | a blank username filter keeps a row with a null username, which the repository query would drop |
| DatabaseService.ExistsByUsername | src/main/java/com/example/pf4j/service/DatabaseService.java:303-311 | the repository answer |
| DatabaseService.ExistsByEmail | src/main/java/com/example/pf4j/service/DatabaseService.java:320-328 | the repository answer |
| DatabaseService.UpdateStatus | src/main/java/com/example/pf4j/service/DatabaseService.java:337-346 | true exactly when a row was updated |
| DatabaseService.UpdatePassword | src/main/java/com/example/pf4j/service/DatabaseService.java:355-364 | true exactly when a row was updated |
| DatabaseService.BatchUpdateStatus | src/main/java/com/example/pf4j/service/DatabaseService.java:373-381 | the number of listed ids that exist |
| DatabaseService.Count | src/main/java/com/example/pf4j/service/DatabaseService.java:391-399 | the number of rows |
| DatabaseService.CountByStatus | src/main/java/com/example/pf4j/service/DatabaseService.java:408-416 | the size of the status find |
| DatabaseService.CountByRole | src/main/java/com/example/pf4j/service/DatabaseService.java:425-433 | the size of the role find |
| DatabaseService.StatisticsMap | src/main/java/com/example/pf4j/service/DatabaseService.java:444-453 | the five statistics under their five keys |
| DatabaseService.GetUserStatisticsAsWritten | src/main/java/com/example/pf4j/service/DatabaseService.java:441-458 | as written: a non-empty table gives the five statistics; on an empty table `longValue()` is called on a null sum and the call fails with the statistics prefix followed by the NullPointerException's message, which is a parameter |
| DatabaseService.StatisticsCallAsWritten | src/main/java/com/example/pf4j/service/DatabaseService.java:444-453 | the try block as written: the five statistics of a non-empty table, and a NullPointerException on the empty one |
| DatabaseService.StatisticsOfEmptyTableFail | src/main/java/com/example/pf4j/service/DatabaseService.java:444-453 | whatever the NullPointerException says, the statistics of an empty table fail with the statistics prefix |
| DatabaseService.GetUserStatistics | src/main/java/com/example/pf4j/service/DatabaseService.java:441-458 | corrected: always the five statistics, with total, enabled, disabled, admin and user as counted |
| DatabaseService.StatisticsCorrection | src/main/java/com/example/pf4j/service/DatabaseService.java:441-458 | the correction agrees with the original on non-empty tables and gives zeros on the empty one |
| DatabaseService.StatisticsBounded | src/main/java/com/example/pf4j/service/DatabaseService.java:441-458 | enabled + disabled and admin + user never exceed the total |
| DatabaseUtil.Initialize | src/main/java/com/example/pf4j/util/DatabaseUtil.java:33-43 | takes the first extension when there is one and otherwise changes nothing |
| DatabaseUtil.InitializeKeepsAnExtension | src/main/java/com/example/pf4j/util/DatabaseUtil.java:33-43 | a second initialisation never loses the extension |
| DatabaseUtil.Forward | src/main/java/com/example/pf4j/util/DatabaseUtil.java:48-52 | before initialisation every call fails with a RuntimeException saying the service is not initialised; after it, the service answer |
| DatabaseUtil.CreateUser | src/main/java/com/example/pf4j/util/DatabaseUtil.java:323-327 | a saved, enabled "user" with the credentials, under a fresh id |
| DatabaseUtil.CreateAdmin | src/main/java/com/example/pf4j/util/DatabaseUtil.java:337-342 | an enabled admin |
| DatabaseUtil.CreateAdminIsCreateUserWithRole | src/main/java/com/example/pf4j/util/DatabaseUtil.java:323-342 | creating an admin is creating a user with role "admin" |
| DatabaseUtil.EnableUser | src/main/java/com/example/pf4j/util/DatabaseUtil.java:350-353 | a reported success leaves the row enabled |
| DatabaseUtil.DisableUser | src/main/java/com/example/pf4j/util/DatabaseUtil.java:361-364 | a reported success leaves the row disabled |
| DatabaseUtil.GetEnabledUsers | src/main/java/com/example/pf4j/util/DatabaseUtil.java:371-374 | only enabled rows |
| DatabaseUtil.GetDisabledUsers | src/main/java/com/example/pf4j/util/DatabaseUtil.java:381-384 | only disabled rows |
| DatabaseUtil.GetAdminUsers | src/main/java/com/example/pf4j/util/DatabaseUtil.java:391-394 | only admins |
| DatabaseUtil.GetNormalUsers | src/main/java/com/example/pf4j/util/DatabaseUtil.java:401-404 | only users |
| DatabaseUtil.EnabledAndDisabledAreDisjoint | src/main/java/com/example/pf4j/util/DatabaseUtil.java:371-384 | the enabled and disabled lists never share a row |
| DatabaseUtil.GetUserStatistics | src/main/java/com/example/pf4j/util/DatabaseUtil.java:308-311 | forwards the service statistics as written: on a non-empty table five keys with total equal to the row count; on an empty table the statistics failure |
| DatabaseUtil.GetUserStatisticsCorrected | src/main/java/com/example/pf4j/util/DatabaseUtil.java:308-311 | forwards the corrected statistics, which are all zero on an empty table |
| HelloWorldPlugin.Execute | src/main/java/com/example/pf4j/plugin/impl/HelloWorldPlugin.java:37-53 | the five fixed fields, plus the upper-cased processed input exactly when there is input |
| HelloWorldPlugin.ProcessedInputIffInput | src/main/java/com/example/pf4j/plugin/impl/HelloWorldPlugin.java:47-49 | "processedInput" is present exactly for non-null input |
| HelloWorldPlugin.InputEchoed | src/main/java/com/example/pf4j/plugin/impl/HelloWorldPlugin.java:40-45 | the input and the greeting are echoed |
| HelloWorldPlugin.ProcessedTextIsUpperCase | src/main/java/com/example/pf4j/plugin/impl/HelloWorldPlugin.java:48 | the processed text is the prefix plus the upper-cased input, and upper-casing it again changes nothing |
| DataProcessorPlugin.ProcessString | src/main/java/com/example/pf4j/plugin/impl/DataProcessorPlugin.java:76-86 | length, upper case, lower case, word count and reversal of the text, character by character |
| DataProcessorPlugin.LengthAndReversal | src/main/java/com/example/pf4j/plugin/impl/DataProcessorPlugin.java:80-84 | the length is the text's length, and reversing the reversal gives the text back |
| DataProcessorPlugin.WordCount | src/main/java/com/example/pf4j/plugin/impl/DataProcessorPlugin.java:83 | text without whitespace is one word |
| DataProcessorPlugin.WordCountOfEmptyText | src/main/java/com/example/pf4j/plugin/impl/DataProcessorPlugin.java:83 | `"".split("\\s+").length` is 1 |
| DataProcessorPlugin.WordCountOfWhitespace | src/main/java/com/example/pf4j/plugin/impl/DataProcessorPlugin.java:83 | whitespace-only text has word count 0 |
| DataProcessorPlugin.WordCountOfTrimmedText | src/main/java/com/example/pf4j/plugin/impl/DataProcessorPlugin.java:83 | text without outer whitespace has one more word than whitespace runs |
| DataProcessorPlugin.ProcessList | src/main/java/com/example/pf4j/plugin/impl/DataProcessorPlugin.java:91-127 | size, first and last elements for a non-empty list, and statistics exactly when the first element is a number |
| DataProcessorPlugin.ProcessMap | src/main/java/com/example/pf4j/plugin/impl/DataProcessorPlugin.java:132-148 | key count, the keys in order, and the value-type tally |
| DataProcessorPlugin.CountTypes | src/main/java/com/example/pf4j/plugin/impl/DataProcessorPlugin.java:139-145 | the tally has no more entries than there are values |
| DataProcessorPlugin.CountTypesIsAMap | src/main/java/com/example/pf4j/plugin/impl/DataProcessorPlugin.java:139-145 | the tally has distinct keys, as a `HashMap` does |
| DataProcessorPlugin.CountTypesCounts | src/main/java/com/example/pf4j/plugin/impl/DataProcessorPlugin.java:139-145 | each type name maps to the number of values of that type, and absent types are not listed |
| DataProcessorPlugin.CountTypesTotal | src/main/java/com/example/pf4j/plugin/impl/DataProcessorPlugin.java:139-145 | the tally sums to the number of values |
| DataProcessorPlugin.Execute | src/main/java/com/example/pf4j/plugin/impl/DataProcessorPlugin.java:36-71 | plugin name and timestamp, then the error for null or the processing for the input's kind, then success |
| DataProcessorPlugin.SuccessUnlessNull | src/main/java/com/example/pf4j/plugin/impl/DataProcessorPlugin.java:44-61 | "success" is present exactly for non-null input |
| BoundedHistory.Append | plugins/hello-plugin/src/main/java/com/example/plugin/hello/HelloExtension.java:121-127 | add then drop the oldest beyond the limit: the latest entries, ending with the new one |
| BoundedHistory.AppendAllKeepsLatest | plugins/auto/src/main/java/com/example/plugin/auto/AutoExtension.java:125-131 | after any number of additions the history is the latest `limit` entries in order |
| BoundedHistory.AppendAllBounded | plugins/auto/src/main/java/com/example/plugin/auto/AutoExtension.java:125-131 | the history never exceeds its limit and is full once enough entries were seen |
| UserAdmin.NewUser | plugins/useradmin/src/main/java/com/example/plugin/useradmin/UserAdminExtension.java:149-158 | a new user is "ACTIVE", with email "" and role "普通用户" when they are not given |
| UserAdmin.SampleUsers | plugins/useradmin/src/main/java/com/example/plugin/useradmin/UserAdminExtension.java:96-116 | users "1" admin and "2" user, with ids and usernames unique |
| UserAdmin.PutKeepsKeyed | plugins/useradmin/src/main/java/com/example/plugin/useradmin/UserAdminExtension.java:149-158 | storing a user under its own id with an unused username keeps ids keyed and usernames unique |
| UserAdmin.AdmitAsWritten | plugins/useradmin/src/main/java/com/example/plugin/useradmin/UserAdminExtension.java:133-162 | as written: blank or taken names are refused; a new user goes under id size + 1, replacing any user there and leaving other ids; ids stay keyed and usernames unique |
| UserAdmin.CreateUserAsWritten | plugins/useradmin/src/main/java/com/example/plugin/useradmin/UserAdminExtension.java:133-162 | as written: fails exactly on a parameter of the wrong type, and keeps ids keyed and usernames unique |
| UserAdmin.CreateAfterDeleteOverwrites | plugins/useradmin/src/main/java/com/example/plugin/useradmin/UserAdminExtension.java:149-158 | after deleting "1", creating "carol" overwrites user "2" |
| UserAdmin.Initial | plugins/useradmin/src/main/java/com/example/plugin/useradmin/UserAdminExtension.java:96-116 | the sample users, under a store that satisfies the store invariant |
| UserAdmin.InsertNextKeepsValid | plugins/useradmin/src/main/java/com/example/plugin/useradmin/UserAdminExtension.java:149-158 | the next id is unused, and inserting under it keeps ids and usernames unique |
| UserAdmin.Admit | plugins/useradmin/src/main/java/com/example/plugin/useradmin/UserAdminExtension.java:133-162 | corrected: refusals as written, and a new user goes under a never-used id, leaving every existing user in place |
| UserAdmin.CreateUser | plugins/useradmin/src/main/java/com/example/plugin/useradmin/UserAdminExtension.java:133-162 | corrected create; fails exactly on a parameter of the wrong type and keeps the store invariant |
| UserAdmin.AsWrittenAgreesWithoutDeletes | plugins/useradmin/src/main/java/com/example/plugin/useradmin/UserAdminExtension.java:149-158 | until something is deleted, the program as written and the corrected one create the same table |
| UserAdmin.CreateAfterDeleteKeeps | plugins/useradmin/src/main/java/com/example/plugin/useradmin/UserAdminExtension.java:149-158 | after deleting "1", creating "carol" adds "3" and keeps "2" |
| UserAdmin.Target | plugins/useradmin/src/main/java/com/example/plugin/useradmin/UserAdminExtension.java:168-170 | an id names a user only when it is present |
| UserAdmin.UpdateUser | plugins/useradmin/src/main/java/com/example/plugin/useradmin/UserAdminExtension.java:167-187 | a missing user is reported; otherwise only the given email, role and status change, and the update time is set |
| UserAdmin.DeleteUser | plugins/useradmin/src/main/java/com/example/plugin/useradmin/UserAdminExtension.java:192-202 | a missing user is reported; otherwise exactly that user is removed |
| UserAdmin.GetUser | plugins/useradmin/src/main/java/com/example/plugin/useradmin/UserAdminExtension.java:207-215 | the user, or a failure when absent |
| UserAdmin.ListUsers | plugins/useradmin/src/main/java/com/example/plugin/useradmin/UserAdminExtension.java:121-128 | every user listed, with the total |
| UserAdmin.InOrderListsEach | plugins/useradmin/src/main/java/com/example/plugin/useradmin/UserAdminExtension.java:121-128 | each user in the iteration order appears in the listing |
| UserAdmin.Destroy | plugins/useradmin/src/main/java/com/example/plugin/useradmin/UserAdminExtension.java:88-91 | clears the users |
| UserAdmin.Execute | plugins/useradmin/src/main/java/com/example/plugin/useradmin/UserAdminExtension.java:50-75 | as written: non-map input lists the users; a null action throws NPE; each action dispatches to its handler; unknown actions are reported; only create adds ids; ids stay keyed and usernames unique |
| UserAdmin.ExecuteCorrected | plugins/useradmin/src/main/java/com/example/plugin/useradmin/UserAdminExtension.java:50-75 | corrected: create uses the corrected create, every other action answers as the program does, and the store invariant is kept |
| UserAdmin.CreatedCanBeRead | plugins/useradmin/src/main/java/com/example/plugin/useradmin/UserAdminExtension.java:149-215 | as written: a created user can be read back under id size + 1 |
| UserAdmin.DeleteUndoesCreate | plugins/useradmin/src/main/java/com/example/plugin/useradmin/UserAdminExtension.java:149-202 | corrected: deleting a freshly created user restores the previous users |
| HelloExtension.GreetingTable | plugins/hello-plugin/src/main/java/com/example/plugin/hello/HelloExtension.java:24-31 | six languages, with six, six, four, four, four and four greetings |
| HelloExtension.Greetings | plugins/hello-plugin/src/main/java/com/example/plugin/hello/HelloExtension.java:24-31 | a language with greetings has between four and six of them |
| HelloExtension.Record | plugins/hello-plugin/src/main/java/com/example/plugin/hello/HelloExtension.java:121-127 | the history keeps the latest 100 entries, ending with the new one |
| HelloExtension.LanguageParam | plugins/hello-plugin/src/main/java/com/example/plugin/hello/HelloExtension.java:104 | a missing language is "chinese"; an explicit null stays null |
| HelloExtension.GreetUser | plugins/hello-plugin/src/main/java/com/example/plugin/hello/HelloExtension.java:102-137 | a blank name is refused; an unknown language is refused; otherwise the first greeting is used and recorded |
| HelloExtension.GreetAcceptsCapitalised | plugins/hello-plugin/src/main/java/com/example/plugin/hello/HelloExtension.java:104-136 | the language is lower-cased before lookup, so "Chinese" greets with "你好" |
| HelloExtension.RandomGreeting | plugins/hello-plugin/src/main/java/com/example/plugin/hello/HelloExtension.java:142-169 | one of the language's greetings, recorded; unknown languages refused |
| HelloExtension.SupportedLanguages | plugins/hello-plugin/src/main/java/com/example/plugin/hello/HelloExtension.java:174-186 | the languages, their greeting counts and their number |
| HelloExtension.SupportedLanguagesCounts | plugins/hello-plugin/src/main/java/com/example/plugin/hello/HelloExtension.java:174-186 | the listed counts are 6, 6, 4, 4, 4, 4 |
| HelloExtension.GreetingHistory | plugins/hello-plugin/src/main/java/com/example/plugin/hello/HelloExtension.java:191-200 | a copy of the history with its size |
| HelloExtension.PartOfDay | plugins/hello-plugin/src/main/java/com/example/plugin/hello/HelloExtension.java:213-235 | morning 5–11, afternoon 12–17, evening otherwise |
| HelloExtension.TimeWordsAreTableGreetings | plugins/hello-plugin/src/main/java/com/example/plugin/hello/HelloExtension.java:213-235 | every time-based greeting is also in the greeting table |
| HelloExtension.TimeGreeting | plugins/hello-plugin/src/main/java/com/example/plugin/hello/HelloExtension.java:205-255 | the greeting for the hour, Chinese only for exactly "chinese", recorded |
| HelloExtension.TimeAnswersCapitalisedInEnglish | plugins/hello-plugin/src/main/java/com/example/plugin/hello/HelloExtension.java:213 | the time greeting compares the language case-sensitively, so "Chinese" is answered in English |
| HelloExtension.SimpleGreeting | plugins/hello-plugin/src/main/java/com/example/plugin/hello/HelloExtension.java:260-277 | the fixed greeting, recorded |
| HelloExtension.Execute | plugins/hello-plugin/src/main/java/com/example/plugin/hello/HelloExtension.java:57-82 | non-map input gets the simple greeting; a null action throws NPE; each action dispatches; the history grows by at most one entry |
| HelloExtension.ReadsLeaveHistory | plugins/hello-plugin/src/main/java/com/example/plugin/hello/HelloExtension.java:69-72 | the languages and history actions do not change the history |
| AutoExtension.New | plugins/auto/src/main/java/com/example/plugin/auto/AutoExtension.java:111-153 | a running scheduler with the sample task every 30 s after 10 s |
| AutoExtension.Fire | plugins/auto/src/main/java/com/example/plugin/auto/AutoExtension.java:113-131 | a firing appends its success record to the bounded history, and nothing happens once shut down |
| AutoExtension.TaskStatus | plugins/auto/src/main/java/com/example/plugin/auto/AutoExtension.java:158-167 | whether the scheduler is active, the history size, the last execution time or "无", and the current time |
| AutoExtension.TaskHistory | plugins/auto/src/main/java/com/example/plugin/auto/AutoExtension.java:172-181 | a copy of the history with its size |
| AutoExtension.CastInteger | plugins/auto/src/main/java/com/example/plugin/auto/AutoExtension.java:188 | `(Integer) obj`: null as null, an `Integer` as itself, otherwise ClassCastException |
| AutoExtension.ScheduleTask | plugins/auto/src/main/java/com/example/plugin/auto/AutoExtension.java:186-219 | missing name or non-positive interval is refused; after shutdown the scheduler rejects the task; otherwise it is added with a 5 s delay |
| AutoExtension.StopTasks | plugins/auto/src/main/java/com/example/plugin/auto/AutoExtension.java:224-231 | shuts down, and reports success exactly when it was running |
| AutoExtension.RestartTasks | plugins/auto/src/main/java/com/example/plugin/auto/AutoExtension.java:236-243 | changes nothing, and reports success exactly when it is running |
| AutoExtension.Destroy | plugins/auto/src/main/java/com/example/plugin/auto/AutoExtension.java:94-106 | shuts the scheduler down |
| AutoExtension.Execute | plugins/auto/src/main/java/com/example/plugin/auto/AutoExtension.java:56-81 | non-map input gets the status; a null action throws NPE; each action dispatches; actions never touch the history |
| AutoExtension.Step | plugins/auto/src/main/java/com/example/plugin/auto/AutoExtension.java:56-153 | any event keeps the history bounded and only appends tasks |
| AutoExtension.Run | plugins/auto/src/main/java/com/example/plugin/auto/AutoExtension.java:56-153 | any sequence of events keeps the state valid, keeps earlier tasks in place, and never undoes a shutdown |
| AutoExtension.ShutdownIsFinal | plugins/auto/src/main/java/com/example/plugin/auto/AutoExtension.java:224-243 | once shut down, no sequence of events changes anything |
| AutoExtension.RunKeepsFirings | plugins/auto/src/main/java/com/example/plugin/auto/AutoExtension.java:111-211 | every history entry is the success record of a scheduled task |
| AutoExtension.StoppedRefusesEverything | plugins/auto/src/main/java/com/example/plugin/auto/AutoExtension.java:186-243 | after stop, stopping and restarting report failure and scheduling is rejected |
| DatabaseDemoExtension.ValidateUser | plugins/database-demo-plugin/src/main/java/com/example/plugin/database/DatabaseDemoExtension.java:64-68 | true exactly for admin/password |
| DatabaseDemoExtension.HasPermission | plugins/database-demo-plugin/src/main/java/com/example/plugin/database/DatabaseDemoExtension.java:77-81 | admin has every permission, and everyone has read |
| DatabaseDemoExtension.OnlyTheDemoCredentials | plugins/database-demo-plugin/src/main/java/com/example/plugin/database/DatabaseDemoExtension.java:64-68 | null credentials and a differently-cased username fail |
| DatabaseDemoExtension.PermissionTable | plugins/database-demo-plugin/src/main/java/com/example/plugin/database/DatabaseDemoExtension.java:77-81 | any permission other than read is granted only to admin |
| DatabaseDemoExtension.InfoNamesExtension | plugins/database-demo-plugin/src/main/java/com/example/plugin/database/DatabaseDemoExtension.java:28-46 | the info text starts with the extension name |

## Left out

- Logging, Spring wiring and the Thymeleaf page handlers (`apiDocsPage`, `showConfigPage`) are left out; they compute nothing the API returns.
- Clock, random numbers and reflection:
  - `LocalDateTime.now()`, `System.currentTimeMillis()` and `Random` are parameters (`now`, `clock`, `draw`);
  - reflective `invoke` is an `invoke` parameter over methods described as records.
  - PF4J's class loading, `getExtensions` and plugin wrappers are inputs, not modelled.
- Concurrency:
  - `ScheduledExecutorService` is modelled as explicit `Fire` and `Step` events;
  - thread interleaving, `awaitTermination` timing and `shutdownNow` are not modelled;
  - the sample task's catch branch, which records a FAILED entry, is not modelled, because the model's task body cannot throw.
- Floating point:
  - the list statistics (sum, average, max, min of doubles) in `processList` are an input;
  - `Double.valueOf` conversion is a `doubleValueOf` parameter;
  - float and double defaults are modelled as one decimal kind.
- Only the `Value` kinds are modelled: Integer, Long, Short, Byte, Character, Float and Double (carried as their decimal text), String, Boolean, List, Map and one opaque "other" class. Other `Number` subclasses, such as `BigDecimal`, are left out.
- `HashMap` iteration order is not modelled. Maps are association lists in insertion order; the useradmin listing order is a parameter.
- Only ASCII letters change case in `toLowerCase`/`toUpperCase`. Unicode case mapping is not modelled.
- DataProcessorPlugin.ProcessString: strings are sequences of Unicode scalar values, so the reported "length" counts a supplementary character (an emoji, say) once, where Java's `String.length()` counts its two UTF-16 units. `LengthAndReversal` states the length in the same units. The reversal is exact, because `StringBuilder.reverse` keeps surrogate pairs together.
- Sizes are wrapped to `int`, but collections longer than `Integer.MAX_VALUE` are not otherwise considered.
- `PluginService.getPluginInfo` is not modelled: it only copies PF4J descriptor fields into a map. `getAllPlugins` is an input list.
- Also left out:
  - Spring Data paging and sorting for `findAll(page, size, ...)` and the paged finders (whole result sets are returned);
  - JPA bean validation at save time (the limits are stated as a predicate instead);
  - `LIKE` wildcards inside the search text;
  - id exhaustion beyond `Long.MAX_VALUE`, which is excluded by a requires on `Save`.
- `DatabaseConfig.getSummary` (password redaction in a log line) and `DatabaseConfigManager`'s file format are not modelled. The manager is a set of answers in the environment.
- `DatabaseDemoExtension.performDatabaseOperation` and `executeDemo` only log, so they are not modelled.
- The plugins' `getPluginName`/`getPluginVersion`/`getPluginDescription` constants, `initialize`, and `HelloExtension.destroy` only log, so they are not modelled.
- Exception messages are modelled for the host's own exceptions. The JVM's NullPointerException text depends on the JDK and its helpful-message setting, so the statistics take it as a parameter; elsewhere a null pointer carries no message. The `java.util.Date` text in useradmin records is opaque.
- PluginMethodService.ExecuteMethod: an exception thrown by the invoked method arrives wrapped in `InvocationTargetException`, whose own message is null. The code reports that null message. It does not report the cause's text.
- JavaAdminRepository.UserStatisticsRow: the `Object[]` answer of `getUserStatistics()` is taken to be the single five-column row. Spring Data JPA may instead treat an array return type as a collection of rows and hand back `Object[]{row}`. Then `(Number) result[0]` in `DatabaseService.getUserStatistics` would throw `ClassCastException` on every table, and the statistics would always fail with their prefix. That nesting is not modelled.
- JavaAdminRepository.DeleteAllById: its own contract states only the invariant and shrinking keys. The exact behaviour is in `DeleteAllByIdSucceeds` and `DeleteAllByIdRows`. A repeated id is modelled as failing, like a second delete of a missing row.
- JavaStrings.Replace: the contract states only the no-occurrence case. The replacing case is proved for a single trailing occurrence (`ReplaceTrailingTarget`), which is the case the lookup needs.
- JavaAdminEntity.LongHash: stated only for non-negative ids within `int` range. For larger values the body computes `(int)(v ^ (v >>> 32))`, but no contract states it.
- JavaAdminEntity.HashCode: stated for the null and small-id cases. In general it is related to equality by `EqualsImpliesSameHash`.
- PluginMethodService.GetPluginMethods: the contract states the class name and the number of listed methods. The description of each entry is stated by `PluginModel.MethodInfos`.
- JavaNumbers.ParseInteger: accepts only ASCII digits. `Integer.parseInt` and `Long.parseLong` also accept other Unicode decimal digits (through `Character.digit`), such as Arabic-Indic or full-width digits; those inputs are refused here.
- JavaAdminRepository: string equality and `LIKE` are case-sensitive in the model. MySQL's default collations compare case-insensitively, so `findByUsername("ADMIN")` can find "admin" in the database but not in the model.
- DatabaseUtil: extensions are names that always reach `DatabaseService`. With PF4J's `DefaultPluginManager` (`PluginManagerConfig.java:32`), `DefaultDatabaseExtension` is built with its no-argument constructor, and then every call fails in `getDatabaseService` (`DefaultDatabaseExtension.java:64-72`) with "DatabaseService未初始化，请检查Spring配置". That failure is not modelled.
- HelloExtension.RandomGreeting: the chosen greeting is stated to be one of the language's greetings, not which one the draw selects.

## Findings

| source | as written | input that shows it | evidently intended | confidence | as-written member | corrected member |
|---|---|---|---|---|---|---|
| src/main/java/com/example/pf4j/service/DatabaseService.java:444-453 | each statistic is read as `((Number) result[i]).longValue()`, but the `SUM(CASE ...)` columns are NULL on an empty table | an empty `java_admin` table: `getUserStatistics()` throws and is reported as a statistics failure (reading the query's answer as the flat five-column row; if Spring Data nests the row, the cast fails on every table instead) | an empty table reports five zeros | not executed; depends on how Spring Data JPA returns an `Object[]` query result | DatabaseService.GetUserStatisticsAsWritten, DatabaseService.StatisticsOfEmptyTableFail, DatabaseUtil.GetUserStatistics | DatabaseService.GetUserStatistics, DatabaseService.StatisticsCorrection, DatabaseUtil.GetUserStatisticsCorrected |
| plugins/useradmin/src/main/java/com/example/plugin/useradmin/UserAdminExtension.java:149-158 | a new user's id is `users.size() + 1` | delete user "1", then create "carol": she is stored as "2" and user "2" is lost | ids are never reused, so creating never overwrites an existing user | not executed | UserAdmin.CreateUserAsWritten, UserAdmin.Execute, UserAdmin.CreateAfterDeleteOverwrites | UserAdmin.CreateUser, UserAdmin.ExecuteCorrected, UserAdmin.CreateAfterDeleteKeeps |

=== FILE: api_doc_controller.dfy ===
/**
  `ApiDocController`: the API documentation data (one document per plugin
  plus a fixed list of system endpoints) and the generic plugin call.
*/
module ApiDocController {
  import opened Wrappers
  import opened JavaStrings
  import opened Values
  import opened PluginModel
  import opened Responses
  import PluginService
  import PluginMethodController

  /** The methods `PluginInterface` declares and the documentation always shows. */
  const INTERFACE_METHOD_NAMES: set<string> := {"execute", "getPluginName", "getPluginVersion", "getPluginDescription"}

  /** `isPluginMethod`: never a method declared by `Object`, never
      `initialize` or `destroy`; otherwise the four interface methods and
      every method whose name starts with neither "get" nor "set" (the
      `&&` binds tighter than the `||` chain). */
  function IsPluginMethod(m: Method): (b: bool)
    ensures b ==> m.declaringClass != OBJECT_CLASS && m.name != "initialize" && m.name != "destroy"
    ensures m.declaringClass != OBJECT_CLASS && m.name in INTERFACE_METHOD_NAMES ==> b
  {
    if m.declaringClass == OBJECT_CLASS then false
    else if m.name == "initialize" || m.name == "destroy" then false
    else m.name in INTERFACE_METHOD_NAMES || (!StartsWith(m.name, "get") && !StartsWith(m.name, "set"))
  }

  /** The filter as a decision table over the method's name and declaring
      class. */
  lemma IsPluginMethodCases(m: Method)
    ensures m.declaringClass == OBJECT_CLASS ==> !IsPluginMethod(m)
    ensures m.name in {"initialize", "destroy"} ==> !IsPluginMethod(m)
    ensures m.declaringClass != OBJECT_CLASS && m.name in INTERFACE_METHOD_NAMES ==> IsPluginMethod(m)
    ensures m.declaringClass != OBJECT_CLASS && m.name !in INTERFACE_METHOD_NAMES
            ==> (IsPluginMethod(m) <==> m.name !in {"initialize", "destroy"} && !StartsWith(m.name, "get") && !StartsWith(m.name, "set"))
  {
  }

  /** A plugin-specific getter such as `getCount` is left out of the
      documentation, while the same method in a class's own `process` style
      is kept. */
  lemma GettersAreHidden(cls: string)
    requires cls != OBJECT_CLASS
    ensures !IsPluginMethod(Method("getCount", cls, [], Prim(PInt)))
    ensures IsPluginMethod(Method("process", cls, [], Void))
    ensures IsPluginMethod(Method("getPluginName", cls, [], Ref("String")))
  {
    assert StartsWith("getCount", "get");
    assert !StartsWith("process", "get") by { assert "process"[0] != 'g'; }
    assert !StartsWith("process", "set") by { assert "process"[0] != 's'; }
  }

  /** The `Map` a plugin's document is built as, key by key. */
  function Document(name: string, version: string, description: string, methods: Value, api: Value): (doc: Value)
    ensures doc.Obj?
    ensures Get(doc.entries, "name") == Str(name) && Get(doc.entries, "version") == Str(version)
    ensures Get(doc.entries, "description") == Str(description)
    ensures Get(doc.entries, "methods") == methods && Get(doc.entries, "api") == api
  {
    var entries := [("name", Str(name)), ("version", Str(version)), ("description", Str(description)),
                    ("methods", methods), ("api", api)];
    GetOfFive(entries);
    assert Get(entries, entries[0].0) == entries[0].1 && Get(entries, entries[1].0) == entries[1].1;
    assert Get(entries, entries[2].0) == entries[2].1 && Get(entries, entries[3].0) == entries[3].1;
    assert Get(entries, entries[4].0) == entries[4].1;
    Obj(entries)
  }

  /** How to call a plugin through the documentation endpoint. */
  function CallInfo(name: string): Value {
    Obj([("endpoint", Str("/api-docs/call/" + name)), ("method", Str("POST")), ("contentType", Str("application/json"))])
  }

  /** One plugin's document: name, version, description, its documented
      methods, and how to call it. */
  function PluginDoc(p: PluginExt): (doc: Value)
    ensures doc.Obj?
    ensures Get(doc.entries, "name") == Str(NameOf(p))
    ensures Get(doc.entries, "version") == Str(p.plugin.value.version)
    ensures Get(doc.entries, "description") == Str(p.plugin.value.description)
    ensures Get(doc.entries, "api") == Obj([("endpoint", Str("/api-docs/call/" + NameOf(p))),
                                            ("method", Str("POST")),
                                            ("contentType", Str("application/json"))])
    ensures Get(doc.entries, "methods") == List(MethodInfos(p.methods, IsPluginMethod))
  {
    var info := p.plugin.value;
    Document(info.name, info.version, info.description, List(MethodInfos(p.methods, IsPluginMethod)), CallInfo(info.name))
  }

  /** `listed` describes exactly the methods of `ms` the filter keeps, in
      declaration order: as many entries as kept methods, each the
      description of a kept method, none naming `initialize` or
      `destroy`, and every kept method described. */
  ghost predicate DescribesKept(listed: seq<Value>, ms: seq<Method>) {
    && |listed| == CountWhere(ms, IsPluginMethod)
    && (forall i :: 0 <= i < |listed| ==>
          exists m :: m in ms && IsPluginMethod(m) && listed[i] == MethodInfo(m))
    && (forall i :: 0 <= i < |listed| ==>
          listed[i].entries[0].1 != Str("initialize") && listed[i].entries[0].1 != Str("destroy"))
    && (forall m :: m in ms && IsPluginMethod(m) ==> MethodInfo(m) in listed)
  }

  /** The methods a plugin's document lists are exactly the methods the
      filter keeps. */
  lemma DocumentedMethods(p: PluginExt)
    ensures DescribesKept(Get(PluginDoc(p).entries, "methods").items, p.methods)
  {
    KeptMethodsDescribed(p.methods);
  }

  /** The listing of the kept methods describes them. */
  lemma KeptMethodsDescribed(ms: seq<Method>)
    ensures DescribesKept(MethodInfos(ms, IsPluginMethod), ms)
  {
    KeptMethodsListed(ms);
    ListedAreNotLifecycle(ms);
  }

  /** No entry of the listing names a lifecycle method. */
  lemma ListedAreNotLifecycle(ms: seq<Method>)
    ensures var listed := MethodInfos(ms, IsPluginMethod);
            forall i :: 0 <= i < |listed| ==>
              listed[i].entries[0].1 != Str("initialize") && listed[i].entries[0].1 != Str("destroy")
  {
    var listed := MethodInfos(ms, IsPluginMethod);
    var kept := Filter(ms, IsPluginMethod);
    forall i | 0 <= i < |listed|
      ensures listed[i].entries[0].1 != Str("initialize") && listed[i].entries[0].1 != Str("destroy")
    {
      assert listed[i] == MethodInfo(kept[i]) && IsPluginMethod(kept[i]);
      NotLifecycle(kept[i]);
    }
  }

  /** A kept method's entry never names a lifecycle method. */
  lemma NotLifecycle(m: Method)
    requires IsPluginMethod(m)
    ensures MethodInfo(m).entries[0].1 != Str("initialize") && MethodInfo(m).entries[0].1 != Str("destroy")
  {
  }

  /** The listing of the kept methods: each entry describes a kept method,
      and each kept method is described. */
  lemma {:induction false} KeptMethodsListed(ms: seq<Method>)
    ensures var listed := MethodInfos(ms, IsPluginMethod);
            && (forall i :: 0 <= i < |listed| ==> exists m :: m in ms && IsPluginMethod(m) && listed[i] == MethodInfo(m))
            && (forall m :: m in ms && IsPluginMethod(m) ==> MethodInfo(m) in listed)
  {
    var listed := MethodInfos(ms, IsPluginMethod);
    var kept := Filter(ms, IsPluginMethod);
    forall i | 0 <= i < |listed|
      ensures exists m :: m in ms && IsPluginMethod(m) && listed[i] == MethodInfo(m)
    {
      assert kept[i] in ms && IsPluginMethod(kept[i]) && listed[i] == MethodInfo(kept[i]);
    }
    forall m | m in ms && IsPluginMethod(m)
      ensures MethodInfo(m) in listed
    {
      var j :| 0 <= j < |ms| && ms[j] == m;
      assert ms[j] in kept;
      var k :| 0 <= k < |kept| && kept[k] == m;
      assert listed[k] == MethodInfo(m);
    }
  }

  /** `generatePluginDocs`: one document per plugin, in plugin order. */
  function GeneratePluginDocs(plugins: seq<PluginExt>): (docs: seq<Value>)
    ensures |docs| == |plugins|
    ensures forall i :: 0 <= i < |plugins| ==> docs[i] == PluginDoc(plugins[i])
  {
    if |plugins| == 0 then [] else [PluginDoc(plugins[0])] + GeneratePluginDocs(plugins[1..])
  }

  /** `createApiDoc`. */
  function ApiDoc(httpMethod: string, path: string, name: string, description: string): Value {
    Obj([("method", Str(httpMethod)), ("path", Str(path)), ("name", Str(name)), ("description", Str(description))])
  }

  /** The endpoints `getSystemApis` lists, as (HTTP method, path, name,
      description): six plugin-management endpoints, two system endpoints
      and two database endpoints, in that order. */
  const SYSTEM_API_ROWS: seq<(string, string, string, string)> := [
    ("GET", "/api/plugins", "获取所有插件列表", "获取系统中所有已加载的插件信息"),
    ("GET", "/api/plugins/info", "获取插件详细信息", "获取所有插件的详细状态信息"),
    ("POST", "/api/plugins/execute/{pluginName}", "执行插件", "执行指定名称的插件"),
    ("POST", "/api/plugins/start/{pluginId}", "启动插件", "启动指定ID的插件"),
    ("POST", "/api/plugins/stop/{pluginId}", "停止插件", "停止指定ID的插件"),
    ("POST", "/api/plugins/reload", "重新加载插件", "重新加载所有插件"),
    ("GET", "/api/system/status", "系统状态", "获取系统运行状态"),
    ("GET", "/actuator/health", "健康检查", "系统健康状态检查"),
    ("GET", "/database/api/status", "数据库状态", "获取数据库连接状态"),
    ("POST", "/database/api/config", "数据库配置", "更新数据库配置")
  ]

  /** `getSystemApis`: one `createApiDoc` map per row, in order. */
  function GetSystemApis(rows: seq<(string, string, string, string)>): (apis: seq<Value>)
    ensures |apis| == |rows|
    ensures forall i :: 0 <= i < |rows| ==> apis[i] == ApiDoc(rows[i].0, rows[i].1, rows[i].2, rows[i].3)
  {
    if |rows| == 0 then [] else [ApiDoc(rows[0].0, rows[0].1, rows[0].2, rows[0].3)] + GetSystemApis(rows[1..])
  }

  /** The system endpoint list of the documentation page. */
  function SystemApis(): (apis: seq<Value>)
    ensures |apis| == |SYSTEM_API_ROWS| == 10
  {
    GetSystemApis(SYSTEM_API_ROWS)
  }

  /** The first six endpoints lie under "/api/plugins", the last two under
      "/database/api/", and the two in between under neither. */
  lemma SystemApisGrouping()
    ensures forall i :: 0 <= i < 6 ==> StartsWith(SYSTEM_API_ROWS[i].1, "/api/plugins")
    ensures forall i :: 8 <= i < 10 ==> StartsWith(SYSTEM_API_ROWS[i].1, "/database/api/")
    ensures forall i :: 6 <= i < 8 ==>
              !StartsWith(SYSTEM_API_ROWS[i].1, "/api/plugins") && !StartsWith(SYSTEM_API_ROWS[i].1, "/database/api/")
  {
    forall i | 0 <= i < 10
      ensures i < 6 ==> StartsWith(SYSTEM_API_ROWS[i].1, "/api/plugins")
      ensures i >= 8 ==> StartsWith(SYSTEM_API_ROWS[i].1, "/database/api/")
      ensures 6 <= i < 8 ==> !StartsWith(SYSTEM_API_ROWS[i].1, "/api/plugins")
      ensures 6 <= i < 8 ==> !StartsWith(SYSTEM_API_ROWS[i].1, "/database/api/")
    {
      var path := SYSTEM_API_ROWS[i].1;
      if i == 6 {
        assert path == "/api/system/status";
        assert path[5] != "/api/plugins"[5] && path[1] != "/database/api/"[1];
      } else if i == 7 {
        assert path == "/actuator/health";
        assert path[2] != "/api/plugins"[2] && path[1] != "/database/api/"[1];
      }
    }
  }

  /** The data object of `/api-docs/data`: the plugin documents, the system
      endpoints and the number of plugin documents. */
  function DocsData(plugins: seq<PluginExt>): (data: Value)
    requires |plugins| <= 0x7FFF_FFFF
    ensures data.Obj?
    ensures Get(data.entries, "count") == Int(|plugins|)
    ensures Get(data.entries, "plugins") == List(GeneratePluginDocs(plugins))
    ensures Get(data.entries, "systemApis") == List(SystemApis())
  {
    var docs := GeneratePluginDocs(plugins);
    var apis := SystemApis();
    GetOfThree("plugins", List(docs), "systemApis", List(apis), "count", Int(|docs|));
    Obj([("plugins", List(docs)), ("systemApis", List(apis)), ("count", Int(|docs|))])
  }

  /** GET `/api-docs/data`: always a 200 success envelope around the
      documentation data. */
  function GetApiDocsData(plugins: seq<PluginExt>): (r: PluginMethodController.Http<ApiResponse<Value>>)
    requires |plugins| <= 0x7FFF_FFFF
    ensures r.status == 200 && r.body.code == Some(OK_CODE)
    ensures r.body.data == Some(DocsData(plugins))
  {
    PluginMethodController.Http(200, SuccessWith(Some(DocsData(plugins))))
  }

  const CALL_SUCCEEDED: string := "插件调用成功"

  /** POST `/api-docs/call/{pluginName}`: runs the plugin on `body["input"]`
      (null without a body).  `executePlugin` never throws, so the answer
      is always 200 with the plugin's result, or its error text, as data. */
  function CallPluginApi(plugins: seq<PluginExt>, pluginName: string, body: Option<JMap>,
                         execute: (PluginExt, Value) -> Outcome): (r: PluginMethodController.Http<ApiResponse<Value>>)
    ensures r.status == 200
    ensures var input := if body.Some? then Get(body.value, "input") else Null;
            r.body == SuccessWithMessage(Some(CALL_SUCCEEDED), Some(PluginService.ExecutePlugin(plugins, pluginName, input, execute)))
  {
    var input := if body.Some? then Get(body.value, "input") else Null;
    PluginMethodController.Http(200, SuccessWithMessage(Some(CALL_SUCCEEDED), Some(PluginService.ExecutePlugin(plugins, pluginName, input, execute))))
  }

  /** An unknown plugin still gets a success envelope; its data is the
      not-found text. */
  lemma UnknownPluginCallSucceeds(plugins: seq<PluginExt>, pluginName: string, body: Option<JMap>,
                                  execute: (PluginExt, Value) -> Outcome)
    requires forall i :: 0 <= i < |plugins| ==> NameOf(plugins[i]) != pluginName
    ensures CallPluginApi(plugins, pluginName, body, execute).body.code == Some(OK_CODE)
    ensures CallPluginApi(plugins, pluginName, body, execute).body.data == Some(Str(PluginService.NOT_FOUND_PREFIX + pluginName))
  {
  }
}

=== FILE: auto_extension.dfy ===
/**
  The auto plugin's `AutoExtension`: a scheduler running a sample
  monitoring task and the tasks callers schedule, each firing appending a
  record to a history of the last fifty firings.  The scheduler's thread
  pool is replaced by its observable state (the scheduled tasks and the
  shutdown flag), and a firing is an explicit `Fire` step; the clock is an
  input.
*/
module AutoExtension {
  import opened Wrappers
  import opened JavaNumbers
  import opened Values
  import opened BoundedHistory

  const PLUGIN_NAME: string := "自动化任务插件"
  const PLUGIN_VERSION: string := "1.0.0"

  /** The history keeps at most this many records. */
  const HISTORY_LIMIT: nat := 50

  const SAMPLE_TASK_NAME: string := "系统监控任务"
  const SAMPLE_TASK_MESSAGE: string := "系统运行正常"
  const CUSTOM_TASK_MESSAGE: string := "自定义任务执行完成"
  const SUCCESS_STATUS: string := "SUCCESS"
  const NONE_YET: string := "无"
  const SCHEDULE_REFUSED: string := "任务名称和执行间隔不能为空"
  const SCHEDULED: string := "任务调度成功"
  const SECONDS_SUFFIX: string := "秒"
  const STOPPED: string := "所有任务已停止"
  const ALREADY_STOPPED: string := "任务调度器已经停止"
  const RESTART_REFUSED: string := "任务调度器已停止，需要重新初始化插件"
  const RUNNING: string := "任务调度器正在运行中"
  const UNSUPPORTED_ACTION: string := "不支持的操作: "

  /** A periodic task: its name, the record message it writes, and its
      initial delay and period in seconds. */
  datatype Task = Task(name: string, message: string, initialDelay: nat, period: nat)

  /** One firing's record. */
  datatype TaskRecord = TaskRecord(taskName: string, executeTime: string, status: string, message: string)

  /** The scheduler's tasks, whether it was shut down, and the history,
      oldest record first. */
  datatype Auto = Auto(tasks: seq<Task>, shutdown: bool, history: seq<TaskRecord>)

  predicate Valid(a: Auto) {
    |a.history| <= HISTORY_LIMIT
  }

  /** The monitoring task the constructor starts: after 10 seconds, then
      every 30. */
  const SAMPLE_TASK: Task := Task(SAMPLE_TASK_NAME, SAMPLE_TASK_MESSAGE, 10, 30)

  /** The constructor: a running scheduler with the sample task and an
      empty history. */
  function New(): (a: Auto)
    ensures Valid(a) && !a.shutdown && a.history == []
    ensures a.tasks == [SAMPLE_TASK] && a.tasks[0].initialDelay == 10 && a.tasks[0].period == 30
  {
    Auto([SAMPLE_TASK], false, [])
  }

  /** The `RejectedExecutionException` a shut-down scheduler throws when a
      task is submitted. */
  const REJECTED: Exception := Exception(RejectedExecution, None)

  const NPE: Exception := Exception(NullPointer, None)

  // ---------------------------------------------------------------------
  // Firing
  // ---------------------------------------------------------------------

  /** A scheduled task fires: a running scheduler appends its "SUCCESS"
      record; a shut-down one has cancelled its periodic tasks, so nothing
      happens. */
  function Fire(a: Auto, i: nat, timestamp: string): (r: Auto)
    requires i < |a.tasks|
    ensures r.tasks == a.tasks && r.shutdown == a.shutdown
    ensures a.shutdown ==> r == a
    ensures !a.shutdown ==> r.history == Append(a.history, TaskRecord(a.tasks[i].name, timestamp, SUCCESS_STATUS, a.tasks[i].message), HISTORY_LIMIT)
    ensures Valid(a) ==> Valid(r)
    ensures !a.shutdown ==> |r.history| > 0 && r.history[|r.history| - 1].taskName == a.tasks[i].name
  {
    if a.shutdown then a
    else
      var entry := TaskRecord(a.tasks[i].name, timestamp, SUCCESS_STATUS, a.tasks[i].message);
      a.(history := Append(a.history, entry, HISTORY_LIMIT))
  }

  /** A firing is a record of one of the scheduled tasks. */
  predicate FiringOf(a: Auto, entry: TaskRecord) {
    exists i :: 0 <= i < |a.tasks| && entry.taskName == a.tasks[i].name && entry.message == a.tasks[i].message
                && entry.status == SUCCESS_STATUS
  }

  // ---------------------------------------------------------------------
  // Replies
  // ---------------------------------------------------------------------

  function Reply(success: bool, rest: seq<(string, Value)>): Value {
    Obj([("success", Bool(success))] + rest)
  }

  predicate Succeeded(v: Value) {
    v.Obj? && |v.entries| > 0 && v.entries[0] == ("success", Bool(true))
  }

  function Message(success: bool, message: string): (v: Value)
    ensures Succeeded(v) <==> success
  {
    Reply(success, [("message", Str(message))])
  }

  function RecordValue(entry: TaskRecord): Value {
    Obj([("taskName", Str(entry.taskName)), ("executeTime", Str(entry.executeTime)),
         ("status", Str(entry.status)), ("message", Str(entry.message))])
  }

  function RecordValues(records: seq<TaskRecord>): (vs: seq<Value>)
    ensures |vs| == |records|
    ensures forall i :: 0 <= i < |records| ==> vs[i] == RecordValue(records[i])
  {
    seq(|records|, i requires 0 <= i < |records| => RecordValue(records[i]))
  }

  /** `getTaskStatus`: whether the scheduler still runs, the number of
      records, the time of the latest one (or "无"), and the current
      time. */
  function TaskStatus(a: Auto, now: string): (v: Value)
    requires Valid(a)
    ensures Succeeded(v) && |v.entries| == 2 && v.entries[1].0 == "data" && v.entries[1].1.Obj?
    ensures var data := v.entries[1].1.entries;
            |data| == 4
            && data[0] == ("schedulerActive", Bool(!a.shutdown))
            && data[1] == ("totalTasks", Int(|a.history|))
            && (a.history == [] ==> data[2] == ("lastExecuteTime", Str(NONE_YET)))
            && (a.history != [] ==> data[2] == ("lastExecuteTime", Str(a.history[|a.history| - 1].executeTime)))
            && data[3] == ("currentTime", Str(now))
  {
    var last := if a.history == [] then NONE_YET else a.history[|a.history| - 1].executeTime;
    Reply(true, [("data", Obj([("schedulerActive", Bool(!a.shutdown)), ("totalTasks", Int(|a.history|)),
                              ("lastExecuteTime", Str(last)), ("currentTime", Str(now))]))])
  }

  /** `getTaskHistory`: a copy of the records and their number. */
  function TaskHistory(a: Auto): (v: Value)
    requires Valid(a)
    ensures Succeeded(v) && |v.entries| == 3
    ensures v.entries[1].0 == "data" && v.entries[1].1.List? && |v.entries[1].1.items| == |a.history|
    ensures forall i :: 0 <= i < |a.history| ==> v.entries[1].1.items[i] == RecordValue(a.history[i])
    ensures v.entries[2] == ("total", Int(|a.history|))
  {
    Reply(true, [("data", List(RecordValues(a.history))), ("total", Int(|a.history|))])
  }

  // ---------------------------------------------------------------------
  // scheduleTask, stopTasks, restartTasks, destroy
  // ---------------------------------------------------------------------

  /** `(Integer) params.get(key)`: null stays null, an `Integer` is taken,
      anything else throws a `ClassCastException`. */
  function CastInteger(v: Value): (r: Result<Option<Int32>, Exception>)
    ensures v.Null? <==> r == Ok(None)
    ensures v.Int? <==> r.Ok? && r.value.Some?
    ensures v.Int? ==> r.value.value == v.i
    ensures r.Err? ==> r.error.kind == ClassCast
  {
    match v
    case Null => Ok(None)
    case Int(i) => Ok(Some(i))
    case _ => Err(Exception(ClassCast, None))
  }

  /** `scheduleTask`: both parameters are cast; a missing name, a missing
      interval or one that is not positive is refused; otherwise a task
      firing after 5 seconds and then every `interval` seconds is submitted,
      which a shut-down scheduler rejects with an exception. */
  function ScheduleTask(a: Auto, params: seq<(string, Value)>): (r: Result<(Auto, Value), Exception>)
    ensures r.Err? <==> (CastString(Get(params, "taskName")).Err? || CastInteger(Get(params, "interval")).Err?
                         || (a.shutdown && Get(params, "taskName").Str? && Get(params, "interval").Int?
                             && Get(params, "interval").i > 0))
    ensures r.Ok? && !Succeeded(r.value.1) ==> r.value == (a, Message(false, SCHEDULE_REFUSED))
    ensures r.Ok? && Succeeded(r.value.1)
            <==> !a.shutdown && Get(params, "taskName").Str? && Get(params, "interval").Int? && Get(params, "interval").i > 0
    ensures r.Ok? && Succeeded(r.value.1)
            ==> var name := Get(params, "taskName").s;
                var interval := Get(params, "interval").i;
                r.value.0 == a.(tasks := a.tasks + [Task(name, CUSTOM_TASK_MESSAGE, 5, interval)])
                && |r.value.1.entries| == 4 && r.value.1.entries[3] == ("interval", Str(IntToString(interval) + SECONDS_SUFFIX))
    ensures r.Ok? ==> r.value.0.shutdown == a.shutdown && r.value.0.history == a.history
  {
    var name :- CastString(Get(params, "taskName"));
    var interval :- CastInteger(Get(params, "interval"));
    if name.None? || interval.None? || interval.value <= 0 then Ok((a, Message(false, SCHEDULE_REFUSED)))
    else if a.shutdown then Err(REJECTED)
    else
      var task := Task(name.value, CUSTOM_TASK_MESSAGE, 5, interval.value);
      Ok((a.(tasks := a.tasks + [task]),
          Reply(true, [("message", Str(SCHEDULED)), ("taskName", Str(name.value)),
                       ("interval", Str(IntToString(interval.value) + SECONDS_SUFFIX))])))
  }

  /** `stopTasks`: the first call shuts the scheduler down and succeeds,
      every later one fails. */
  function StopTasks(a: Auto): (r: (Auto, Value))
    ensures r.0.shutdown
    ensures Succeeded(r.1) <==> !a.shutdown
    ensures r.1 == if a.shutdown then Message(false, ALREADY_STOPPED) else Message(true, STOPPED)
    ensures r.0.history == a.history && r.0.tasks == a.tasks
  {
    if !a.shutdown then (a.(shutdown := true), Message(true, STOPPED))
    else (a, Message(false, ALREADY_STOPPED))
  }

  /** `restartTasks`: never restarts anything; it only reports whether the
      scheduler is still running. */
  function RestartTasks(a: Auto): (r: (Auto, Value))
    ensures r.0 == a
    ensures Succeeded(r.1) <==> !a.shutdown
    ensures r.1 == if a.shutdown then Message(false, RESTART_REFUSED) else Message(true, RUNNING)
  {
    if a.shutdown then (a, Message(false, RESTART_REFUSED)) else (a, Message(true, RUNNING))
  }

  /** `destroy`: `shutdown`, then `shutdownNow` if tasks do not end in time;
      either way the scheduler ends up shut down. */
  function Destroy(a: Auto): (r: Auto)
    ensures r.shutdown && r.history == a.history && r.tasks == a.tasks
  {
    a.(shutdown := true)
  }

  // ---------------------------------------------------------------------
  // execute
  // ---------------------------------------------------------------------

  /** `execute`: anything but a map gets the status; a map is dispatched
      on its "action" (a missing one throws in the `switch`); an unknown
      action is answered with an error map. */
  function Execute(a: Auto, input: Value, now: string): (r: Result<(Auto, Value), Exception>)
    requires Valid(a)
    ensures !input.Obj? ==> r == Ok((a, TaskStatus(a, now)))
    ensures input.Obj? && Get(input.entries, "action").Null? ==> r == Err(NPE)
    ensures input.Obj? && !Get(input.entries, "action").Null? && !Get(input.entries, "action").Str?
            ==> r.Err? && r.error.kind == ClassCast
    ensures input.Obj? && Get(input.entries, "action").Str?
            ==> var action := Get(input.entries, "action").s;
                (action == "status" ==> r == Ok((a, TaskStatus(a, now))))
                && (action == "history" ==> r == Ok((a, TaskHistory(a))))
                && (action == "schedule" ==> r == ScheduleTask(a, input.entries))
                && (action == "stop" ==> r == Ok(StopTasks(a)))
                && (action == "restart" ==> r == Ok(RestartTasks(a)))
                && (action !in ["status", "history", "schedule", "stop", "restart"]
                    ==> r == Ok((a, Obj([("error", Str(UNSUPPORTED_ACTION + action))]))))
    ensures r.Ok? ==> Valid(r.value.0) && r.value.0.history == a.history
    ensures r.Ok? && a.shutdown ==> r.value.0 == a
  {
    if !input.Obj? then Ok((a, TaskStatus(a, now)))
    else
      var params := input.entries;
      var action :- CastString(Get(params, "action"));
      if action.None? then Err(NPE)
      else if action.value == "status" then Ok((a, TaskStatus(a, now)))
      else if action.value == "history" then Ok((a, TaskHistory(a)))
      else if action.value == "schedule" then ScheduleTask(a, params)
      else if action.value == "stop" then Ok(StopTasks(a))
      else if action.value == "restart" then Ok(RestartTasks(a))
      else Ok((a, Obj([("error", Str(UNSUPPORTED_ACTION + action.value))])))
  }

  // ---------------------------------------------------------------------
  // Runs
  // ---------------------------------------------------------------------

  /** What can happen to the extension: a call of `execute`, a firing of
      the task at an index, or `destroy`. */
  datatype Event = Call(input: Value, now: string) | Firing(index: nat, timestamp: string) | Destroyed

  /** The state after one event; a call that throws, or a firing of an
      index the scheduler does not hold, leaves the state as it was. */
  function Step(a: Auto, e: Event): (r: Auto)
    requires Valid(a)
    ensures Valid(r)
    ensures a.shutdown ==> r.shutdown && r.tasks == a.tasks && r.history == a.history
    ensures |a.tasks| <= |r.tasks|
    ensures forall i :: 0 <= i < |a.tasks| ==> r.tasks[i] == a.tasks[i]
  {
    match e
    case Call(input, now) =>
      var res := Execute(a, input, now);
      if res.Ok? then res.value.0 else a
    case Firing(i, timestamp) => if i < |a.tasks| then Fire(a, i, timestamp) else a
    case Destroyed => Destroy(a)
  }

  /** The state after a sequence of events: it stays valid, and the tasks
      scheduled before the run keep their places. */
  function Run(a: Auto, events: seq<Event>): (r: Auto)
    requires Valid(a)
    ensures Valid(r)
    ensures |a.tasks| <= |r.tasks| && forall i :: 0 <= i < |a.tasks| ==> r.tasks[i] == a.tasks[i]
    ensures a.shutdown ==> r.shutdown
    decreases |events|
  {
    if |events| == 0 then a
    else
      var next := Step(a, events[0]);
      Run(next, events[1..])
  }

  /** Shutting down cannot be undone: once stopped or destroyed, no
      sequence of calls, firings or destroys brings the scheduler back,
      adds a task or a record. */
  lemma {:induction false} ShutdownIsFinal(a: Auto, events: seq<Event>)
    requires Valid(a) && a.shutdown
    ensures Run(a, events) == a
    decreases |events|
  {
    if |events| > 0 {
      var next := Step(a, events[0]);
      assert next == a;
      ShutdownIsFinal(next, events[1..]);
    }
  }

  /** Along any run the history stays within its limit, and every record
      in it is a firing of a task the scheduler held. */
  lemma {:induction false} RunKeepsFirings(a: Auto, events: seq<Event>)
    requires Valid(a)
    requires forall k :: 0 <= k < |a.history| ==> FiringOf(a, a.history[k])
    ensures Valid(Run(a, events))
    ensures forall k :: 0 <= k < |Run(a, events).history| ==> FiringOf(Run(a, events), Run(a, events).history[k])
    decreases |events|
  {
    if |events| > 0 {
      var next := Step(a, events[0]);
      forall k | 0 <= k < |next.history|
        ensures FiringOf(next, next.history[k])
      {
        StepKeepsFirings(a, events[0], k);
      }
      RunKeepsFirings(next, events[1..]);
    }
  }

  /** A firing of a held task stays one when tasks are only added. */
  lemma KeptFiring(a: Auto, b: Auto, entry: TaskRecord)
    requires FiringOf(a, entry)
    requires |a.tasks| <= |b.tasks| && forall i :: 0 <= i < |a.tasks| ==> b.tasks[i] == a.tasks[i]
    ensures FiringOf(b, entry)
  {
    var i :| 0 <= i < |a.tasks| && entry.taskName == a.tasks[i].name && entry.message == a.tasks[i].message
             && entry.status == SUCCESS_STATUS;
    assert b.tasks[i] == a.tasks[i];
  }

  /** A firing adds a firing of the task that fired and keeps the latest
      earlier records. */
  lemma FireKeepsFirings(a: Auto, i: nat, timestamp: string, k: nat)
    requires Valid(a) && i < |a.tasks|
    requires forall j :: 0 <= j < |a.history| ==> FiringOf(a, a.history[j])
    requires k < |Fire(a, i, timestamp).history|
    ensures FiringOf(Fire(a, i, timestamp), Fire(a, i, timestamp).history[k])
  {
    var r := Fire(a, i, timestamp);
    if a.shutdown {
      assert r == a;
    } else {
      var entry := TaskRecord(a.tasks[i].name, timestamp, SUCCESS_STATUS, a.tasks[i].message);
      var added := a.history + [entry];
      assert r.history == Latest(added, HISTORY_LIMIT);
      var j := |added| - |r.history| + k;
      assert r.history[k] == added[j];
      if j < |a.history| {
        KeptFiring(a, r, a.history[j]);
      } else {
        assert r.history[k] == entry;
        assert r.tasks[i] == a.tasks[i];
      }
    }
  }

  /** One step keeps every record a firing of a held task. */
  lemma StepKeepsFirings(a: Auto, e: Event, k: nat)
    requires Valid(a)
    requires forall j :: 0 <= j < |a.history| ==> FiringOf(a, a.history[j])
    requires k < |Step(a, e).history|
    ensures FiringOf(Step(a, e), Step(a, e).history[k])
  {
    if e.Firing? && e.index < |a.tasks| {
      FireKeepsFirings(a, e.index, e.timestamp, k);
    } else {
      var r := Step(a, e);
      assert r.history == a.history;
      KeptFiring(a, r, a.history[k]);
    }
  }

  /** After a stop, stopping again and restarting both fail, and a valid
      schedule request throws. */
  lemma StoppedRefusesEverything(a: Auto, name: string, interval: Int32)
    requires interval > 0
    ensures var stopped := StopTasks(a).0;
            !Succeeded(StopTasks(stopped).1) && !Succeeded(RestartTasks(stopped).1)
            && ScheduleTask(stopped, [("taskName", Str(name)), ("interval", Int(interval))]) == Err(REJECTED)
  {
    var params := [("taskName", Str(name)), ("interval", Int(interval))];
    LookupAt(params, 0);
    LookupAt(params, 1);
  }
}

=== FILE: bounded_history.dfy ===
/**
  The bounded histories the demo plugins keep: `list.add(entry)` followed
  by `list.remove(0)` once the list is longer than its limit, so the list
  holds the latest entries, oldest first.
*/
module BoundedHistory {
  /** The last `n` elements of `s`, or all of `s` when it is shorter. */
  function Latest<T>(s: seq<T>, n: nat): (r: seq<T>)
    ensures |r| == if |s| <= n then |s| else n
    ensures r == s[|s| - |r|..]
  {
    if |s| <= n then s else s[|s| - n..]
  }

  /** One `add` followed by the trimming `remove(0)`. */
  function Append<T>(history: seq<T>, entry: T, limit: nat): (r: seq<T>)
    requires limit > 0
    ensures |history| <= limit ==> r == Latest(history + [entry], limit)
    ensures |r| > 0 && r[|r| - 1] == entry
  {
    var added := history + [entry];
    if |added| > limit then added[1..] else added
  }

  /** A sequence of entries, added one after the other. */
  function AppendAll<T>(history: seq<T>, entries: seq<T>, limit: nat): seq<T>
    requires limit > 0
    decreases |entries|
  {
    if |entries| == 0 then history else AppendAll(Append(history, entries[0], limit), entries[1..], limit)
  }

  /** Trimming before appending or after appending leaves the same tail. */
  lemma {:induction false} LatestOfLatest<T>(s: seq<T>, t: seq<T>, n: nat)
    ensures Latest(Latest(s, n) + t, n) == Latest(s + t, n)
  {
    var l := Latest(s, n);
    assert l + t == (s + t)[|s| - |l|..];
    var a := Latest(l + t, n);
    var b := Latest(s + t, n);
    assert |a| == |b|;
    forall i | 0 <= i < |a|
      ensures a[i] == b[i]
    {
      assert a[i] == (l + t)[|l + t| - |a| + i];
      assert b[i] == (s + t)[|s + t| - |b| + i];
    }
  }

  /** However many entries are added, the history holds the latest `limit`
      of them in the order they were added, the oldest dropped first. */
  lemma {:induction false} AppendAllKeepsLatest<T>(history: seq<T>, entries: seq<T>, limit: nat)
    requires limit > 0 && |history| <= limit
    ensures AppendAll(history, entries, limit) == Latest(history + entries, limit)
    decreases |entries|
  {
    if |entries| == 0 {
      assert history + entries == history;
    } else {
      var first := history + [entries[0]];
      var next := Append(history, entries[0], limit);
      assert next == Latest(first, limit);
      AppendAllKeepsLatest(next, entries[1..], limit);
      assert AppendAll(history, entries, limit) == Latest(next + entries[1..], limit);
      LatestOfLatest(first, entries[1..], limit);
      assert first + entries[1..] == history + entries;
    }
  }

  /** So the history never outgrows its limit, and is full once as many
      entries as the limit have been seen. */
  lemma AppendAllBounded<T>(history: seq<T>, entries: seq<T>, limit: nat)
    requires limit > 0 && |history| <= limit
    ensures |AppendAll(history, entries, limit)| <= limit
    ensures |history| + |entries| >= limit ==> |AppendAll(history, entries, limit)| == limit
  {
    AppendAllKeepsLatest(history, entries, limit);
  }
}

=== FILE: data_processor.dfy ===
/**
  The built-in `DataProcessorPlugin`: describes its input by kind.  Text
  gets its length, case variants, word count and reversal; a list its size
  and end elements; a map its keys and a count of its value types; any
  other object its text and class.  The result map always names the plugin
  and the time; "success" is present unless the input was null.
*/
module DataProcessorPlugin {
  import opened Wrappers
  import opened JavaNumbers
  import opened JavaStrings
  import opened Values

  const PLUGIN_NAME: string := "DataProcessorPlugin"
  const PLUGIN_VERSION: string := "1.0.0"
  const NULL_INPUT: string := "输入参数不能为空"

  /** The `LocalDateTime.now()` object the result carries, known by its
      text. */
  function TimestampValue(now: string): Value {
    Other("LocalDateTime", now)
  }

  // ---------------------------------------------------------------------
  // Strings
  // ---------------------------------------------------------------------

  /** `input.split("\\s+").length`. */
  function WordCount(s: string): (c: Int32)
    ensures (forall j :: 0 <= j < |s| ==> !IsRegexSpace(s[j])) ==> c == 1
  {
    WrapInt(|SplitSpaceRuns(s)|)
  }

  /** `processString`. */
  function ProcessString(s: string): (e: seq<(string, Value)>)
    ensures |e| == 7
    ensures e[0] == ("originalData", Str(s)) && e[1] == ("dataType", Str("String"))
    ensures e[2] == ("length", Int(WrapInt(|s|)))
    ensures e[3].0 == "upperCase" && e[3].1.Str? && |e[3].1.s| == |s|
    ensures forall i :: 0 <= i < |s| ==> e[3].1.s[i] == UpperChar(s[i])
    ensures e[4].0 == "lowerCase" && e[4].1.Str? && |e[4].1.s| == |s|
    ensures forall i :: 0 <= i < |s| ==> e[4].1.s[i] == LowerChar(s[i])
    ensures e[5] == ("wordCount", Int(WordCount(s)))
    ensures e[6].0 == "reversed" && e[6].1.Str? && |e[6].1.s| == |s|
    ensures forall i :: 0 <= i < |s| ==> e[6].1.s[i] == s[|s| - 1 - i]
  {
    [("originalData", Str(s)), ("dataType", Str("String")), ("length", Int(WrapInt(|s|))),
     ("upperCase", Str(ToUpper(s))), ("lowerCase", Str(ToLower(s))),
     ("wordCount", Int(WordCount(s))), ("reversed", Str(Reverse(s)))]
  }

  /** Reversing the reversed text gives the original back. */
  lemma ReverseTwice(s: string)
    ensures Reverse(Reverse(s)) == s
  {
    var r := Reverse(s);
    assert forall i :: 0 <= i < |s| ==> Reverse(r)[i] == r[|s| - 1 - i] == s[i];
  }

  /** The reported length is the text's length, and the reversed text
      read backwards is the input. */
  lemma LengthAndReversal(s: string)
    requires |s| <= INT_MAX
    ensures ProcessString(s)[2].1 == Int(|s|)
    ensures Reverse(ProcessString(s)[6].1.s) == s
  {
    ReverseTwice(s);
  }

  /** The word count of empty text is one: there is nothing to split. */
  lemma WordCountOfEmptyText()
    ensures WordCount("") == 1
  {
    assert SplitSpaceRuns("") == [""];
  }

  /** Whitespace-only text has no words. */
  lemma WordCountOfWhitespace(s: string)
    requires |s| > 0 && forall j :: 0 <= j < |s| ==> IsRegexSpace(s[j])
    ensures WordCount(s) == 0
  {
    AllSpaceSplitsToNothing(s);
  }

  /** For text without leading or trailing whitespace the word count is one
      more than the number of whitespace runs, and every word is non-empty. */
  lemma WordCountOfTrimmedText(s: string)
    requires |s| <= INT_MAX
    requires |s| > 0 && !IsRegexSpace(s[0]) && !IsRegexSpace(s[|s| - 1])
    ensures WordCount(s) == SpaceRuns(s) + 1
    ensures forall i :: 0 <= i < |SplitSpaceRuns(s)| ==> SplitSpaceRuns(s)[i] != ""
  {
    WordsOfTrimmedText(s);
    SpaceRunsBound(s[1..]);
    assert SpaceRuns(s) == SpaceRuns(s[1..]);
    assert IsInt(|SplitSpaceRuns(s)|);
  }

  /** There are never more runs of whitespace than characters. */
  lemma {:induction false} SpaceRunsBound(s: string)
    ensures SpaceRuns(s) <= |s|
  {
    if |s| > 0 {
      SpaceRunsBound(s[1..]);
    }
  }

  // ---------------------------------------------------------------------
  // Lists
  // ---------------------------------------------------------------------

  /** `instanceof Number` for the values requests carry. */
  predicate IsNumber(v: Value) {
    v.Int? || v.Long? || v.Short? || v.Byte? || v.Decimal?
  }

  /** `processList`.  The statistics map (sum, average, maximum and
      minimum as doubles) is the `statistics` input: it is added exactly
      when the list is not empty and starts with a number. */
  function ProcessList(items: seq<Value>, statistics: Value): (e: seq<(string, Value)>)
    ensures |e| >= 3
    ensures e[0] == ("originalData", List(items)) && e[1] == ("dataType", Str("List"))
    ensures e[2] == ("size", Int(WrapInt(|items|)))
    ensures |items| == 0 <==> |e| == 3
    ensures |items| > 0 ==> |e| >= 5 && e[3] == ("firstElement", items[0]) && e[4] == ("lastElement", items[|items| - 1])
    ensures |e| == 6 <==> |items| > 0 && IsNumber(items[0])
    ensures |e| == 6 ==> e[5] == ("statistics", statistics)
  {
    var head := [("originalData", List(items)), ("dataType", Str("List")), ("size", Int(WrapInt(|items|)))];
    if |items| == 0 then head
    else
      var ends := [("firstElement", items[0]), ("lastElement", items[|items| - 1])];
      if IsNumber(items[0]) then head + ends + [("statistics", statistics)] else head + ends
  }

  // ---------------------------------------------------------------------
  // Maps
  // ---------------------------------------------------------------------

  /** The type name counted for a value: "null" or its simple class name. */
  function TypeName(v: Value): string {
    if v.Null? then "null" else SimpleClassName(v)
  }

  /** How many of `values` have type name `t`. */
  function Occurrences(values: seq<Value>, t: string): nat {
    if |values| == 0 then 0
    else Occurrences(values[..|values| - 1], t) + (if TypeName(values[|values| - 1]) == t then 1 else 0)
  }

  /** The values of a map, in its iteration order. */
  function ValuesOf(entries: seq<(string, Value)>): (vs: seq<Value>)
    ensures |vs| == |entries|
    ensures forall i :: 0 <= i < |entries| ==> vs[i] == entries[i].1
  {
    seq(|entries|, i requires 0 <= i < |entries| => entries[i].1)
  }

  /** One step of the counting loop:
      `valueTypes.put(type, valueTypes.getOrDefault(type, 0) + 1)`. */
  function Count(counts: seq<(string, Value)>, v: Value): seq<(string, Value)> {
    var t := TypeName(v);
    var before := match Lookup(counts, t) case Some(Int(n)) => n as int case _ => 0;
    Put(counts, t, Int(WrapInt(before + 1)))
  }

  /** `valueTypes` after counting `values` in order. */
  function CountTypes(values: seq<Value>): (counts: seq<(string, Value)>)
    ensures |counts| <= |values|
  {
    if |values| == 0 then [] else Count(CountTypes(values[..|values| - 1]), values[|values| - 1])
  }

  /** The tally is a proper map: no type is listed twice. */
  lemma {:induction false} CountTypesIsAMap(values: seq<Value>)
    ensures DistinctKeys(CountTypes(values))
  {
    if |values| > 0 {
      CountTypesIsAMap(values[..|values| - 1]);
    }
  }

  /** The sum of the counts in a count map. */
  function Total(counts: seq<(string, Value)>): int {
    if |counts| == 0 then 0
    else (match counts[0].1 case Int(n) => n as int case _ => 0) + Total(counts[1..])
  }

  /** `processMap`. */
  function ProcessMap(entries: seq<(string, Value)>): (e: seq<(string, Value)>)
    ensures |e| == 5
    ensures e[0] == ("originalData", Obj(entries)) && e[1] == ("dataType", Str("Map"))
    ensures e[2] == ("keyCount", Int(WrapInt(|entries|)))
    ensures e[3].0 == "keys" && e[3].1.List? && |e[3].1.items| == |entries|
    ensures forall i :: 0 <= i < |entries| ==> e[3].1.items[i] == Str(entries[i].0)
    ensures e[4] == ("valueTypes", Obj(CountTypes(ValuesOf(entries))))
  {
    var keys := seq(|entries|, i requires 0 <= i < |entries| => Str(entries[i].0));
    [("originalData", Obj(entries)), ("dataType", Str("Map")), ("keyCount", Int(WrapInt(|entries|))),
     ("keys", List(keys)), ("valueTypes", Obj(CountTypes(ValuesOf(entries))))]
  }

  /** Counting keeps one entry per type seen, holding how many values have
      that type. */
  lemma {:induction false} CountTypesCounts(values: seq<Value>, t: string)
    requires |values| <= INT_MAX
    ensures Occurrences(values, t) == 0 ==> Lookup(CountTypes(values), t).None?
    ensures Occurrences(values, t) > 0
            ==> (Lookup(CountTypes(values), t).Some? && Lookup(CountTypes(values), t).value.Int?
                 && Lookup(CountTypes(values), t).value.i == Occurrences(values, t))
  {
    if |values| > 0 {
      var prefix := values[..|values| - 1];
      var last := values[|values| - 1];
      var tl := TypeName(last);
      var counts := CountTypes(prefix);
      CountTypesCounts(prefix, t);
      assert CountTypes(values) == Count(counts, last);
      if tl == t {
        OccurrencesBound(prefix, t);
        var before := match Lookup(counts, t) case Some(Int(n)) => n as int case _ => 0;
        assert before == Occurrences(prefix, t);
        assert Occurrences(values, t) == before + 1;
        assert Lookup(CountTypes(values), t) == Some(Int(WrapInt(before + 1)));
      } else {
        assert Occurrences(values, t) == Occurrences(prefix, t);
        assert Lookup(CountTypes(values), t) == Lookup(counts, t);
      }
    }
  }

  lemma {:induction false} OccurrencesBound(values: seq<Value>, t: string)
    ensures Occurrences(values, t) <= |values|
  {
    if |values| > 0 {
      OccurrencesBound(values[..|values| - 1], t);
    }
  }

  /** Adding one to a count, or a new count of one, adds one to the total. */
  lemma {:induction false} TotalOfPut(counts: seq<(string, Value)>, t: string, n: Int32)
    requires Lookup(counts, t).None? ==> n == 1
    requires Lookup(counts, t).Some? ==> Lookup(counts, t).value.Int? && n == Lookup(counts, t).value.i + 1
    ensures Total(Put(counts, t, Int(n))) == Total(counts) + 1
  {
    if |counts| > 0 && counts[0].0 != t {
      TotalOfPut(counts[1..], t, n);
    }
  }

  /** The value-type counts add up to the number of values, that is, to
      the key count. */
  lemma {:induction false} CountTypesTotal(values: seq<Value>)
    requires |values| <= INT_MAX
    ensures Total(CountTypes(values)) == |values|
  {
    if |values| > 0 {
      var prefix := values[..|values| - 1];
      var t := TypeName(values[|values| - 1]);
      var counts := CountTypes(prefix);
      assert CountTypes(values) == Count(counts, values[|values| - 1]);
      CountTypesTotal(prefix);
      CountTypesCounts(prefix, t);
      OccurrencesBound(prefix, t);
      var before := match Lookup(counts, t) case Some(Int(n)) => n as int case _ => 0;
      assert Count(counts, values[|values| - 1]) == Put(counts, t, Int(WrapInt(before + 1)));
      TotalOfPut(counts, t, WrapInt(before + 1));
    }
  }

  // ---------------------------------------------------------------------
  // execute
  // ---------------------------------------------------------------------

  /** `execute`: the plugin name and the time, then the summary of the
      input's kind and "success"; a null input gets an error instead and
      no "success" entry. */
  function Execute(input: Value, now: string, statistics: Value): (r: Value)
    ensures r.Obj? && |r.entries| >= 3
    ensures r.entries[0] == ("pluginName", Str(PLUGIN_NAME)) && r.entries[1] == ("timestamp", TimestampValue(now))
    ensures input.Null? ==> r.entries == [r.entries[0], r.entries[1], ("error", Str(NULL_INPUT))]
    ensures !input.Null? ==> r.entries[|r.entries| - 1] == ("success", Bool(true))
    ensures input.Str? ==> r.entries[2..|r.entries| - 1] == ProcessString(input.s)
    ensures input.List? ==> r.entries[2..|r.entries| - 1] == ProcessList(input.items, statistics)
    ensures input.Obj? ==> r.entries[2..|r.entries| - 1] == ProcessMap(input.entries)
    ensures !input.Null? && !input.Str? && !input.List? && !input.Obj?
            ==> r.entries[2..|r.entries| - 1] == [("processedData", Str(ToJavaString(input))),
                                                 ("dataType", Str(SimpleClassName(input)))]
  {
    var base := [("pluginName", Str(PLUGIN_NAME)), ("timestamp", TimestampValue(now))];
    if input.Null? then Obj(base + [("error", Str(NULL_INPUT))])
    else
      var summary :=
        if input.Str? then ProcessString(input.s)
        else if input.List? then ProcessList(input.items, statistics)
        else if input.Obj? then ProcessMap(input.entries)
        else [("processedData", Str(ToJavaString(input))), ("dataType", Str(SimpleClassName(input)))];
      Obj(base + summary + [("success", Bool(true))])
  }

  /** "success" is present exactly when the input is not null. */
  lemma SuccessUnlessNull(input: Value, now: string, statistics: Value)
    ensures HasKey(Execute(input, now, statistics).entries, "success") <==> !input.Null?
  {
    var e := Execute(input, now, statistics).entries;
    if !input.Null? {
      assert e[|e| - 1].0 == "success";
    } else {
      assert e[0].0 != "success" && e[1].0 != "success" && e[2].0 != "success";
    }
  }
}

=== FILE: database_config.dfy ===
/**
  The scaffold's `DatabaseConfig` value: a MySQL connection description
  that either carries a full JDBC URL or the host, port and database to
  build one from.  Every reference field of the Java class may be `null`,
  so each is an `Option` here.
*/
module DatabaseConfigModel {
  import opened Wrappers
  import opened JavaStrings
  import opened JavaNumbers

  datatype DatabaseConfig = DatabaseConfig(
    url: Option<string>,
    host: Option<string>,
    port: Option<Int32>,
    database: Option<string>,
    username: Option<string>,
    password: Option<string>,
    driverClassName: Option<string>,
    maxPoolSize: Option<Int32>,
    minPoolSize: Option<Int32>,
    connectionTimeout: Option<Int64>,
    idleTimeout: Option<Int64>,
    maxLifetime: Option<Int64>)

  const MYSQL_DRIVER: string := "com.mysql.cj.jdbc.Driver"
  const JDBC_PREFIX: string := "jdbc:mysql://"

  /** The query string appended to a built URL.  Its time zone
      `Asia/Shanghai` holds the only `/` after the database name, so it is
      kept as the two halves around that slash. */
  const QUERY_PARAMS: string := "useUnicode=true&characterEncoding=utf8" + "&useSSL=false&serverTimezone=Asia"
  const QUERY_HEAD: string := "?" + QUERY_PARAMS
  const QUERY_TAIL: string := "Shanghai&allowPublicKeyRetrieval=true"
  const JDBC_QUERY: string := QUERY_HEAD + "/" + QUERY_TAIL

  predicate NonBlank(s: Option<string>) {
    s.Some? && !IsBlank(s.value)
  }

  /** The URL built from host, port and database (both texts trimmed). */
  function BuildUrl(host: string, port: int, database: string): string {
    JDBC_PREFIX + (Trim(host) + ":" + IntToString(port)) + "/" + Trim(database) + JDBC_QUERY
  }

  /** `getJdbcUrl`: a non-blank `url` wins (trimmed) whatever the other
      fields say; otherwise the URL is built when host, port and database
      are all present; otherwise `null`. */
  function GetJdbcUrl(c: DatabaseConfig): (r: Option<string>)
    ensures NonBlank(c.url) ==> r == Some(Trim(c.url.value))
    ensures !NonBlank(c.url) && c.host.Some? && c.port.Some? && c.database.Some?
            ==> r == Some(BuildUrl(c.host.value, c.port.value, c.database.value))
    ensures r.None? <==> !NonBlank(c.url) && (c.host.None? || c.port.None? || c.database.None?)
  {
    if NonBlank(c.url) then Some(Trim(c.url.value))
    else if c.host.Some? && c.port.Some? && c.database.Some? then
      Some(BuildUrl(c.host.value, c.port.value, c.database.value))
    else None
  }

  /** `isValid`: a non-blank user name and either a non-blank URL or a
      non-blank host, a port in 1..65535 and a non-blank database.  A valid
      configuration always yields a JDBC URL. */
  predicate IsValid(c: DatabaseConfig)
    ensures IsValid(c) ==> GetJdbcUrl(c).Some? && NonBlank(c.username)
  {
    NonBlank(c.username)
    && (NonBlank(c.url)
        || (NonBlank(c.host) && c.port.Some? && 0 < c.port.value <= 65535 && NonBlank(c.database)))
  }

  /** `isValid` spelled out as the two ways of naming a server. */
  lemma {:induction false} IsValidCases(c: DatabaseConfig)
    ensures IsValid(c) <==>
              (NonBlank(c.username) && NonBlank(c.url))
              || (NonBlank(c.username) && NonBlank(c.host) && NonBlank(c.database)
                  && c.port.Some? && 1 <= c.port.value <= 65535)
  {
  }

  /** A text whose first character survives `trim` is not blank. */
  lemma NotBlankWhenFirstKept(s: string)
    requires |s| > 0 && !IsTrimmable(s[0])
    ensures !IsBlank(s)
  {
    assert TrimStart(s) == s;
  }

  /** `createDefault`: root on localhost:3306/pf4j_db with the default pool;
      it is valid and builds its URL from those three fields. */
  function CreateDefault(): (c: DatabaseConfig)
    ensures c.url.None? && c.host == Some("localhost") && c.port == Some(3306) && c.database == Some("pf4j_db")
    ensures c.username == Some("root") && c.password == Some("") && c.driverClassName == Some(MYSQL_DRIVER)
    ensures c.maxPoolSize == Some(10) && c.minPoolSize == Some(1)
    ensures c.connectionTimeout == Some(30000) && c.idleTimeout == Some(600000) && c.maxLifetime == Some(1800000)
  {
    DatabaseConfig(None, Some("localhost"), Some(3306), Some("pf4j_db"), Some("root"), Some(""),
                   Some(MYSQL_DRIVER), Some(10), Some(1), Some(30000), Some(600000), Some(1800000))
  }

  lemma DefaultIsValid()
    ensures IsValid(CreateDefault())
  {
    NotBlankWhenFirstKept("localhost");
    NotBlankWhenFirstKept("pf4j_db");
    NotBlankWhenFirstKept("root");
  }

  /** `copyWithoutPassword`: the same configuration with the password
      cleared, so it is exactly as valid and names the same server. */
  function CopyWithoutPassword(c: DatabaseConfig): (r: DatabaseConfig)
    ensures r.password.None?
    ensures r.(password := c.password) == c
    ensures IsValid(r) == IsValid(c)
    ensures GetJdbcUrl(r) == GetJdbcUrl(c)
  {
    c.(password := None)
  }

  // ---------------------------------------------------------------------
  // fromUrl
  // ---------------------------------------------------------------------

  /** The database step of `fromUrl`: the text before the first `?`, or
      the whole part.  When the part is nothing but question marks the
      split is empty, indexing it throws, and the enclosing `catch` leaves
      the database unset. */
  function WithDatabase(c: DatabaseConfig, dbPart: string): (r: DatabaseConfig)
    ensures '?' !in dbPart ==> r == c.(database := Some(dbPart))
    ensures r.database.Some? && r.database != c.database ==> '?' !in r.database.value
    ensures '?' in dbPart && (forall i :: 0 <= i < |dbPart| ==> dbPart[i] == '?') ==> r == c
    ensures '?' in dbPart && (exists i :: 0 <= i < |dbPart| && dbPart[i] != '?')
            ==> r == c.(database := r.database) && r.database.Some?
                && |r.database.value| < |dbPart| && dbPart[..|r.database.value|] == r.database.value
                && dbPart[|r.database.value|] == '?' && '?' !in r.database.value
  {
    if '?' in dbPart then
      var pieces := Split(dbPart, '?');
      SplitBeforeFirst(dbPart, '?');
      if |pieces| == 0 then c else c.(database := Some(pieces[0]))
    else c.(database := Some(dbPart))
  }

  /** The host-and-port step of `fromUrl` followed by the database step.
      With a `:` the host is the first piece and the port the second when
      it parses as an `int` (a `NumberFormatException` is ignored).  A
      missing first or second piece throws an index exception that the
      outer `catch` swallows, so the steps after it do not happen. */
  function WithHostPortAndDatabase(c: DatabaseConfig, hostPort: string, dbPart: string): (r: DatabaseConfig)
    ensures ':' !in hostPort ==> r == WithDatabase(c.(host := Some(hostPort)), dbPart)
    ensures r.url == c.url
    ensures ':' in hostPort && (forall i :: 0 <= i < |hostPort| ==> hostPort[i] == ':') ==> r == c
    ensures ':' in hostPort && (exists i :: 0 <= i < |hostPort| && hostPort[i] != ':')
            ==> r.host.Some? && |r.host.value| < |hostPort| && hostPort[..|r.host.value|] == r.host.value
                && hostPort[|r.host.value|] == ':' && ':' !in r.host.value
    ensures ':' in hostPort && |Split(hostPort, ':')| == 1
            ==> r == c.(host := r.host)
    ensures ':' in hostPort && |Split(hostPort, ':')| >= 2
            ==> var port := ParseInt(Split(hostPort, ':')[1]);
                && (port.Some? ==> r.port == port)
                && (port.None? ==> r.port == c.port)
                && r == WithDatabase(c.(host := r.host, port := r.port), dbPart)
  {
    if ':' in hostPort then
      var pieces := Split(hostPort, ':');
      SplitBeforeFirst(hostPort, ':');
      if |pieces| == 0 then c
      else
        var withHost := c.(host := Some(pieces[0]));
        if |pieces| < 2 then withHost
        else
          var withPort := match ParseInt(pieces[1])
                          case Some(p) => withHost.(port := Some(p))
                          case None => withHost;
          WithDatabase(withPort, dbPart)
    else WithDatabase(c.(host := Some(hostPort)), dbPart)
  }

  /** `fromUrl`: the default configuration with `url` set to the input; for
      a `jdbc:mysql://` URL with at least two `/`-separated parts, host,
      port and database are taken from it as far as they can be read. */
  function FromUrl(jdbcUrl: Option<string>): (r: DatabaseConfig)
    ensures r.url == jdbcUrl
    ensures r.username == Some("root") && r.password == Some("")
    ensures jdbcUrl.None? || !StartsWith(jdbcUrl.value, JDBC_PREFIX) ==> r == CreateDefault().(url := jdbcUrl)
  {
    var base := CreateDefault().(url := jdbcUrl);
    if jdbcUrl.None? || !StartsWith(jdbcUrl.value, JDBC_PREFIX) then base
    else
      var parts := Split(jdbcUrl.value[|JDBC_PREFIX|..], '/');
      if |parts| < 2 then base
      else WithHostPortAndDatabase(base, parts[0], parts[1])
  }

  // ---------------------------------------------------------------------
  // Round trip
  // ---------------------------------------------------------------------

  lemma QueryHalvesHaveNoSlash()
    ensures '/' !in QUERY_HEAD && '/' !in QUERY_TAIL && QUERY_TAIL != ""
  {
    var p1, p2 := "useUnicode=true&characterEncoding=utf8", "&useSSL=false&serverTimezone=Asia";
    assert '/' !in p1 && '/' !in p2;
    assert QUERY_PARAMS == p1 + p2;
    assert '/' !in QUERY_TAIL && QUERY_TAIL != "";
  }

  /** `Join` of three pieces. */
  lemma JoinThree(a: string, b: string, c: string, sep: char)
    ensures Join([a, b, c], sep) == a + [sep] + b + [sep] + c
  {
    assert [a, b, c][1..] == [b, c];
    assert [b, c][1..] == [c];
    assert Join([b, c], sep) == b + [sep] + c;
    assert Join([a, b, c], sep) == a + [sep] + (b + [sep] + c);
  }

  /** The digits and sign of a number's text are neither separator. */
  lemma IntTextHasNoSeparator(p: int)
    ensures '/' !in IntToString(p) && ':' !in IntToString(p)
  {
    var ps := IntToString(p);
    forall i | 0 <= i < |ps| ensures ps[i] != '/' && ps[i] != ':' {
    }
  }

  /** The shape of a built URL for any prefix and query halves. */
  lemma {:induction false} UrlShape(pre: string, hp: string, d: string, q: string, qh: string, qt: string)
    requires q == qh + "/" + qt
    ensures StartsWith(pre + hp + "/" + d + q, pre)
    ensures (pre + hp + "/" + d + q)[|pre|..] == Join([hp, d + qh, qt], '/')
  {
    var rest := hp + "/" + d + q;
    assert pre + hp + "/" + d + q == pre + rest;
    JoinThree(hp, d + qh, qt, '/');
    assert rest == hp + "/" + (d + qh) + "/" + qt;
    assert (pre + rest)[|pre|..] == rest;
    assert (pre + rest)[..|pre|] == pre;
  }

  /** A built URL, past its `jdbc:mysql://` prefix, is host-and-port,
      database-and-query and the tail of the time zone joined by `/`. */
  lemma {:induction false} BuiltUrlShape(h: string, p: int, d: string)
    ensures StartsWith(JDBC_PREFIX + (h + ":" + IntToString(p)) + "/" + d + JDBC_QUERY, JDBC_PREFIX)
    ensures (JDBC_PREFIX + (h + ":" + IntToString(p)) + "/" + d + JDBC_QUERY)[|JDBC_PREFIX|..]
            == Join([h + ":" + IntToString(p), d + QUERY_HEAD, QUERY_TAIL], '/')
  {
    UrlShape(JDBC_PREFIX, h + ":" + IntToString(p), d, JDBC_QUERY, QUERY_HEAD, QUERY_TAIL);
  }

  /** The three `/`-pieces of a built URL come back from `split("/")`. */
  lemma {:induction false} BuiltUrlParts(h: string, p: int, d: string)
    requires '/' !in h && '/' !in d
    ensures Split(Join([h + ":" + IntToString(p), d + QUERY_HEAD, QUERY_TAIL], '/'), '/')
            == [h + ":" + IntToString(p), d + QUERY_HEAD, QUERY_TAIL]
  {
    var parts := [h + ":" + IntToString(p), d + QUERY_HEAD, QUERY_TAIL];
    QueryHalvesHaveNoSlash();
    IntTextHasNoSeparator(p);
    assert '/' !in parts[0] && '/' !in parts[1] && '/' !in parts[2];
    SplitJoin(parts, '/');
  }

  /** The host-and-port piece of a built URL splits into the host and the
      port text. */
  lemma {:induction false} HostPortSplit(h: string, p: int)
    requires ':' !in h
    ensures Split(h + ":" + IntToString(p), ':') == [h, IntToString(p)]
  {
    var ps := IntToString(p);
    IntTextHasNoSeparator(p);
    assert Join([h, ps], ':') == h + ":" + ps;
    SplitJoin([h, ps], ':');
  }

  /** The database piece of a built URL gives back the database name. */
  lemma {:induction false} DatabasePartSplit(d: string)
    requires '?' !in d
    ensures '?' in d + QUERY_HEAD
    ensures |Split(d + QUERY_HEAD, '?')| > 0 && Split(d + QUERY_HEAD, '?')[0] == d
  {
    assert QUERY_PARAMS[0] == "useUnicode=true&characterEncoding=utf8"[0] == 'u';
    assert d + QUERY_HEAD == d + ['?'] + QUERY_PARAMS;
    SplitFirstPiece(d, '?', QUERY_PARAMS);
  }

  /** The host-and-port step on a built URL's pieces sets host and port
      and hands on the database piece. */
  lemma {:induction false} BuiltHostPortStep(base: DatabaseConfig, h: string, p: Int32, d: string)
    requires ':' !in h
    ensures WithHostPortAndDatabase(base, h + ":" + IntToString(p), d)
            == WithDatabase(base.(host := Some(h), port := Some(p)), d)
  {
    HostPortSplit(h, p);
    ParseIntRoundTrip(p);
    assert ':' in h + ":" + IntToString(p) by {
      assert (h + ":" + IntToString(p))[|h|] == ':';
    }
  }

  /** Reading back a URL that was built from host, port and database
      recovers them (trimmed), as long as the host holds no `/` or `:` and
      the database no `/` or `?`. */
  lemma {:induction false} FromUrlOfBuiltUrl(c: DatabaseConfig)
    requires !NonBlank(c.url) && c.host.Some? && c.port.Some? && c.database.Some?
    requires '/' !in Trim(c.host.value) && ':' !in Trim(c.host.value)
    requires '/' !in Trim(c.database.value) && '?' !in Trim(c.database.value)
    ensures GetJdbcUrl(c).Some?
    ensures FromUrl(GetJdbcUrl(c)).host == Some(Trim(c.host.value))
    ensures FromUrl(GetJdbcUrl(c)).port == c.port
    ensures FromUrl(GetJdbcUrl(c)).database == Some(Trim(c.database.value))
  {
    var h, p, d := Trim(c.host.value), c.port.value, Trim(c.database.value);
    var url := JDBC_PREFIX + (h + ":" + IntToString(p)) + "/" + d + JDBC_QUERY;
    assert GetJdbcUrl(c) == Some(url);
    BuiltUrlShape(h, p, d);
    BuiltUrlParts(h, p, d);
    var base := CreateDefault().(url := Some(url));
    assert FromUrl(Some(url)) == WithHostPortAndDatabase(base, h + ":" + IntToString(p), d + QUERY_HEAD);
    BuiltHostPortStep(base, h, p, d + QUERY_HEAD);
    DatabasePartSplit(d);
  }

  /** The URL text after the prefix for a host, a port text and a database. */
  lemma {:induction false} TwoPartUrl(h: string, x: string, d: string)
    requires '/' !in h && '/' !in x && '/' !in d && d != ""
    ensures StartsWith(JDBC_PREFIX + (h + ":" + x) + "/" + d, JDBC_PREFIX)
    ensures Split((JDBC_PREFIX + (h + ":" + x) + "/" + d)[|JDBC_PREFIX|..], '/') == [h + ":" + x, d]
    ensures ':' in h + ":" + x
  {
    var hp := h + ":" + x;
    var u := JDBC_PREFIX + hp + "/" + d;
    assert u == JDBC_PREFIX + (hp + "/" + d);
    assert u[..|JDBC_PREFIX|] == JDBC_PREFIX;
    assert u[|JDBC_PREFIX|..] == hp + "/" + d;
    assert Join([hp, d], '/') == hp + "/" + d;
    assert '/' !in hp;
    SplitJoin([hp, d], '/');
    assert hp[|h|] == ':';
  }

  /** A port that is not an `int` is ignored: the default 3306 stays while
      host and database are still read. */
  lemma {:induction false} FromUrlKeepsDefaultPort(h: string, x: string, d: string)
    requires '/' !in h && ':' !in h && '/' !in x && ':' !in x && x != "" && ParseInt(x).None?
    requires '/' !in d && '?' !in d && d != ""
    ensures FromUrl(Some(JDBC_PREFIX + (h + ":" + x) + "/" + d)).host == Some(h)
    ensures FromUrl(Some(JDBC_PREFIX + (h + ":" + x) + "/" + d)).port == Some(3306)
    ensures FromUrl(Some(JDBC_PREFIX + (h + ":" + x) + "/" + d)).database == Some(d)
  {
    TwoPartUrl(h, x, d);
    assert Join([h, x], ':') == h + ":" + x;
    SplitJoin([h, x], ':');
  }

  /** With nothing after the `:` the split has no second piece; indexing it
      throws before the database is read, so only the host is taken and the
      default database stays. */
  lemma {:induction false} FromUrlEmptyPortSkipsDatabase(h: string, d: string)
    requires '/' !in h && ':' !in h && h != "" && '/' !in d && d != ""
    ensures FromUrl(Some(JDBC_PREFIX + (h + ":" + "") + "/" + d)).host == Some(h)
    ensures FromUrl(Some(JDBC_PREFIX + (h + ":" + "") + "/" + d)).port == Some(3306)
    ensures FromUrl(Some(JDBC_PREFIX + (h + ":" + "") + "/" + d)).database == Some("pf4j_db")
  {
    TwoPartUrl(h, "", d);
    assert h + ":" + "" == h + [':'];
    assert SplitAll(h + [':'], ':') == [h, ""] by {
      SplitAllCons(h, "", ':');
    }
    assert (h + [':'])[|h|] == ':';
    assert [h, ""][..1] == [h];
    assert StripTrailingEmpty([h, ""]) == [h];
    assert Split(h + [':'], ':') == [h];
  }
}

=== FILE: database_config_service.dfy ===
/**
  The scaffold's `DatabaseConfigService`: it holds the current
  `DatabaseConfig` and the data source built from it, and guards every
  change with validation and a connection test.  The connection probe, the
  data-source builder and the configuration file manager are outside the
  model; they are passed in as an `Environment` of oracles, and every call
  made to the file manager is recorded so that what was written can be
  stated.
*/
module ConfigService {
  import opened Wrappers
  import opened JavaNumbers
  import opened Values
  import opened DatabaseConfigModel

  /** What `DataSourceBuilder` is given: URL, user, password and driver. */
  datatype DataSource = DataSource(url: Option<string>, username: Option<string>,
                                   password: Option<string>, driverClassName: Option<string>)

  /** The outcome of opening a connection for a valid configuration and
      asking `isValid(5)`, with the elapsed milliseconds. */
  datatype Probe =
    | Connected(duration: nat)
    | NotValidated(duration: nat)
    | SqlFailed(error: Exception, duration: nat)
    | Failed(error: Exception, duration: nat)

  /** The outcome of a call into the file manager: its boolean answer, or
      an unchecked exception. */
  datatype IoOutcome = Answered(ok: bool) | IoThrew(error: Exception)

  /** A recorded call into the file manager. */
  datatype ManagerCall = Load | Backup(config: DatabaseConfig) | Save(config: DatabaseConfig) | Delete

  datatype Environment = Environment(
    loaded: DatabaseConfig,                       // what `loadConfig` returns
    probe: DatabaseConfig -> Probe,               // connection test of a valid configuration
    build: DatabaseConfig -> Option<Exception>,   // `DataSourceBuilder...build()`: None when it succeeds
    backup: DatabaseConfig -> IoOutcome,
    save: DatabaseConfig -> IoOutcome,
    delete: IoOutcome)

  datatype Service = Service(currentConfig: Option<DatabaseConfig>, currentDataSource: Option<DataSource>,
                             calls: seq<ManagerCall>)

  datatype ConnectionTestResult = ConnectionTestResult(success: bool, message: string, duration: nat)

  const INVALID_CONFIG_MESSAGE: string := "配置信息无效或不完整"
  const CONNECTED_MESSAGE: string := "连接成功"
  const NOT_VALIDATED_MESSAGE: string := "连接验证失败"
  const SQL_FAILED_PREFIX: string := "SQL连接失败: "
  const CONNECT_FAILED_PREFIX: string := "连接异常: "
  const RELOAD_FAILED_PREFIX: string := "重新加载数据源失败: "

  /** `ConnectionTestResult.getDisplayMessage`: `"%s (耗时: %dms)"`. */
  function DisplayMessage(r: ConnectionTestResult): (text: string)
    ensures |text| == |r.message| + |" (耗时: "| + |IntToString(r.duration)| + 3
    ensures text[..|r.message|] == r.message
    ensures text[|text| - 3..] == "ms)"
    ensures text[|r.message|..|text| - 3] == " (耗时: " + IntToString(r.duration)
  {
    r.message + " (耗时: " + IntToString(r.duration) + "ms)"
  }

  /** The display message of two results is the same only if their
      messages of equal length and their durations agree. */
  lemma {:induction false} DisplayMessageDeterminesDuration(a: ConnectionTestResult, b: ConnectionTestResult)
    requires |a.message| == |b.message| && DisplayMessage(a) == DisplayMessage(b)
    ensures a.message == b.message && a.duration == b.duration
  {
    var ta, tb := DisplayMessage(a), DisplayMessage(b);
    assert a.message == ta[..|a.message|] == tb[..|b.message|] == b.message;
    var sa := ta[|a.message|..|ta| - 3];
    var sb := tb[|b.message|..|tb| - 3];
    assert sa == sb;
    var tag := " (耗时: ";
    assert IntToString(a.duration) == sa[|tag|..];
    assert IntToString(b.duration) == sb[|tag|..];
    IntToStringInjective(a.duration, b.duration);
  }

  /** The data source built from a configuration. */
  function DataSourceOf(c: DatabaseConfig): DataSource {
    DataSource(GetJdbcUrl(c), c.username, c.password, c.driverClassName)
  }

  /** `testConnection`: an absent or invalid configuration fails at once
      with duration 0 and nothing is probed; otherwise the probe decides,
      and every exception becomes a failed result. */
  function TestConnection(config: Option<DatabaseConfig>, probe: DatabaseConfig -> Probe): (r: ConnectionTestResult)
    ensures config.None? || !IsValid(config.value) ==> r == ConnectionTestResult(false, INVALID_CONFIG_MESSAGE, 0)
    ensures r.success <==> config.Some? && IsValid(config.value) && probe(config.value).Connected?
    ensures r.success ==> r.message == CONNECTED_MESSAGE
  {
    if config.None? || !IsValid(config.value) then ConnectionTestResult(false, INVALID_CONFIG_MESSAGE, 0)
    else
      match probe(config.value)
      case Connected(d) => ConnectionTestResult(true, CONNECTED_MESSAGE, d)
      case NotValidated(d) => ConnectionTestResult(false, NOT_VALIDATED_MESSAGE, d)
      case SqlFailed(e, d) => ConnectionTestResult(false, SQL_FAILED_PREFIX + MessageText(e), d)
      case Failed(e, d) => ConnectionTestResult(false, CONNECT_FAILED_PREFIX + MessageText(e), d)
  }

  /** `getCurrentConfig`: the current configuration, loaded from the file
      manager the first time it is missing. */
  function GetCurrentConfig(s: Service, env: Environment): (r: (Service, DatabaseConfig))
    ensures r.0.currentConfig == Some(r.1)
    ensures s.currentConfig.Some? ==> r == (s, s.currentConfig.value)
    ensures s.currentConfig.None? ==> r.1 == env.loaded && r.0.calls == s.calls + [Load]
    ensures r.0.currentDataSource == s.currentDataSource
  {
    if s.currentConfig.Some? then (s, s.currentConfig.value)
    else (s.(currentConfig := Some(env.loaded), calls := s.calls + [Load]), env.loaded)
  }

  /** `reloadDataSource`: a valid configuration gets a freshly built data
      source and an invalid one none; when building throws, the data source
      is cleared and a `RuntimeException` is rethrown. */
  function ReloadDataSource(s: Service, env: Environment): (r: (Service, Option<Exception>))
    ensures var c := GetCurrentConfig(s, env).1;
            r.0 == GetCurrentConfig(s, env).0.(currentDataSource := r.0.currentDataSource)
            && (!IsValid(c) ==> r.0.currentDataSource.None? && r.1.None?)
            && (IsValid(c) && env.build(c).None? ==> r.0.currentDataSource == Some(DataSourceOf(c)) && r.1.None?)
            && (IsValid(c) && env.build(c).Some? ==>
                  r.0.currentDataSource.None?
                  && r.1 == Some(Exception(Runtime, Some(RELOAD_FAILED_PREFIX + MessageText(env.build(c).value)))))
  {
    var (s1, c) := GetCurrentConfig(s, env);
    if !IsValid(c) then (s1.(currentDataSource := None), None)
    else
      match env.build(c)
      case None => (s1.(currentDataSource := Some(DataSourceOf(c))), None)
      case Some(e) => (s1.(currentDataSource := None), Some(Exception(Runtime, Some(RELOAD_FAILED_PREFIX + MessageText(e)))))
  }

  /** The backup step shared by `updateConfig` and `resetToDefault`: only a
      present and valid current configuration is backed up.  Its boolean
      answer is ignored; only an exception matters. */
  function BackupCurrent(s: Service, env: Environment): (r: (Service, bool))
    ensures r.0.currentConfig == s.currentConfig && r.0.currentDataSource == s.currentDataSource
    ensures s.currentConfig.Some? && IsValid(s.currentConfig.value)
            ==> r.0.calls == s.calls + [Backup(s.currentConfig.value)]
                && (r.1 <==> !env.backup(s.currentConfig.value).IoThrew?)
    ensures !(s.currentConfig.Some? && IsValid(s.currentConfig.value)) ==> r == (s, true)
  {
    if s.currentConfig.Some? && IsValid(s.currentConfig.value) then
      var s1 := s.(calls := s.calls + [Backup(s.currentConfig.value)]);
      (s1, !env.backup(s.currentConfig.value).IoThrew?)
    else (s, true)
  }

  /** `updateConfig`: false, with nothing changed, for a missing or invalid
      configuration or one whose connection test fails; otherwise the old
      configuration is backed up, the new one replaces it, is saved, and
      the data source is rebuilt.  The replacement happens before saving
      and rebuilding, so it stays even when one of those throws and the
      answer is false. */
  function UpdateConfig(s: Service, config: Option<DatabaseConfig>, env: Environment): (r: (Service, bool))
    ensures config.None? || !IsValid(config.value) ==> r == (s, false)
    ensures config.Some? && !TestConnection(config, env.probe).success ==> r == (s, false)
    ensures r.1 ==> r.0.currentConfig == config && TestConnection(config, env.probe).success
    ensures r.1 ==> r.0.currentDataSource == Some(DataSourceOf(config.value))
    ensures r.0.currentConfig != s.currentConfig ==> r.0.currentConfig == config
    ensures s.calls <= r.0.calls
    ensures r.0.calls == s.calls
            || (TestConnection(config, env.probe).success
                && var b := BackupCurrent(s, env).0.calls; r.0.calls == b || r.0.calls == b + [Save(config.value)])
    ensures r.1 <==> config.Some? && IsValid(config.value) && env.probe(config.value).Connected?
                     && BackupCurrent(s, env).1 && !env.save(config.value).IoThrew? && env.build(config.value).None?
    ensures config.Some? && IsValid(config.value) && env.probe(config.value).Connected? && BackupCurrent(s, env).1
            ==> r.0.currentConfig == config
  {
    if config.None? || !IsValid(config.value) then (s, false)
    else if !TestConnection(config, env.probe).success then (s, false)
    else
      var (s1, backedUp) := BackupCurrent(s, env);
      if !backedUp then (s1, false)
      else
        var c := config.value;
        var s2 := s1.(currentConfig := config, calls := s1.calls + [Save(c)]);
        if env.save(c).IoThrew? then (s2, false)
        else
          var (s3, thrown) := ReloadDataSource(s2, env);
          (s3, thrown.None?)
  }

  /** A configuration that tests well replaces the current one even when
      the file cannot be saved (`saveConfig` answers false), provided the
      backup of the old one did not throw. */
  lemma UnsavedConfigStillApplies(s: Service, c: DatabaseConfig, env: Environment)
    requires IsValid(c) && env.probe(c).Connected?
    requires BackupCurrent(s, env).1
    requires env.save(c) == Answered(false) && env.build(c).None?
    ensures UpdateConfig(s, Some(c), env).1
    ensures UpdateConfig(s, Some(c), env).0.currentConfig == Some(c)
  {
  }

  /** When rebuilding the data source throws, the update reports failure
      although the new configuration has already replaced the old one. */
  lemma FailedReloadKeepsNewConfig(s: Service, c: DatabaseConfig, env: Environment)
    requires IsValid(c) && env.probe(c).Connected?
    requires BackupCurrent(s, env).1
    requires !env.save(c).IoThrew? && env.build(c).Some?
    ensures !UpdateConfig(s, Some(c), env).1
    ensures UpdateConfig(s, Some(c), env).0.currentConfig == Some(c)
    ensures UpdateConfig(s, Some(c), env).0.currentDataSource.None?
  {
  }

  /** Every `Backup` in `calls` past `from` is of `current`, which is
      present and valid. */
  predicate OnlyBackupsOf(calls: seq<ManagerCall>, from: nat, current: Option<DatabaseConfig>) {
    forall i :: from <= i < |calls| && calls[i].Backup? ==> current == Some(calls[i].config) && IsValid(calls[i].config)
  }

  lemma {:induction false} BackupStepShape(s: Service, env: Environment, c: DatabaseConfig)
    ensures var b := BackupCurrent(s, env).0.calls;
            OnlyBackupsOf(b, |s.calls|, s.currentConfig) && OnlyBackupsOf(b + [Save(c)], |s.calls|, s.currentConfig)
  {
    var b := BackupCurrent(s, env).0.calls;
    assert (b + [Save(c)])[|b|] == Save(c);
  }

  /** A backup is written only of a present, valid old configuration, and
      only after the new one passed its connection test. */
  lemma {:induction false} UpdateBackupRule(s: Service, config: Option<DatabaseConfig>, env: Environment)
    ensures var r := UpdateConfig(s, config, env);
            r.0.calls != s.calls ==> TestConnection(config, env.probe).success
    ensures OnlyBackupsOf(UpdateConfig(s, config, env).0.calls, |s.calls|, s.currentConfig)
  {
    var r := UpdateConfig(s, config, env);
    if r.0.calls != s.calls {
      BackupStepShape(s, env, config.value);
    }
  }

  /** `resetToDefault`: back up a valid current configuration, delete the
      file, then install the default with no data source.  An exception
      from backup or delete aborts with false before anything is reset. */
  function ResetToDefault(s: Service, env: Environment): (r: (Service, bool))
    ensures r.1 ==> r.0.currentConfig == Some(CreateDefault()) && r.0.currentDataSource.None?
    ensures r.1 <==> !(s.currentConfig.Some? && IsValid(s.currentConfig.value) && env.backup(s.currentConfig.value).IoThrew?)
                     && !env.delete.IoThrew?
    ensures !r.1 ==> r.0.currentConfig == s.currentConfig && r.0.currentDataSource == s.currentDataSource
    ensures s.calls <= r.0.calls
    ensures Delete in r.0.calls[|s.calls|..] <==> BackupCurrent(s, env).1
  {
    var (s1, backedUp) := BackupCurrent(s, env);
    if !backedUp then (s1, false)
    else
      var s2 := s1.(calls := s1.calls + [Delete]);
      assert s2.calls[|s2.calls| - 1] == Delete;
      if env.delete.IoThrew? then (s2, false)
      else (s2.(currentConfig := Some(CreateDefault()), currentDataSource := None), true)
  }

  /** `init`: load the saved configuration and, when it is valid, build
      the data source; if that throws, fall back to the default
      configuration. */
  function Init(s: Service, env: Environment): (r: Service)
    ensures !IsValid(env.loaded) ==> r.currentConfig == Some(env.loaded) && r.currentDataSource == s.currentDataSource
    ensures IsValid(env.loaded) && env.build(env.loaded).None?
            ==> r.currentConfig == Some(env.loaded) && r.currentDataSource == Some(DataSourceOf(env.loaded))
    ensures IsValid(env.loaded) && env.build(env.loaded).Some?
            ==> r.currentConfig == Some(CreateDefault()) && r.currentDataSource.None?
  {
    var s1 := s.(currentConfig := Some(env.loaded), calls := s.calls + [Load]);
    if !IsValid(env.loaded) then s1
    else
      var (s2, thrown) := ReloadDataSource(s1, env);
      if thrown.Some? then s2.(currentConfig := Some(CreateDefault())) else s2
  }

  /** `isConnected`: the connection test of the current configuration. */
  function IsConnected(s: Service, env: Environment): (r: bool)
    ensures r <==> IsValid(GetCurrentConfig(s, env).1) && env.probe(GetCurrentConfig(s, env).1).Connected?
  {
    TestConnection(Some(GetCurrentConfig(s, env).1), env.probe).success
  }

  /** `getCurrentDataSource`: rebuilds a missing data source when the
      current configuration is valid (the rebuild may throw). */
  function GetCurrentDataSource(s: Service, env: Environment): (r: (Service, Result<Option<DataSource>, Exception>))
    ensures s.currentDataSource.Some? ==> r == (s, Ok(s.currentDataSource))
    ensures r.1.Ok? && r.1.value.None? ==> !IsValid(GetCurrentConfig(s, env).1)
    ensures s.currentDataSource.None? ==>
              var c := GetCurrentConfig(s, env).1;
              && (!IsValid(c) ==> r.1 == Ok(None))
              && (IsValid(c) && env.build(c).None? ==> r.1 == Ok(Some(DataSourceOf(c))))
              && (IsValid(c) && env.build(c).Some?
                  ==> r.1 == Err(Exception(Runtime, Some(RELOAD_FAILED_PREFIX + MessageText(env.build(c).value)))))
  {
    if s.currentDataSource.Some? then (s, Ok(s.currentDataSource))
    else
      var (s1, c) := GetCurrentConfig(s, env);
      if !IsValid(c) then (s1, Ok(None))
      else
        var (s2, thrown) := ReloadDataSource(s1, env);
        if thrown.Some? then (s2, Err(thrown.value)) else (s2, Ok(s2.currentDataSource))
  }
}

=== FILE: database_demo.dfy ===
/**
  The database demo plugin's `DatabaseDemoExtension`: a name, an info
  line, and two hard-coded checks standing in for user validation and
  permission lookup.  Both checks compare constants against the
  arguments, so a null argument is simply not equal.
*/
module DatabaseDemoExtension {
  import opened Wrappers
  import opened JavaStrings

  const EXTENSION_NAME: string := "Database Demo Extension"
  const EXTENSION_INFO: string := "Database Demo Extension v1.0.0 - 提供数据库操作示例"
  const DEMO_USER: string := "admin"
  const DEMO_PASSWORD: string := "password"
  const READ_PERMISSION: string := "read"

  /** `validateUser`: only "admin" with "password" is accepted. */
  function ValidateUser(username: Option<string>, password: Option<string>): (ok: bool)
    ensures ok ==> username.Some? && password.Some?
    ensures ok <==> username == Some(DEMO_USER) && password == Some(DEMO_PASSWORD)
  {
    username == Some(DEMO_USER) && password == Some(DEMO_PASSWORD)
  }

  /** `hasPermission`: "admin" holds every permission, and everybody,
      even a null user, holds "read". */
  function HasPermission(userId: Option<string>, permission: Option<string>): (ok: bool)
    ensures ok <==> userId == Some(DEMO_USER) || permission == Some(READ_PERMISSION)
  {
    userId == Some(DEMO_USER) || permission == Some(READ_PERMISSION)
  }

  /** Exactly one credential pair passes; a null user or password never
      does, and a user name with different letter case is another user. */
  lemma OnlyTheDemoCredentials(username: Option<string>, password: Option<string>)
    ensures username.None? || password.None? ==> !ValidateUser(username, password)
    ensures !ValidateUser(Some("Admin"), Some(DEMO_PASSWORD))
  {
    assert "Admin" != DEMO_USER by { assert "Admin"[0] != DEMO_USER[0]; }
  }

  /** Permissions: the demo user is allowed everything; reading is allowed
      to anyone; a null user is allowed nothing else. */
  lemma PermissionTable(userId: Option<string>, permission: Option<string>)
    ensures HasPermission(Some(DEMO_USER), permission)
    ensures HasPermission(userId, Some(READ_PERMISSION))
    ensures userId.None? ==> (HasPermission(userId, permission) <==> permission == Some(READ_PERMISSION))
    ensures HasPermission(userId, permission) && permission != Some(READ_PERMISSION) ==> userId == Some(DEMO_USER)
  {
  }

  /** The info line starts with the extension's name. */
  lemma InfoNamesExtension()
    ensures StartsWith(EXTENSION_INFO, EXTENSION_NAME)
  {
    assert EXTENSION_INFO[..|EXTENSION_NAME|] == EXTENSION_NAME;
  }
}

=== FILE: database_service.dfy ===
/**
  `DatabaseService`: the `JavaAdmin` operations behind the database
  extension.  Each one forwards to the repository inside a `try`; an
  exception from the repository comes back as a `RuntimeException` whose
  message is an operation-specific prefix followed by the original message.
  The repository is either reachable (`Ok(repo)`) or failing every call
  with one exception (`Err(e)`).
*/
module DatabaseService {
  import opened Wrappers
  import opened JavaNumbers
  import opened JavaStrings
  import opened Values
  import opened JavaAdminEntity
  import Repository = JavaAdminRepository

  type Db = Result<Repository.Repo, Exception>

  /** The data-access call of one operation, on a reachable repository: its
      answer, or the exception it throws. */
  datatype Call<T> = Answer(value: T) | Throws(error: Exception)

  /** The `try { ... } catch (Exception e) { throw new RuntimeException(prefix
      + e.getMessage(), e); }` around every operation. */
  function Guarded<T>(prefix: string, db: Db, call: Repository.Repo -> Call<T>): (r: Result<T, Exception>)
    ensures db.Ok? && call(db.value).Answer? ==> r == Ok(call(db.value).value)
    ensures db.Err? ==> r == Err(Exception(Runtime, Some(prefix + MessageText(db.error))))
    ensures db.Ok? && call(db.value).Throws? ==>
              r == Err(Exception(Runtime, Some(prefix + MessageText(call(db.value).error))))
  {
    match db
    case Err(e) => Err(Exception(Runtime, Some(prefix + MessageText(e))))
    case Ok(repo) =>
      match call(repo)
      case Answer(v) => Ok(v)
      case Throws(e) => Err(Exception(Runtime, Some(prefix + MessageText(e))))
  }

  /** An operation's failure message always starts with its prefix. */
  lemma FailuresCarryPrefix<T>(prefix: string, db: Db, call: Repository.Repo -> Call<T>)
    requires Guarded(prefix, db, call).Err?
    ensures Guarded(prefix, db, call).error.kind == Runtime
    ensures StartsWith(Guarded(prefix, db, call).error.message.value, prefix)
  {
  }

  function FromResult<T>(r: Result<T, Exception>): Call<T> {
    if r.Ok? then Answer(r.value) else Throws(r.error)
  }

  /** Spring Data's guard against a null id. */
  const NULL_ID_ERROR: Exception := Exception(IllegalArgument, Some("The given id must not be null!"))

  // ---------------------------------------------------------------------
  // CRUD
  // ---------------------------------------------------------------------

  const SAVE_FAILED: string := "保存用户失败: "
  const SAVE_ALL_FAILED: string := "批量保存用户失败: "
  const FIND_BY_ID_FAILED: string := "根据ID查找用户失败: "
  const FIND_BY_USERNAME_FAILED: string := "根据用户名查找用户失败: "
  const FIND_ALL_FAILED: string := "查找所有用户失败: "
  const DELETE_FAILED: string := "删除用户失败: "
  const DELETE_ALL_FAILED: string := "批量删除用户失败: "
  const FIND_BY_EMAIL_FAILED: string := "根据邮箱查找用户失败: "
  const FIND_BY_PHONE_FAILED: string := "根据手机号查找用户失败: "
  const FIND_BY_STATUS_FAILED: string := "根据状态查找用户失败: "
  const FIND_BY_ROLE_FAILED: string := "根据角色查找用户失败: "
  const FIND_BY_CONDITIONS_FAILED: string := "多条件查询用户失败: "
  const EXISTS_USERNAME_FAILED: string := "检查用户名是否存在失败: "
  const EXISTS_EMAIL_FAILED: string := "检查邮箱是否存在失败: "
  const UPDATE_STATUS_FAILED: string := "更新用户状态失败: "
  const UPDATE_PASSWORD_FAILED: string := "更新用户密码失败: "
  const BATCH_UPDATE_FAILED: string := "批量更新用户状态失败: "
  const COUNT_FAILED: string := "统计总用户数失败: "
  const COUNT_BY_STATUS_FAILED: string := "统计指定状态的用户数量失败: "
  const COUNT_BY_ROLE_FAILED: string := "统计指定角色的用户数量失败: "
  const STATISTICS_FAILED: string := "获取用户统计信息失败: "

  /** `save`: the saved entity and the table after it. */
  function Save(db: Db, a: JavaAdmin, now: Timestamp): (r: Result<(Repository.Repo, JavaAdmin), Exception>)
    requires db.Ok? ==> Repository.Valid(db.value) && IsLong(db.value.nextId)
    ensures db.Ok? ==> r == Ok(Repository.Save(db.value, a, now))
    ensures db.Err? ==> r.Err? && r.error.message == Some(SAVE_FAILED + MessageText(db.error))
  {
    if db.Err? then Err(Exception(Runtime, Some(SAVE_FAILED + MessageText(db.error))))
    else Ok(Repository.Save(db.value, a, now))
  }

  function SaveAll(db: Db, items: seq<JavaAdmin>, now: Timestamp): (r: Result<(Repository.Repo, seq<JavaAdmin>), Exception>)
    requires db.Ok? ==> Repository.Valid(db.value) && IsLong(db.value.nextId + |items|)
    ensures db.Ok? ==> r == Ok(Repository.SaveAll(db.value, items, now))
    ensures db.Err? ==> r.Err? && r.error.message == Some(SAVE_ALL_FAILED + MessageText(db.error))
  {
    if db.Err? then Err(Exception(Runtime, Some(SAVE_ALL_FAILED + MessageText(db.error))))
    else Ok(Repository.SaveAll(db.value, items, now))
  }

  /** `findById`: a null id is rejected by Spring Data, and the rejection
      is wrapped like any other failure. */
  function FindById(db: Db, id: Option<Int64>): (r: Result<Option<JavaAdmin>, Exception>)
    ensures db.Ok? && id.Some? ==> r == Ok(Repository.FindById(db.value, id.value))
    ensures db.Ok? && id.None? ==> r == Err(Exception(Runtime, Some(FIND_BY_ID_FAILED + "The given id must not be null!")))
  {
    Guarded(FIND_BY_ID_FAILED, db,
            (repo: Repository.Repo) => if id.None? then Throws(NULL_ID_ERROR) else Answer(Repository.FindById(repo, id.value)))
  }

  function FindByUsername(db: Db, username: Option<string>): (r: Result<Option<JavaAdmin>, Exception>)
    ensures db.Ok? && Repository.FindByUsername(db.value, username).Ok? ==> r == Repository.FindByUsername(db.value, username)
  {
    Guarded(FIND_BY_USERNAME_FAILED, db, (repo: Repository.Repo) => FromResult(Repository.FindByUsername(repo, username)))
  }

  function FindByEmail(db: Db, email: Option<string>): (r: Result<Option<JavaAdmin>, Exception>)
    ensures db.Ok? && Repository.FindByEmail(db.value, email).Ok? ==> r == Repository.FindByEmail(db.value, email)
  {
    Guarded(FIND_BY_EMAIL_FAILED, db, (repo: Repository.Repo) => FromResult(Repository.FindByEmail(repo, email)))
  }

  function FindByPhone(db: Db, phone: Option<string>): (r: Result<Option<JavaAdmin>, Exception>)
    ensures db.Ok? && Repository.FindByPhone(db.value, phone).Ok? ==> r == Repository.FindByPhone(db.value, phone)
  {
    Guarded(FIND_BY_PHONE_FAILED, db, (repo: Repository.Repo) => FromResult(Repository.FindByPhone(repo, phone)))
  }

  function FindAll(db: Db): (r: Result<Repository.Rows, Exception>)
    ensures db.Ok? ==> r == Ok(db.value.rows)
  {
    Guarded(FIND_ALL_FAILED, db, (repo: Repository.Repo) => Answer(repo.rows))
  }

  /** `deleteById`: a null id is rejected, an unknown one throws. */
  function DeleteById(db: Db, id: Option<Int64>): (r: Result<Repository.Repo, Exception>)
    requires db.Ok? ==> Repository.Valid(db.value)
    ensures r.Ok? <==> db.Ok? && id.Some? && id.value in db.value.rows
    ensures r.Ok? ==> r.value.rows == db.value.rows - {id.value}
    ensures r.Err? ==> r.error.message.Some? && StartsWith(r.error.message.value, DELETE_FAILED)
  {
    if db.Err? then Err(Exception(Runtime, Some(DELETE_FAILED + MessageText(db.error))))
    else if id.None? then Err(Exception(Runtime, Some(DELETE_FAILED + MessageText(NULL_ID_ERROR))))
    else
      match Repository.DeleteById(db.value, id.value)
      case Ok(repo) => Ok(repo)
      case Err(e) => Err(Exception(Runtime, Some(DELETE_FAILED + MessageText(e))))
  }

  function DeleteByIds(db: Db, ids: seq<Int64>): (r: Result<Repository.Repo, Exception>)
    requires db.Ok? ==> Repository.Valid(db.value)
    ensures db.Ok? && Repository.DeleteAllById(db.value, ids).Ok? ==> r == Repository.DeleteAllById(db.value, ids)
    ensures r.Err? ==> r.error.message.Some? && StartsWith(r.error.message.value, DELETE_ALL_FAILED)
  {
    if db.Err? then Err(Exception(Runtime, Some(DELETE_ALL_FAILED + MessageText(db.error))))
    else
      match Repository.DeleteAllById(db.value, ids)
      case Ok(repo) => Ok(repo)
      case Err(e) => Err(Exception(Runtime, Some(DELETE_ALL_FAILED + MessageText(e))))
  }

  // ---------------------------------------------------------------------
  // Queries
  // ---------------------------------------------------------------------

  function FindByStatus(db: Db, status: Option<Int32>): (r: Result<Repository.Rows, Exception>)
    ensures db.Ok? ==> r == Ok(Repository.FindByStatus(db.value, status))
  {
    Guarded(FIND_BY_STATUS_FAILED, db, (repo: Repository.Repo) => Answer(Repository.FindByStatus(repo, status)))
  }

  function FindByRole(db: Db, role: Option<string>): (r: Result<Repository.Rows, Exception>)
    ensures db.Ok? ==> r == Ok(Repository.FindByRole(db.value, role))
  {
    Guarded(FIND_BY_ROLE_FAILED, db, (repo: Repository.Repo) => Answer(Repository.FindByRole(repo, role)))
  }

  /** A text filter is applied only when it has text (`StringUtils.hasText`). */
  predicate Applies(filter: Option<string>) {
    filter.Some? && HasText(filter.value)
  }

  /** The `Specification` of `findByConditions`: user name and e-mail as
      `LIKE %x%`, status and role by equality, each only when given (a
      blank text counts as not given), all ANDed. */
  predicate MatchesFilters(a: JavaAdmin, username: Option<string>, email: Option<string>,
                           status: Option<Int32>, role: Option<string>) {
    (!Applies(username) || Repository.Like(a.username, username.value))
    && (!Applies(email) || Repository.Like(a.email, email.value))
    && (status.None? || a.status == status)
    && (!Applies(role) || a.role == role)
  }

  /** `findByConditions`, without paging and sorting. */
  function FindByConditions(db: Db, username: Option<string>, email: Option<string>,
                            status: Option<Int32>, role: Option<string>): (r: Result<Repository.Rows, Exception>)
    ensures db.Ok? ==> r.Ok? && forall k :: k in r.value <==>
              k in db.value.rows && MatchesFilters(db.value.rows[k], username, email, status, role)
    ensures db.Ok? && !Applies(username) && !Applies(email) && status.None? && !Applies(role) ==> r == Ok(db.value.rows)
  {
    var filter := (a: JavaAdmin) => MatchesFilters(a, username, email, status, role);
    var r := Guarded(FIND_BY_CONDITIONS_FAILED, db, (repo: Repository.Repo) => Answer(Repository.Where(repo.rows, filter)));
    if db.Ok? && !Applies(username) && !Applies(email) && status.None? && !Applies(role) then
      NoFilterSelectsAll(db.value.rows, filter);
      r
    else r
  }

  lemma NoFilterSelectsAll(rows: Repository.Rows, p: JavaAdmin -> bool)
    requires forall a :: p(a)
    ensures Repository.Where(rows, p) == rows
  {
    assert Repository.Where(rows, p).Keys == rows.Keys;
  }

  /** With only non-blank text filters, the service's search and the
      repository's `findByMultipleConditions` select the same rows; a
      blank filter is where they part: the service ignores it, the
      repository still demands a non-null column containing it. */
  lemma {:induction false} ConditionsAgreeWithRepository(repo: Repository.Repo, username: Option<string>, email: Option<string>,
                                                         status: Option<Int32>, role: Option<string>)
    requires username.Some? ==> HasText(username.value)
    requires email.Some? ==> HasText(email.value)
    requires role.Some? ==> HasText(role.value)
    ensures FindByConditions(Ok(repo), username, email, status, role)
            == Ok(Repository.FindByMultipleConditions(repo, username, email, status, role))
  {
    var r := FindByConditions(Ok(repo), username, email, status, role).value;
    var q := Repository.FindByMultipleConditions(repo, username, email, status, role);
    assert r.Keys == q.Keys;
  }

  lemma BlankFilterIsIgnoredHereOnly(repo: Repository.Repo, k: Int64)
    requires k in repo.rows && repo.rows[k].username.None?
    ensures k in FindByConditions(Ok(repo), Some(" "), None, None, None).value
    ensures k !in Repository.FindByMultipleConditions(repo, Some(" "), None, None, None)
  {
    assert !HasText(" ") by { assert IsJavaWhitespace(' '); }
  }

  function ExistsByUsername(db: Db, username: Option<string>): (r: Result<bool, Exception>)
    ensures db.Ok? ==> r == Ok(Repository.ExistsByUsername(db.value, username))
  {
    Guarded(EXISTS_USERNAME_FAILED, db, (repo: Repository.Repo) => Answer(Repository.ExistsByUsername(repo, username)))
  }

  function ExistsByEmail(db: Db, email: Option<string>): (r: Result<bool, Exception>)
    ensures db.Ok? ==> r == Ok(Repository.ExistsByEmail(db.value, email))
  {
    Guarded(EXISTS_EMAIL_FAILED, db, (repo: Repository.Repo) => Answer(Repository.ExistsByEmail(repo, email)))
  }

  // ---------------------------------------------------------------------
  // Updates
  // ---------------------------------------------------------------------

  /** `updateStatus`: true exactly when a row was changed. */
  function UpdateStatus(db: Db, id: Option<Int64>, status: Int32, now: Timestamp): (r: Result<(Repository.Repo, bool), Exception>)
    requires db.Ok? ==> Repository.Valid(db.value)
    ensures db.Ok? ==> r.Ok? && r.value.0 == Repository.UpdateStatusById(db.value, id, status, now).0
    ensures db.Ok? ==> (r.value.1 <==> id.Some? && id.value in db.value.rows)
    ensures db.Err? ==> r.Err? && r.error.message == Some(UPDATE_STATUS_FAILED + MessageText(db.error))
  {
    if db.Err? then Err(Exception(Runtime, Some(UPDATE_STATUS_FAILED + MessageText(db.error))))
    else
      var (repo, n) := Repository.UpdateStatusById(db.value, id, status, now);
      Ok((repo, n > 0))
  }

  /** `updatePassword`: true exactly when a row was changed. */
  function UpdatePassword(db: Db, id: Option<Int64>, password: string, now: Timestamp): (r: Result<(Repository.Repo, bool), Exception>)
    requires db.Ok? ==> Repository.Valid(db.value)
    ensures db.Ok? ==> r.Ok? && r.value.0 == Repository.UpdatePasswordById(db.value, id, password, now).0
    ensures db.Ok? ==> (r.value.1 <==> id.Some? && id.value in db.value.rows)
    ensures db.Err? ==> r.Err? && r.error.message == Some(UPDATE_PASSWORD_FAILED + MessageText(db.error))
  {
    if db.Err? then Err(Exception(Runtime, Some(UPDATE_PASSWORD_FAILED + MessageText(db.error))))
    else
      var (repo, n) := Repository.UpdatePasswordById(db.value, id, password, now);
      Ok((repo, n > 0))
  }

  /** `batchUpdateStatus`: the repository's affected-row count unchanged. */
  function BatchUpdateStatus(db: Db, ids: seq<Int64>, status: Int32, now: Timestamp): (r: Result<(Repository.Repo, int), Exception>)
    requires db.Ok? ==> Repository.Valid(db.value)
    ensures db.Ok? ==> r == Ok(Repository.UpdateStatusByIds(db.value, ids, status, now))
    ensures db.Ok? ==> r.value.1 == |set k | k in db.value.rows && k in ids|
    ensures db.Err? ==> r.Err? && r.error.message == Some(BATCH_UPDATE_FAILED + MessageText(db.error))
  {
    if db.Err? then Err(Exception(Runtime, Some(BATCH_UPDATE_FAILED + MessageText(db.error))))
    else Ok(Repository.UpdateStatusByIds(db.value, ids, status, now))
  }

  // ---------------------------------------------------------------------
  // Statistics
  // ---------------------------------------------------------------------

  function Count(db: Db): (r: Result<int, Exception>)
    ensures db.Ok? ==> r == Ok(|db.value.rows|)
  {
    Guarded(COUNT_FAILED, db, (repo: Repository.Repo) => Answer(|repo.rows|))
  }

  function CountByStatus(db: Db, status: Option<Int32>): (r: Result<int, Exception>)
    ensures db.Ok? ==> r == Ok(|Repository.FindByStatus(db.value, status)|)
  {
    Repository.CountsMatchFinds(if db.Ok? then db.value else Repository.EMPTY, status, None);
    Guarded(COUNT_BY_STATUS_FAILED, db, (repo: Repository.Repo) => Answer(Repository.CountByStatus(repo, status)))
  }

  function CountByRole(db: Db, role: Option<string>): (r: Result<int, Exception>)
    ensures db.Ok? ==> r == Ok(|Repository.FindByRole(db.value, role)|)
  {
    Repository.CountsMatchFinds(if db.Ok? then db.value else Repository.EMPTY, None, role);
    Guarded(COUNT_BY_ROLE_FAILED, db, (repo: Repository.Repo) => Answer(Repository.CountByRole(repo, role)))
  }

  const STATISTICS_KEYS: seq<string> := ["total", "enabled", "disabled", "admin", "user"]

  /** The statistics map, one key per column of the statistics row. */
  function StatisticsMap(row: seq<int>): (m: map<string, int>)
    requires |row| == 5
    ensures m.Keys == {"total", "enabled", "disabled", "admin", "user"}
    ensures forall i :: 0 <= i < 5 ==> STATISTICS_KEYS[i] in m && m[STATISTICS_KEYS[i]] == row[i]
  {
    map["total" := row[0], "enabled" := row[1], "disabled" := row[2], "admin" := row[3], "user" := row[4]]
  }

  /** `getUserStatistics` as written: `((Number) result[i]).longValue()` on
      each column.  Over an empty table the sums are NULL, so the first
      `longValue()` throws a `NullPointerException`, wrapped like any
      other failure.  `npeMessage` is the JVM's text for that exception:
      null on older JDKs, a description of the null expression where
      helpful NullPointerException messages are on. */
  function GetUserStatisticsAsWritten(db: Db, npeMessage: Option<string>): (r: Result<map<string, int>, Exception>)
    ensures db.Ok? && |db.value.rows| > 0 ==> r.Ok? && r.value == StatisticsCall(db.value).value
    ensures db.Ok? && |db.value.rows| == 0
            ==> r == Err(Exception(Runtime, Some(STATISTICS_FAILED + MessageText(Exception(NullPointer, npeMessage)))))
    ensures db.Err? ==> r.Err? && r.error.message == Some(STATISTICS_FAILED + MessageText(db.error))
  {
    Guarded(STATISTICS_FAILED, db, (repo: Repository.Repo) => StatisticsCallAsWritten(repo, npeMessage))
  }

  /** The statistics query read with `longValue()`: the map when every
      column is non-null, the NullPointerException otherwise. */
  function StatisticsCallAsWritten(repo: Repository.Repo, npeMessage: Option<string>): (c: Call<map<string, int>>)
    ensures |repo.rows| > 0 ==> c == StatisticsCall(repo)
    ensures |repo.rows| == 0 ==> c == Throws(Exception(NullPointer, npeMessage))
  {
    var row := Repository.UserStatisticsRow(repo);
    if forall i :: 0 <= i < 5 ==> row[i].Some? then
      assert seq(5, i requires 0 <= i < 5 => row[i].GetOr(0)) == seq(5, i requires 0 <= i < 5 => row[i].value);
      Answer(StatisticsMap(seq(5, i requires 0 <= i < 5 => row[i].value)))
    else Throws(Exception(NullPointer, npeMessage))
  }

  /** The as-written statistics fail on an empty table instead of
      reporting zero users, whatever the exception's text. */
  lemma StatisticsOfEmptyTableFail(npeMessage: Option<string>)
    ensures GetUserStatisticsAsWritten(Ok(Repository.EMPTY), npeMessage).Err?
    ensures StartsWith(GetUserStatisticsAsWritten(Ok(Repository.EMPTY), npeMessage).error.message.value, STATISTICS_FAILED)
  {
  }

  /** The statistics query with a NULL sum read as 0: each key is bound to
      the number of rows its column counts. */
  function StatisticsCall(repo: Repository.Repo): (c: Call<map<string, int>>)
    ensures c.Answer? && c.value.Keys == {"total", "enabled", "disabled", "admin", "user"}
    ensures c.value["total"] == |repo.rows|
    ensures c.value["enabled"] == Repository.Count(repo.rows, Repository.IsEnabled)
    ensures c.value["disabled"] == Repository.Count(repo.rows, Repository.IsDisabled)
    ensures c.value["admin"] == Repository.Count(repo.rows, Repository.IsAdmin)
    ensures c.value["user"] == Repository.Count(repo.rows, Repository.IsUser)
  {
    var row := Repository.UserStatisticsRow(repo);
    var m := StatisticsMap(seq(5, i requires 0 <= i < 5 => row[i].GetOr(0)));
    assert m["total"] == row[0].GetOr(0) by { assert STATISTICS_KEYS[0] == "total"; }
    assert m["enabled"] == row[1].GetOr(0) by { assert STATISTICS_KEYS[1] == "enabled"; }
    assert m["disabled"] == row[2].GetOr(0) by { assert STATISTICS_KEYS[2] == "disabled"; }
    assert m["admin"] == row[3].GetOr(0) by { assert STATISTICS_KEYS[3] == "admin"; }
    assert m["user"] == row[4].GetOr(0) by { assert STATISTICS_KEYS[4] == "user"; }
    Answer(m)
  }

  /** `getUserStatistics` with a NULL sum read as 0, which is what an empty
      table means. */
  function GetUserStatistics(db: Db): (r: Result<map<string, int>, Exception>)
    ensures db.Ok? ==> r.Ok?
    ensures db.Ok? ==> r.value.Keys == {"total", "enabled", "disabled", "admin", "user"}
    ensures db.Ok? ==> r.value["total"] == |db.value.rows|
    ensures db.Ok? ==> r.value["enabled"] == Repository.Count(db.value.rows, Repository.IsEnabled)
    ensures db.Ok? ==> r.value["disabled"] == Repository.Count(db.value.rows, Repository.IsDisabled)
    ensures db.Ok? ==> r.value["admin"] == Repository.Count(db.value.rows, Repository.IsAdmin)
    ensures db.Ok? ==> r.value["user"] == Repository.Count(db.value.rows, Repository.IsUser)
    ensures db.Err? ==> r.Err? && r.error.message == Some(STATISTICS_FAILED + MessageText(db.error))
  {
    Guarded(STATISTICS_FAILED, db, StatisticsCall)
  }

  /** On a table with rows the corrected statistics are the as-written
      ones; on an empty table they are all zero where the as-written ones
      fail. */
  lemma {:induction false} StatisticsCorrection(db: Db, npeMessage: Option<string>)
    requires db.Ok?
    ensures |db.value.rows| > 0 ==> GetUserStatistics(db) == GetUserStatisticsAsWritten(db, npeMessage)
    ensures |db.value.rows| == 0 ==> GetUserStatisticsAsWritten(db, npeMessage).Err?
    ensures |db.value.rows| == 0 ==> forall k :: k in GetUserStatistics(db).value ==> GetUserStatistics(db).value[k] == 0
  {
    if |db.value.rows| == 0 {
      assert Repository.KeysWhere(db.value.rows, Repository.IsEnabled) == {};
      assert Repository.KeysWhere(db.value.rows, Repository.IsDisabled) == {};
      assert Repository.KeysWhere(db.value.rows, Repository.IsAdmin) == {};
      assert Repository.KeysWhere(db.value.rows, Repository.IsUser) == {};
    }
  }

  /** The corrected statistics keep the row's bounds: enabled plus disabled
      and admins plus users never exceed the total. */
  lemma {:induction false} StatisticsBounded(db: Db)
    requires db.Ok?
    ensures var m := GetUserStatistics(db).value;
            m["enabled"] + m["disabled"] <= m["total"] && m["admin"] + m["user"] <= m["total"]
  {
    if |db.value.rows| > 0 {
      Repository.StatisticsBounded(db.value);
    }
  }
}

=== FILE: database_util.dfy ===
/**
  `DatabaseUtil`: static access to the first `DatabaseExtension` the plugin
  manager offers.  Until one is stored every operation throws; afterwards
  each forwards to the extension, which hands it to `DatabaseService`.
  Extensions are known here by name only, since they all delegate alike.
*/
module DatabaseUtil {
  import opened Wrappers
  import opened JavaNumbers
  import opened Values
  import opened JavaAdminEntity
  import Repository = JavaAdminRepository
  import Service = DatabaseService

  /** The stored extension, if any. */
  datatype Util = Util(extension: Option<string>)

  const NOT_INITIALIZED: Exception :=
    Exception(Runtime, Some("数据库扩展未初始化，请先调用 DatabaseUtil.initialize() 方法"))

  /** `initialize`: stores the first extension; with none, the previously
      stored one (if any) stays. */
  function Initialize(u: Util, extensions: seq<string>): (r: Util)
    ensures |extensions| > 0 ==> r.extension == Some(extensions[0])
    ensures |extensions| == 0 ==> r == u
  {
    if |extensions| > 0 then Util(Some(extensions[0])) else u
  }

  /** Once stored, an extension is never lost again by `initialize`. */
  lemma InitializeKeepsAnExtension(u: Util, extensions: seq<string>)
    requires u.extension.Some?
    ensures Initialize(u, extensions).extension.Some?
  {
  }

  /** `checkExtension` followed by the forwarded call. */
  function Forward<T>(u: Util, call: Result<T, Exception>): (r: Result<T, Exception>)
    ensures u.extension.None? ==> r == Err(NOT_INITIALIZED)
    ensures u.extension.Some? ==> r == call
  {
    if u.extension.None? then Err(NOT_INITIALIZED) else call
  }

  /** `createUser`: a new entity with the given credentials and the entity
      defaults (status 1, role "user"), saved. */
  function CreateUser(u: Util, db: Service.Db, username: Option<string>, password: Option<string>,
                      email: Option<string>, now: Timestamp): (r: Result<(Repository.Repo, JavaAdmin), Exception>)
    requires db.Ok? ==> Repository.Valid(db.value) && IsLong(db.value.nextId)
    ensures u.extension.None? ==> r == Err(NOT_INITIALIZED)
    ensures r.Ok? ==> db.Ok? && u.extension.Some?
    ensures r.Ok? ==> var saved := r.value.1;
              saved.username == username && saved.password == password && saved.email == email
              && saved.status == Some(ENABLED) && saved.role == Some(USER_ROLE)
              && saved.id.Some? && saved.id.value in r.value.0.rows && r.value.0.rows[saved.id.value] == saved
              && saved.id.value !in db.value.rows
  {
    Forward(u, Service.Save(db, NewWithCredentials(username, password, email, now), now))
  }

  /** `createAdmin`: `createUser` with the role set to "admin" before
      saving. */
  function CreateAdmin(u: Util, db: Service.Db, username: Option<string>, password: Option<string>,
                       email: Option<string>, now: Timestamp): (r: Result<(Repository.Repo, JavaAdmin), Exception>)
    requires db.Ok? ==> Repository.Valid(db.value) && IsLong(db.value.nextId)
    ensures u.extension.None? ==> r == Err(NOT_INITIALIZED)
    ensures r.Ok? ==> r.value.1.role == Some(ADMIN_ROLE) && r.value.1.status == Some(ENABLED)
  {
    Forward(u, Service.Save(db, NewWithCredentials(username, password, email, now).(role := Some(ADMIN_ROLE)), now))
  }

  /** An admin and a user created from the same state differ only in the
      role. */
  lemma CreateAdminIsCreateUserWithRole(u: Util, db: Service.Db, username: Option<string>, password: Option<string>,
                                        email: Option<string>, now: Timestamp)
    requires db.Ok? ==> Repository.Valid(db.value) && IsLong(db.value.nextId)
    requires u.extension.Some? && db.Ok?
    ensures CreateAdmin(u, db, username, password, email, now).value.1
            == CreateUser(u, db, username, password, email, now).value.1.(role := Some(ADMIN_ROLE))
  {
  }

  /** `enableUser` and `disableUser`: `updateStatus` with 1 and 0. */
  function EnableUser(u: Util, db: Service.Db, id: Option<Int64>, now: Timestamp): (r: Result<(Repository.Repo, bool), Exception>)
    requires db.Ok? ==> Repository.Valid(db.value)
    ensures u.extension.Some? ==> r == Service.UpdateStatus(db, id, ENABLED, now)
    ensures r.Ok? && r.value.1 ==> id.Some? && id.value in r.value.0.rows && r.value.0.rows[id.value].status == Some(ENABLED)
  {
    Forward(u, Service.UpdateStatus(db, id, ENABLED, now))
  }

  function DisableUser(u: Util, db: Service.Db, id: Option<Int64>, now: Timestamp): (r: Result<(Repository.Repo, bool), Exception>)
    requires db.Ok? ==> Repository.Valid(db.value)
    ensures u.extension.Some? ==> r == Service.UpdateStatus(db, id, DISABLED, now)
    ensures r.Ok? && r.value.1 ==> id.Some? && id.value in r.value.0.rows && r.value.0.rows[id.value].status == Some(DISABLED)
  {
    Forward(u, Service.UpdateStatus(db, id, DISABLED, now))
  }

  /** `getEnabledUsers`, `getDisabledUsers`, `getAdminUsers` and
      `getNormalUsers`: `findByStatus(1)`, `findByStatus(0)`,
      `findByRole("admin")` and `findByRole("user")`. */
  function GetEnabledUsers(u: Util, db: Service.Db): (r: Result<Repository.Rows, Exception>)
    ensures u.extension.Some? ==> r == Service.FindByStatus(db, Some(ENABLED))
    ensures r.Ok? ==> forall k :: k in r.value ==> r.value[k].status == Some(ENABLED)
  {
    Forward(u, Service.FindByStatus(db, Some(ENABLED)))
  }

  function GetDisabledUsers(u: Util, db: Service.Db): (r: Result<Repository.Rows, Exception>)
    ensures u.extension.Some? ==> r == Service.FindByStatus(db, Some(DISABLED))
    ensures r.Ok? ==> forall k :: k in r.value ==> r.value[k].status == Some(DISABLED)
  {
    Forward(u, Service.FindByStatus(db, Some(DISABLED)))
  }

  function GetAdminUsers(u: Util, db: Service.Db): (r: Result<Repository.Rows, Exception>)
    ensures u.extension.Some? ==> r == Service.FindByRole(db, Some(ADMIN_ROLE))
    ensures r.Ok? ==> forall k :: k in r.value ==> r.value[k].role == Some(ADMIN_ROLE)
  {
    Forward(u, Service.FindByRole(db, Some(ADMIN_ROLE)))
  }

  function GetNormalUsers(u: Util, db: Service.Db): (r: Result<Repository.Rows, Exception>)
    ensures u.extension.Some? ==> r == Service.FindByRole(db, Some(USER_ROLE))
    ensures r.Ok? ==> forall k :: k in r.value ==> r.value[k].role == Some(USER_ROLE)
  {
    Forward(u, Service.FindByRole(db, Some(USER_ROLE)))
  }

  /** Enabled and disabled users never overlap, and on a reachable
      database with an extension they are found together with the rest. */
  lemma EnabledAndDisabledAreDisjoint(u: Util, db: Service.Db)
    requires u.extension.Some? && db.Ok?
    ensures GetEnabledUsers(u, db).value.Keys !! GetDisabledUsers(u, db).value.Keys
    ensures GetEnabledUsers(u, db).value.Keys + GetDisabledUsers(u, db).value.Keys <= db.value.rows.Keys
  {
  }

  /** `getUserStatistics`: the service's statistics as written, so an
      empty table propagates the service's failure; `npeMessage` is the
      JVM's text for the NullPointerException behind it. */
  function GetUserStatistics(u: Util, db: Service.Db, npeMessage: Option<string>): (r: Result<map<string, int>, Exception>)
    ensures u.extension.None? ==> r == Err(NOT_INITIALIZED)
    ensures u.extension.Some? && db.Ok? && |db.value.rows| > 0
            ==> r.Ok? && r.value.Keys == {"total", "enabled", "disabled", "admin", "user"}
                && r.value["total"] == |db.value.rows|
                && r.value["enabled"] + r.value["disabled"] <= r.value["total"]
    ensures u.extension.Some? && db.Ok? && |db.value.rows| == 0
            ==> r == Err(Exception(Runtime, Some(Service.STATISTICS_FAILED + MessageText(Exception(NullPointer, npeMessage)))))
  {
    if db.Ok? then
      Service.StatisticsBounded(db);
      Service.StatisticsCorrection(db, npeMessage);
      Forward(u, Service.GetUserStatisticsAsWritten(db, npeMessage))
    else Forward(u, Service.GetUserStatisticsAsWritten(db, npeMessage))
  }

  /** `getUserStatistics` over the corrected service: an empty table gives
      zero counts instead of a failure. */
  function GetUserStatisticsCorrected(u: Util, db: Service.Db): (r: Result<map<string, int>, Exception>)
    ensures u.extension.None? ==> r == Err(NOT_INITIALIZED)
    ensures u.extension.Some? && db.Ok? ==> r.Ok? && "total" in r.value && r.value["total"] == |db.value.rows|
    ensures u.extension.Some? && db.Ok? && |db.value.rows| == 0 ==> forall k :: k in r.value ==> r.value[k] == 0
  {
    if db.Ok? then
      Service.StatisticsCorrection(db, None);
      Forward(u, Service.GetUserStatistics(db))
    else Forward(u, Service.GetUserStatistics(db))
  }
}

=== FILE: db_config_controller.dfy ===
/**
  The older `DatabaseConfigController`: the completeness check on a posted
  configuration map and the validation branch of POST `/database/api/config`.
*/
module LegacyConfigController {
  import opened Wrappers
  import opened JavaStrings
  import LegacyConfigService

  type NullableMap = LegacyConfigService.NullableMap

  const INCOMPLETE_MESSAGE: string := "配置参数不完整"
  const UPDATED_MESSAGE: string := "配置更新成功"
  const UPDATE_FAILED_MESSAGE: string := "配置更新失败"

  /** The `{success, message}` body of the endpoint's answer. */
  datatype Reply = Reply(status: int, success: bool, message: string)

  /** A present, non-null value that is not blank after `trim()`. */
  predicate Filled(m: NullableMap, key: string) {
    key in m && m[key].Some? && Trim(m[key].value) != ""
  }

  /** `isValidConfig`: a non-null map holding the keys url, username and
      password, whose url and username are non-null and non-blank. */
  function IsValidConfig(config: Option<NullableMap>): (ok: bool)
    ensures config.None? ==> !ok
    ensures ok ==> "url" in config.value && "username" in config.value && "password" in config.value
    ensures ok ==> config.value["url"].Some? && config.value["username"].Some?
    ensures ok ==> !IsBlank(config.value["url"].value) && !IsBlank(config.value["username"].value)
    ensures config.Some? && "password" in config.value && Filled(config.value, "url") && Filled(config.value, "username") ==> ok
  {
    config.Some? && "url" in config.value && "username" in config.value && "password" in config.value
    && Filled(config.value, "url") && Filled(config.value, "username")
  }

  /** Only the presence of the password key is checked: a null or empty
      password is as good as any other. */
  lemma PasswordUnconstrained(m: NullableMap, p: Option<string>)
    requires IsValidConfig(Some(m))
    ensures IsValidConfig(Some(m["password" := p]))
    ensures !IsValidConfig(Some(m - {"password"}))
  {
    assert (m["password" := p])["url"] == m["url"] && (m["password" := p])["username"] == m["username"];
  }

  /** A map without a URL is rejected, even one whose host, port and
      database the service could have turned into a URL. */
  lemma UrlRequired(m: NullableMap)
    requires "url" !in m || m["url"].None? || IsBlank(m["url"].value)
    ensures !IsValidConfig(Some(m))
  {
  }

  /** POST `/database/api/config`: an incomplete map is answered with 400
      and the service is not called; a complete one goes to the service,
      which accepts every non-null map. */
  function UpdateConfig(s: LegacyConfigService.LegacyService, configData: Option<NullableMap>)
    : (r: (LegacyConfigService.LegacyService, Reply))
    ensures !IsValidConfig(configData) ==> r == (s, Reply(400, false, INCOMPLETE_MESSAGE))
    ensures IsValidConfig(configData) ==>
              r == (LegacyConfigService.UpdateConfig(s, configData).0, Reply(200, true, UPDATED_MESSAGE))
  {
    if !IsValidConfig(configData) then (s, Reply(400, false, INCOMPLETE_MESSAGE))
    else
      var (s2, success) := LegacyConfigService.UpdateConfig(s, configData);
      if success then (s2, Reply(200, true, UPDATED_MESSAGE))
      else (s2, Reply(400, false, UPDATE_FAILED_MESSAGE))
  }

  /** The endpoint answers 200 exactly for a complete map, and only then
      does the stored URL change. */
  lemma {:induction false} UpdateAcceptsExactlyValid(s: LegacyConfigService.LegacyService, configData: Option<NullableMap>)
    ensures UpdateConfig(s, configData).1.status == 200 <==> IsValidConfig(configData)
    ensures UpdateConfig(s, configData).1.success <==> IsValidConfig(configData)
    ensures IsValidConfig(configData) ==>
              LegacyConfigService.GetProperty(UpdateConfig(s, configData).0.env, LegacyConfigService.URL_KEY)
              == configData.value["url"]
  {
    if IsValidConfig(configData) {
      var data := configData.value;
      assert LegacyConfigService.Get(data, "url") == data["url"];
      assert data["url"].value != "";
    }
  }
}

=== FILE: hello_extension.dfy ===
/**
  The hello plugin's `HelloExtension`: greetings in six languages, a
  greeting chosen by the hour, and a history of the last hundred
  greetings given.  The clock is an input: every call that greets receives
  the formatted time stamp and the hour it would have read.  The index
  `getRandomGreeting` draws from `Random` is an input as well.
*/
module HelloExtension {
  import opened Wrappers
  import opened JavaStrings
  import opened Values
  import opened BoundedHistory

  const PLUGIN_NAME: string := "问候插件"
  const PLUGIN_VERSION: string := "1.0.0"

  /** The history keeps at most this many records. */
  const HISTORY_LIMIT: nat := 100

  const DEFAULT_LANGUAGE: string := "chinese"
  const NAME_REQUIRED: string := "用户名不能为空"
  const UNSUPPORTED_LANGUAGE: string := "不支持的语言: "
  const UNSUPPORTED_ACTION: string := "不支持的操作: "
  const SIMPLE_GREETING: string := "你好，欢迎使用问候插件！"

  // ---------------------------------------------------------------------
  // The greeting table
  // ---------------------------------------------------------------------

  /** The supported languages, in the order the table lists them. */
  const LANGUAGES: seq<string> := ["chinese", "english", "japanese", "korean", "french", "spanish"]

  const CHINESE: seq<string> := ["你好", "您好", "早上好", "下午好", "晚上好", "欢迎"]
  const ENGLISH: seq<string> := ["Hello", "Hi", "Good morning", "Good afternoon", "Good evening", "Welcome"]
  const JAPANESE: seq<string> := ["こんにちは", "おはよう", "こんばんは", "いらっしゃいませ"]
  const KOREAN: seq<string> := ["안녕하세요", "좋은 아침", "좋은 저녁", "환영합니다"]
  const FRENCH: seq<string> := ["Bonjour", "Salut", "Bonsoir", "Bienvenue"]
  const SPANISH: seq<string> := ["Hola", "Buenos días", "Buenas tardes", "Bienvenido"]

  /** `greetings.get(key)`: the greetings of a language, looked up by its
      exact (lower-case) key. */
  function Greetings(key: string): (r: Option<seq<string>>)
    ensures r.Some? ==> 4 <= |r.value| <= 6
  {
    if key == "chinese" then Some(CHINESE)
    else if key == "english" then Some(ENGLISH)
    else if key == "japanese" then Some(JAPANESE)
    else if key == "korean" then Some(KOREAN)
    else if key == "french" then Some(FRENCH)
    else if key == "spanish" then Some(SPANISH)
    else None
  }

  /** Exactly the listed languages have greetings; Chinese and English
      have six each, the other four languages four each. */
  lemma GreetingTable(key: string)
    ensures Greetings(key).Some? <==> key in LANGUAGES
    ensures |LANGUAGES| == 6
    ensures forall i :: 0 <= i < |LANGUAGES| ==> Greetings(LANGUAGES[i]).Some?
    ensures |Greetings("chinese").value| == 6 && |Greetings("english").value| == 6
    ensures |Greetings("japanese").value| == 4 && |Greetings("korean").value| == 4
    ensures |Greetings("french").value| == 4 && |Greetings("spanish").value| == 4
  {
  }

  // ---------------------------------------------------------------------
  // State and history
  // ---------------------------------------------------------------------

  /** The extension's state: the greeting history, oldest first. */
  datatype Hello = Hello(history: seq<string>)

  /** The history never outgrows its limit. */
  predicate Valid(h: Hello) {
    |h.history| <= HISTORY_LIMIT
  }

  /** A fresh extension has an empty history. */
  const INITIAL: Hello := Hello([])

  /** `greetingHistory.add(record)`, trimmed to the latest hundred. */
  function Record(history: seq<string>, entry: string): (r: seq<string>)
    ensures |history| <= HISTORY_LIMIT ==> r == Latest(history + [entry], HISTORY_LIMIT)
    ensures |r| > 0 && r[|r| - 1] == entry
  {
    Append(history, entry, HISTORY_LIMIT)
  }

  // ---------------------------------------------------------------------
  // Clock, parameters and replies
  // ---------------------------------------------------------------------

  /** `LocalDateTime.getHour()`. */
  type Hour = h: int | 0 <= h < 24

  /** One reading of `LocalDateTime.now()`: its "yyyy-MM-dd HH:mm:ss" text
      and its hour. */
  datatype Clock = Clock(timestamp: string, hour: Hour)

  /** `(String) params.getOrDefault("language", "chinese")`: the default
      only when the key is absent, so a key mapped to null gives null. */
  function LanguageParam(params: seq<(string, Value)>): (r: Result<Option<string>, Exception>)
    ensures !HasKey(params, "language") ==> r == Ok(Some(DEFAULT_LANGUAGE))
    ensures HasKey(params, "language") && Get(params, "language").Null? ==> r == Ok(None)
    ensures r.Err? ==> r.error.kind == ClassCast
  {
    if HasKey(params, "language") then CastString(Get(params, "language")) else Ok(Some(DEFAULT_LANGUAGE))
  }

  /** The `NullPointerException` a method call on a null string throws. */
  const NPE: Exception := Exception(NullPointer, None)

  /** A reply map; "success" is listed first. */
  function Reply(success: bool, rest: seq<(string, Value)>): Value {
    Obj([("success", Bool(success))] + rest)
  }

  /** The reply reports success. */
  predicate Succeeded(v: Value) {
    v.Obj? && |v.entries| > 0 && v.entries[0] == ("success", Bool(true))
  }

  function Failure(message: string): (v: Value)
    ensures !Succeeded(v)
  {
    Reply(false, [("message", Str(message))])
  }

  // ---------------------------------------------------------------------
  // greetUser
  // ---------------------------------------------------------------------

  /** The greeting sentence: the language's first greeting, a comma, the
      name and an exclamation mark. */
  function Message(greeting: string, name: string): string {
    greeting + ", " + name + "!"
  }

  /** The "[%s] %s (%s)" record of `greetUser`. */
  function GreetRecord(timestamp: string, message: string, language: string): string {
    "[" + timestamp + "] " + message + " (" + language + ")"
  }

  /** `greetUser`: both parameters are cast first; a missing or blank name
      is refused; the language is looked up in lower case (a null one
      throws there); an unknown language is refused; otherwise the
      greeting is recorded and returned. */
  function GreetUser(h: Hello, params: seq<(string, Value)>, clock: Clock): (r: Result<(Hello, Value), Exception>)
    ensures r.Err? <==> (CastString(Get(params, "name")).Err? || LanguageParam(params).Err?
                         || (CastString(Get(params, "name")).Ok? && CastString(Get(params, "name")).value.Some?
                             && !IsBlank(CastString(Get(params, "name")).value.value)
                             && LanguageParam(params) == Ok(None)))
    ensures r.Err? ==> r.error == NPE || r.error.kind == ClassCast
    ensures CastString(Get(params, "name")) == Ok(None) && LanguageParam(params).Ok?
            ==> r == Ok((h, Failure(NAME_REQUIRED)))
    ensures Get(params, "name").Str? && IsBlank(Get(params, "name").s) && LanguageParam(params).Ok?
            ==> r == Ok((h, Failure(NAME_REQUIRED)))
    ensures r.Ok? && !Succeeded(r.value.1) ==> r.value.0 == h
    ensures r.Ok? && Succeeded(r.value.1)
            ==> Get(params, "name").Str? && !IsBlank(Get(params, "name").s)
                && LanguageParam(params).Ok? && LanguageParam(params).value.Some?
                && var language := LanguageParam(params).value.value;
                   Greetings(ToLower(language)).Some?
                   && var message := Message(Greetings(ToLower(language)).value[0], Get(params, "name").s);
                      r.value.0.history == Record(h.history, GreetRecord(clock.timestamp, message, language))
    ensures r.Ok? && !Succeeded(r.value.1) && Get(params, "name").Str? && !IsBlank(Get(params, "name").s)
            ==> LanguageParam(params).Ok? && LanguageParam(params).value.Some?
                && Greetings(ToLower(LanguageParam(params).value.value)).None?
                && r.value.1 == Failure(UNSUPPORTED_LANGUAGE + LanguageParam(params).value.value)
  {
    var name :- CastString(Get(params, "name"));
    var language :- LanguageParam(params);
    if name.None? || IsBlank(name.value) then Ok((h, Failure(NAME_REQUIRED)))
    else if language.None? then Err(NPE)
    else
      var found := Greetings(ToLower(language.value));
      if found.None? then Ok((h, Failure(UNSUPPORTED_LANGUAGE + language.value)))
      else
        var message := Message(found.value[0], name.value);
        var entry := GreetRecord(clock.timestamp, message, language.value);
        Ok((Hello(Record(h.history, entry)),
            Reply(true, [("message", Str(message)), ("language", Str(language.value)),
                         ("timestamp", Str(clock.timestamp))])))
  }

  // ---------------------------------------------------------------------
  // getRandomGreeting
  // ---------------------------------------------------------------------

  /** The "[%s] %s (随机-%s)" record of `getRandomGreeting`. */
  function RandomRecord(timestamp: string, greeting: string, language: string): string {
    "[" + timestamp + "] " + greeting + " (随机-" + language + ")"
  }

  /** `getRandomGreeting`: `draw` stands for the value `Random` produced;
      the greeting is the language's greeting at `draw` modulo their
      number, as `nextInt(size)` is always a valid index. */
  function RandomGreeting(h: Hello, params: seq<(string, Value)>, clock: Clock, draw: nat): (r: Result<(Hello, Value), Exception>)
    ensures r.Err? <==> LanguageParam(params).Err? || LanguageParam(params) == Ok(None)
    ensures r.Ok? && !Succeeded(r.value.1) ==> r.value.0 == h
    ensures r.Ok? && !Succeeded(r.value.1)
            ==> Greetings(ToLower(LanguageParam(params).value.value)).None?
                && r.value.1 == Failure(UNSUPPORTED_LANGUAGE + LanguageParam(params).value.value)
    ensures r.Ok? && Succeeded(r.value.1)
            ==> var language := LanguageParam(params).value.value;
                var found := Greetings(ToLower(language));
                found.Some? && |r.value.1.entries| == 4 && r.value.1.entries[1].0 == "greeting"
                && r.value.1.entries[1].1.Str? && r.value.1.entries[1].1.s in found.value
                && r.value.0.history == Record(h.history, RandomRecord(clock.timestamp, r.value.1.entries[1].1.s, language))
  {
    var language :- LanguageParam(params);
    if language.None? then Err(NPE)
    else
      var found := Greetings(ToLower(language.value));
      if found.None? then Ok((h, Failure(UNSUPPORTED_LANGUAGE + language.value)))
      else
        var i := draw % |found.value|;
        var greeting := found.value[i];
        var entry := RandomRecord(clock.timestamp, greeting, language.value);
        Ok((Hello(Record(h.history, entry)),
            Reply(true, [("greeting", Str(greeting)), ("language", Str(language.value)),
                         ("timestamp", Str(clock.timestamp))])))
  }

  // ---------------------------------------------------------------------
  // getSupportedLanguages and getGreetingHistory
  // ---------------------------------------------------------------------

  /** A list of Java strings. */
  function Strings(ss: seq<string>): (vs: seq<Value>)
    ensures |vs| == |ss|
    ensures forall i :: 0 <= i < |ss| ==> vs[i] == Str(ss[i])
  {
    seq(|ss|, i requires 0 <= i < |ss| => Str(ss[i]))
  }

  /** `languageStats`: each language with the number of its greetings. */
  function LanguageStats(languages: seq<string>): (stats: seq<(string, Value)>)
    ensures |stats| == |languages|
    ensures forall i :: 0 <= i < |languages| ==> stats[i] == (languages[i], Int(|Greetings(languages[i]).GetOr([])|))
  {
    if |languages| == 0 then []
    else [(languages[0], Int(|Greetings(languages[0]).GetOr([])|))] + LanguageStats(languages[1..])
  }

  /** Every listed language has greetings. */
  lemma AllListedLanguagesHaveGreetings()
    ensures forall i :: 0 <= i < |LANGUAGES| ==> Greetings(LANGUAGES[i]).Some?
  {
    forall i | 0 <= i < |LANGUAGES|
      ensures Greetings(LANGUAGES[i]).Some?
    {
      GreetingTable(LANGUAGES[i]);
    }
  }

  /** `getSupportedLanguages`: the language names, each language with the
      number of its greetings, and the number of languages. */
  function SupportedLanguages(): (v: Value)
    ensures Succeeded(v) && |v.entries| == 4
    ensures v.entries[1] == ("languages", List(Strings(LANGUAGES)))
    ensures v.entries[2].0 == "languageStats" && v.entries[2].1.Obj?
    ensures v.entries[3] == ("totalLanguages", Int(|LANGUAGES|))
  {
    Reply(true, [("languages", List(Strings(LANGUAGES))),
                 ("languageStats", Obj(LanguageStats(LANGUAGES))),
                 ("totalLanguages", Int(|LANGUAGES|))])
  }

  /** The languages reply lists the six languages and counts six in total. */
  lemma SupportedLanguagesListed()
    ensures var e := SupportedLanguages().entries;
            e[1].1 == List([Str("chinese"), Str("english"), Str("japanese"), Str("korean"), Str("french"), Str("spanish")])
            && e[3] == ("totalLanguages", Int(6))
  {
  }

  /** The language statistics give six greetings to Chinese and English and
      four to each of the others. */
  lemma SupportedLanguagesCounts()
    ensures SupportedLanguages().entries[2].1.entries
            == [("chinese", Int(6)), ("english", Int(6)), ("japanese", Int(4)),
                ("korean", Int(4)), ("french", Int(4)), ("spanish", Int(4))]
  {
    assert SupportedLanguages().entries[2].1 == Obj(LanguageStats(LANGUAGES));
    var stats := LanguageStats(LANGUAGES);
    assert stats[0] == ("chinese", Int(6));
    assert stats[1] == ("english", Int(6));
    assert stats[2] == ("japanese", Int(4));
    assert stats[3] == ("korean", Int(4));
    assert stats[4] == ("french", Int(4));
    assert stats[5] == ("spanish", Int(4));
  }

  /** `getGreetingHistory`: a copy of the history and its size. */
  function GreetingHistory(h: Hello): (v: Value)
    requires Valid(h)
    ensures Succeeded(v) && |v.entries| == 3
    ensures v.entries[1].1.List? && |v.entries[1].1.items| == |h.history|
    ensures forall i :: 0 <= i < |h.history| ==> v.entries[1].1.items[i] == Str(h.history[i])
    ensures v.entries[2] == ("total", Int(|h.history|))
  {
    Reply(true, [("history", List(Strings(h.history))),
                 ("total", Int(|h.history|))])
  }

  // ---------------------------------------------------------------------
  // getTimeBasedGreeting
  // ---------------------------------------------------------------------

  datatype DayPart = Morning | Afternoon | Evening

  /** Morning is [5, 12), afternoon [12, 18), evening the rest of the day. */
  function PartOfDay(hour: Hour): (p: DayPart)
    ensures p == Morning <==> 5 <= hour < 12
    ensures p == Afternoon <==> 12 <= hour < 18
    ensures p == Evening <==> hour < 5 || 18 <= hour
  {
    if 5 <= hour < 12 then Morning
    else if 12 <= hour < 18 then Afternoon
    else Evening
  }

  /** The greeting and the time-of-day word: Chinese for the exact key
      "chinese", English for every other language. */
  function TimeWords(chinese: bool, p: DayPart): (words: (string, string))
  {
    match p
    case Morning => if chinese then ("早上好", "上午") else ("Good morning", "morning")
    case Afternoon => if chinese then ("下午好", "下午") else ("Good afternoon", "afternoon")
    case Evening => if chinese then ("晚上好", "晚上") else ("Good evening", "evening")
  }

  /** The Chinese time greetings are the Chinese table's third, fourth and
      fifth entries; the English ones the English table's. */
  lemma TimeWordsAreTableGreetings(p: DayPart)
    ensures TimeWords(true, p).0 in CHINESE && TimeWords(false, p).0 in ENGLISH
  {
    match p
    case Morning => assert CHINESE[2] == "早上好" && ENGLISH[2] == "Good morning";
    case Afternoon => assert CHINESE[3] == "下午好" && ENGLISH[3] == "Good afternoon";
    case Evening => assert CHINESE[4] == "晚上好" && ENGLISH[4] == "Good evening";
  }

  /** The "[%s] %s (时间问候-%s)" record of `getTimeBasedGreeting`. */
  function TimeRecord(timestamp: string, greeting: string, language: string): string {
    "[" + timestamp + "] " + greeting + " (时间问候-" + language + ")"
  }

  /** `getTimeBasedGreeting`: a null language throws at `equals`; any other
      language, supported or not, is greeted by the hour and recorded. */
  function TimeGreeting(h: Hello, params: seq<(string, Value)>, clock: Clock): (r: Result<(Hello, Value), Exception>)
    ensures r.Err? <==> LanguageParam(params).Err? || LanguageParam(params) == Ok(None)
    ensures r.Ok? ==> Succeeded(r.value.1)
    ensures r.Ok? ==> var language := LanguageParam(params).value.value;
                      var words := TimeWords(language == DEFAULT_LANGUAGE, PartOfDay(clock.hour));
                      r.value.0.history == Record(h.history, TimeRecord(clock.timestamp, words.0, language))
                      && |r.value.1.entries| == 6
                      && r.value.1.entries[1] == ("greeting", Str(words.0))
                      && r.value.1.entries[2] == ("timeOfDay", Str(words.1))
                      && r.value.1.entries[3] == ("hour", Int(clock.hour))
  {
    var language :- LanguageParam(params);
    if language.None? then Err(NPE)
    else
      var words := TimeWords(language.value == DEFAULT_LANGUAGE, PartOfDay(clock.hour));
      var entry := TimeRecord(clock.timestamp, words.0, language.value);
      Ok((Hello(Record(h.history, entry)),
          Reply(true, [("greeting", Str(words.0)), ("timeOfDay", Str(words.1)), ("hour", Int(clock.hour)),
                       ("language", Str(language.value)), ("timestamp", Str(clock.timestamp))])))
  }

  // ---------------------------------------------------------------------
  // getSimpleGreeting and execute
  // ---------------------------------------------------------------------

  /** The "[%s] %s (简单问候)" record of `getSimpleGreeting`. */
  function SimpleRecord(timestamp: string): string {
    "[" + timestamp + "] " + SIMPLE_GREETING + " (简单问候)"
  }

  /** `getSimpleGreeting`: always succeeds and always records. */
  function SimpleGreeting(h: Hello, clock: Clock): (r: (Hello, Value))
    ensures Succeeded(r.1) && |r.1.entries| == 3
    ensures r.0.history == Record(h.history, SimpleRecord(clock.timestamp))
    ensures r.1.entries[1] == ("message", Str(SIMPLE_GREETING))
  {
    (Hello(Record(h.history, SimpleRecord(clock.timestamp))),
     Reply(true, [("message", Str(SIMPLE_GREETING)), ("timestamp", Str(clock.timestamp))]))
  }

  /** `execute`: anything but a map gets the simple greeting; a map is
      dispatched on its "action" (a missing action throws in the `switch`);
      an unknown action is answered with an error map. */
  function Execute(h: Hello, input: Value, clock: Clock, draw: nat): (r: Result<(Hello, Value), Exception>)
    requires Valid(h)
    ensures !input.Obj? ==> r == Ok(SimpleGreeting(h, clock))
    ensures input.Obj? && Get(input.entries, "action").Null? ==> r == Err(NPE)
    ensures input.Obj? && !Get(input.entries, "action").Null? && !Get(input.entries, "action").Str?
            ==> r.Err? && r.error.kind == ClassCast
    ensures input.Obj? && Get(input.entries, "action").Str?
            ==> var action := Get(input.entries, "action").s;
                (action == "greet" ==> r == GreetUser(h, input.entries, clock))
                && (action == "random" ==> r == RandomGreeting(h, input.entries, clock, draw))
                && (action == "languages" ==> r == Ok((h, SupportedLanguages())))
                && (action == "history" ==> r == Ok((h, GreetingHistory(h))))
                && (action == "time" ==> r == TimeGreeting(h, input.entries, clock))
                && (action !in ["greet", "random", "languages", "history", "time"]
                    ==> r == Ok((h, Obj([("error", Str(UNSUPPORTED_ACTION + action))]))))
    ensures r.Ok? ==> Valid(r.value.0)
    ensures r.Ok? ==> r.value.0 == h || exists entry :: r.value.0.history == Record(h.history, entry)
    ensures r.Ok? && !Succeeded(r.value.1) ==> r.value.0 == h
  {
    if !input.Obj? then Ok(SimpleGreeting(h, clock))
    else
      var params := input.entries;
      var action :- CastString(Get(params, "action"));
      if action.None? then Err(NPE)
      else if action.value == "greet" then GreetUser(h, params, clock)
      else if action.value == "random" then RandomGreeting(h, params, clock, draw)
      else if action.value == "languages" then Ok((h, SupportedLanguages()))
      else if action.value == "history" then Ok((h, GreetingHistory(h)))
      else if action.value == "time" then TimeGreeting(h, params, clock)
      else Ok((h, Obj([("error", Str(UNSUPPORTED_ACTION + action.value))])))
  }

  /** Only greetings change the history: the languages and history replies,
      unknown actions and refused greetings leave it as it was. */
  lemma ReadsLeaveHistory(h: Hello, input: Value, clock: Clock, draw: nat)
    requires Valid(h)
    requires input.Obj? && Get(input.entries, "action").Str?
    requires Get(input.entries, "action").s !in ["greet", "random", "time"]
    requires Execute(h, input, clock, draw).Ok?
    ensures Execute(h, input, clock, draw).value.0 == h
  {
  }

  // ---------------------------------------------------------------------
  // Case sensitivity
  // ---------------------------------------------------------------------

  /** `greetUser` finds the table entry for "Chinese", since it lower-cases
      the key before the lookup. */
  lemma GreetAcceptsCapitalised(h: Hello, params: seq<(string, Value)>, name: string, clock: Clock)
    requires Get(params, "name") == Str(name) && !IsBlank(name)
    requires HasKey(params, "language") && Get(params, "language") == Str("Chinese")
    ensures GreetUser(h, params, clock)
            == Ok((Hello(Record(h.history, GreetRecord(clock.timestamp, Message("你好", name), "Chinese"))),
                   Reply(true, [("message", Str(Message("你好", name))), ("language", Str("Chinese")),
                                ("timestamp", Str(clock.timestamp))])))
  {
    assert CastString(Get(params, "name")) == Ok(Some(name));
    assert LanguageParam(params) == Ok(Some("Chinese"));
    assert ToLower("Chinese") == "chinese";
    assert Greetings(ToLower("Chinese")) == Some(CHINESE);
  }

  /** `getTimeBasedGreeting` compares with "chinese" exactly and answers
      "Chinese" in English. */
  lemma TimeAnswersCapitalisedInEnglish(h: Hello, clock: Clock)
    ensures TimeGreeting(h, [("language", Str("Chinese"))], clock).Ok?
    ensures TimeGreeting(h, [("language", Str("Chinese"))], clock).value.1.entries[1]
            == ("greeting", Str(TimeWords(false, PartOfDay(clock.hour)).0))
  {
    assert "Chinese" != DEFAULT_LANGUAGE by { assert "Chinese"[0] != DEFAULT_LANGUAGE[0]; }
    LookupAt([("language", Str("Chinese"))], 0);
  }
}

=== FILE: hello_world.dfy ===
/**
  The built-in `HelloWorldPlugin`: answers every input with a fixed
  greeting, the time, the input itself and the plugin's identity, and, for
  a non-null input, the input's text in upper case.
*/
module HelloWorldPlugin {
  import opened Wrappers
  import opened JavaStrings
  import opened Values

  const PLUGIN_NAME: string := "HelloWorldPlugin"
  const PLUGIN_VERSION: string := "1.0.0"
  const GREETING: string := "Hello World from Plugin!"
  const PROCESSED_PREFIX: string := "处理后的输入: "

  /** `execute`: the five fixed entries, then "processedInput" unless the
      input is null.  The time stamp is the `LocalDateTime` object, known
      by its text. */
  function Execute(input: Value, now: string): (r: Value)
    ensures r.Obj? && (|r.entries| == 5 || |r.entries| == 6)
    ensures r.entries[..5] == [("message", Str(GREETING)), ("timestamp", Other("LocalDateTime", now)), ("input", input),
                               ("pluginName", Str(PLUGIN_NAME)), ("pluginVersion", Str(PLUGIN_VERSION))]
    ensures |r.entries| == 6 <==> !input.Null?
    ensures !input.Null? ==> r.entries[5] == ("processedInput", Str(PROCESSED_PREFIX + ToUpper(ToJavaString(input))))
  {
    var fixed := [("message", Str(GREETING)), ("timestamp", Other("LocalDateTime", now)), ("input", input),
                  ("pluginName", Str(PLUGIN_NAME)), ("pluginVersion", Str(PLUGIN_VERSION))];
    if input.Null? then Obj(fixed)
    else Obj(fixed + [("processedInput", Str(PROCESSED_PREFIX + ToUpper(ToJavaString(input))))])
  }

  /** "processedInput" is present exactly for a non-null input. */
  lemma ProcessedInputIffInput(input: Value, now: string)
    ensures HasKey(Execute(input, now).entries, "processedInput") <==> !input.Null?
  {
    var e := Execute(input, now).entries;
    if !input.Null? {
      assert e[5].0 == "processedInput";
    } else {
      var key := "processedInput";
      assert |key| == 14;
      assert forall i :: 0 <= i < 5 ==> |e[i].0| < 14;
    }
  }

  /** The input is echoed back unchanged under "input", next to the fixed
      greeting. */
  lemma InputEchoed(input: Value, now: string)
    ensures Get(Execute(input, now).entries, "input") == input
    ensures Get(Execute(input, now).entries, "message") == Str(GREETING)
  {
    var e := Execute(input, now).entries;
    LookupAt(e, 0);
    LookupAt(e, 2);
  }

  /** Upper-casing is idempotent, so the processed text of a string is
      already in upper case: upper-casing it again changes nothing. */
  lemma ProcessedTextIsUpperCase(s: string, now: string)
    ensures var processed := Execute(Str(s), now).entries[5].1.s;
            processed == PROCESSED_PREFIX + ToUpper(s)
            && ToUpper(ToUpper(s)) == ToUpper(s)
            && |processed| == |PROCESSED_PREFIX| + |s|
  {
    assert forall i :: 0 <= i < |s| ==> ToUpper(ToUpper(s))[i] == UpperChar(UpperChar(s[i])) == UpperChar(s[i]);
  }
}

=== FILE: java_admin.dfy ===
/**
  The `JavaAdmin` entity (table `java_admin`): its field defaults, its
  constructors and JPA lifecycle callbacks, its identity (`equals` and
  `hashCode` on id and user name) and the size limits its bean-validation
  annotations declare.  Timestamps are readings of a clock the caller
  passes in.
*/
module JavaAdminEntity {
  import opened Wrappers
  import opened JavaNumbers
  import opened JavaStrings

  /** A clock reading (`LocalDateTime.now()`). */
  type Timestamp = int

  datatype JavaAdmin = JavaAdmin(
    id: Option<Int64>,
    username: Option<string>,
    password: Option<string>,
    email: Option<string>,
    phone: Option<string>,
    status: Option<Int32>,
    role: Option<string>,
    createTime: Option<Timestamp>,
    updateTime: Option<Timestamp>,
    remark: Option<string>)

  const ENABLED: Int32 := 1
  const DISABLED: Int32 := 0
  const USER_ROLE: string := "user"
  const ADMIN_ROLE: string := "admin"

  /** The no-argument constructor: status 1 and role "user", every other
      field null. */
  function NewJavaAdmin(): (a: JavaAdmin)
    ensures a.status == Some(ENABLED) && a.role == Some(USER_ROLE)
    ensures a.id.None? && a.username.None? && a.password.None? && a.email.None?
    ensures a.phone.None? && a.remark.None? && a.createTime.None? && a.updateTime.None?
  {
    JavaAdmin(None, None, None, None, None, Some(ENABLED), Some(USER_ROLE), None, None, None)
  }

  /** The three-argument constructor: the given user name, password and
      e-mail, both timestamps set to `now`, the defaults kept. */
  function NewWithCredentials(username: Option<string>, password: Option<string>, email: Option<string>,
                              now: Timestamp): (a: JavaAdmin)
    ensures a.username == username && a.password == password && a.email == email
    ensures a.createTime == Some(now) && a.updateTime == Some(now)
    ensures a.id.None? && a.phone.None? && a.remark.None?
    ensures a.status == Some(ENABLED) && a.role == Some(USER_ROLE)
  {
    NewJavaAdmin().(username := username, password := password, email := email,
                    createTime := Some(now), updateTime := Some(now))
  }

  /** `@PrePersist onCreate`: both timestamps become `now`. */
  function OnCreate(a: JavaAdmin, now: Timestamp): (r: JavaAdmin)
    ensures r.createTime == Some(now) && r.updateTime == Some(now)
    ensures r.(createTime := a.createTime, updateTime := a.updateTime) == a
  {
    a.(createTime := Some(now), updateTime := Some(now))
  }

  /** `@PreUpdate onUpdate`: only the update time changes. */
  function OnUpdate(a: JavaAdmin, now: Timestamp): (r: JavaAdmin)
    ensures r.updateTime == Some(now)
    ensures r.(updateTime := a.updateTime) == a
  {
    a.(updateTime := Some(now))
  }

  /** What `equals` may be handed: null, another `JavaAdmin`, or an object
      of some other class. */
  datatype Candidate = NullRef | AdminRef(admin: JavaAdmin) | OtherClass

  /** `equals`: same id and same user name (`Objects.equals` on each);
      false for null and for any other class.  The identity shortcut
      `this == o` agrees, since an object's fields equal themselves. */
  function Equals(a: JavaAdmin, o: Candidate): (b: bool)
    ensures b ==> o.AdminRef?
    ensures o == AdminRef(a) ==> b
  {
    o.AdminRef? && a.id == o.admin.id && a.username == o.admin.username
  }

  lemma EqualsIsAnEquivalence(a: JavaAdmin, b: JavaAdmin, c: JavaAdmin)
    ensures Equals(a, AdminRef(a))
    ensures Equals(a, AdminRef(b)) <==> Equals(b, AdminRef(a))
    ensures Equals(a, AdminRef(b)) && Equals(b, AdminRef(c)) ==> Equals(a, AdminRef(c))
    ensures !Equals(a, NullRef) && !Equals(a, OtherClass)
  {
  }

  /** Equality depends on id and user name alone: two entities that agree
      on both are equal to, and from the side of, exactly the same
      entities, whatever their other fields. */
  lemma EqualsDependsOnlyOnIdentity(a: JavaAdmin, a2: JavaAdmin, b: JavaAdmin)
    requires a.id == a2.id && a.username == a2.username
    ensures Equals(a, AdminRef(a2))
    ensures Equals(a, AdminRef(b)) == Equals(a2, AdminRef(b))
    ensures Equals(b, AdminRef(a)) == Equals(b, AdminRef(a2))
  {
  }

  /** A different id or a different user name makes two entities unequal. */
  lemma DifferentIdentityNotEqual(a: JavaAdmin, b: JavaAdmin)
    requires a.id != b.id || a.username != b.username
    ensures !Equals(a, AdminRef(b)) && !Equals(b, AdminRef(a))
  {
  }

  /** An entity whose status, password and update time change stays equal
      to what it was. */
  lemma EqualityIgnoresOtherFields(a: JavaAdmin, status: Option<Int32>, password: Option<string>, now: Timestamp)
    ensures Equals(a, AdminRef(OnUpdate(a.(status := status, password := password), now)))
  {
  }

  // ---------------------------------------------------------------------
  // hashCode
  // ---------------------------------------------------------------------

  const TWO_32: int := 0x1_0000_0000

  /** `Long.hashCode`: the two 32-bit halves of the two's-complement value
      XOR-ed, read as an `int`. */
  function LongHash(v: Int64): (h: Int32)
    ensures 0 <= v <= INT_MAX ==> h == v
  {
    if 0 <= v < TWO_32 then WrapInt(v)
    else
      var hi := (v / TWO_32) % TWO_32;
      var lo := v % TWO_32;
      WrapInt(((lo as bv32) ^ (hi as bv32)) as int)
  }

  /** `String.hashCode`: `31 * h + c` over the characters, wrapping at 32
      bits after every step. */
  function StringHash(s: string): (h: Int32)
    ensures |s| == 0 ==> h == 0
    ensures |s| == 1 ==> h == s[0] as int
  {
    if |s| == 0 then 0 else WrapInt(31 * StringHash(s[..|s| - 1]) + s[|s| - 1] as int)
  }

  /** `Objects.hashCode` of a nullable field: 0 for null. */
  function HashOf<T>(v: Option<T>, hash: T -> Int32): (h: Int32)
    ensures v.None? ==> h == 0
  {
    if v.Some? then hash(v.value) else 0
  }

  /** `Objects.hash(id, username)`: `31 * (31 * 1 + hash(id)) + hash(username)`
      in `int` arithmetic. */
  function HashCode(a: JavaAdmin): (h: Int32)
    ensures a.id.None? && a.username.None? ==> h == 961
    ensures a.username.None? && a.id.Some? && 0 <= a.id.value <= 1000 ==> h == 961 + 31 * a.id.value
  {
    IdentityHash(a.id, a.username)
  }

  /** The hash of the two identity fields. */
  function IdentityHash(id: Option<Int64>, username: Option<string>): Int32 {
    WrapInt(31 * WrapInt(31 + HashOf(id, LongHash)) + HashOf(username, StringHash))
  }

  /** Equal entities have equal hash codes. */
  lemma EqualsImpliesSameHash(a: JavaAdmin, b: JavaAdmin)
    requires Equals(a, AdminRef(b))
    ensures HashCode(a) == HashCode(b)
  {
    assert HashCode(a) == IdentityHash(a.id, a.username);
    assert HashCode(b) == IdentityHash(b.id, b.username);
  }

  // ---------------------------------------------------------------------
  // Declared limits
  // ---------------------------------------------------------------------

  /** `@NotBlank`: non-null and not blank after trimming. */
  predicate NotBlank(s: Option<string>) {
    s.Some? && !IsBlank(s.value)
  }

  /** `@Size(max = n)`: null, or at most `n` characters. */
  predicate SizeAtMost(s: Option<string>, n: nat) {
    s.None? || |s.value| <= n
  }

  /** The bean-validation constraints on the entity's fields. */
  predicate WithinDeclaredLimits(a: JavaAdmin) {
    NotBlank(a.username) && SizeAtMost(a.username, 50)
    && NotBlank(a.password) && SizeAtMost(a.password, 255)
    && SizeAtMost(a.email, 100) && SizeAtMost(a.phone, 20) && SizeAtMost(a.role, 20)
  }

  /** A freshly constructed entity meets the limits exactly when its user
      name, password and e-mail do: the default role is short enough and
      the phone is null. */
  lemma {:induction false} CredentialsWithinLimits(username: Option<string>, password: Option<string>,
                                                   email: Option<string>, now: Timestamp)
    ensures WithinDeclaredLimits(NewWithCredentials(username, password, email, now))
            <==> NotBlank(username) && SizeAtMost(username, 50) && NotBlank(password) && SizeAtMost(password, 255)
                 && SizeAtMost(email, 100)
  {
    assert |USER_ROLE| == 4;
  }

  /** The default entity never meets the limits: it has no user name. */
  lemma DefaultEntityIsIncomplete()
    ensures !WithinDeclaredLimits(NewJavaAdmin())
  {
  }
}

=== FILE: java_admin_repository.dfy ===
/**
  `JavaAdminRepository` over a table held as a map from primary key to
  row.  The database's `IDENTITY` column hands out keys from a counter
  that only grows.  Derived queries compare with `=`, except that a null
  argument becomes `IS NULL`; the hand-written JPQL queries follow SQL's
  three-valued logic, so a comparison with a NULL column never matches.
  Results that the source returns as lists or pages are sub-tables here:
  their order is the database's and is not modelled.
*/
module JavaAdminRepository {
  import opened Wrappers
  import opened JavaNumbers
  import opened JavaStrings
  import opened Values
  import opened JavaAdminEntity

  type Rows = map<Int64, JavaAdmin>

  /** The table and the next value of its auto-increment key. */
  datatype Repo = Repo(rows: Rows, nextId: int)

  /** Every row carries its own key as id, and every key lies below the
      auto-increment counter. */
  predicate Valid(r: Repo) {
    1 <= r.nextId && forall k :: k in r.rows ==> r.rows[k].id == Some(k) && k < r.nextId
  }

  const EMPTY: Repo := Repo(map[], 1)

  lemma EmptyIsValid()
    ensures Valid(EMPTY) && |EMPTY.rows| == 0
  {
  }

  // ---------------------------------------------------------------------
  // Row selection and counting
  // ---------------------------------------------------------------------

  /** The rows satisfying `p`, under their own keys. */
  function Where(rows: Rows, p: JavaAdmin -> bool): (sub: Rows)
    ensures forall k :: k in sub <==> k in rows && p(rows[k])
    ensures forall k :: k in sub ==> sub[k] == rows[k]
  {
    map k | k in rows && p(rows[k]) :: rows[k]
  }

  /** The keys of the rows satisfying `p`. */
  function KeysWhere(rows: Rows, p: JavaAdmin -> bool): (ks: set<Int64>)
    ensures ks <= rows.Keys
    ensures forall k :: k in ks <==> k in rows && p(rows[k])
  {
    set k | k in rows && p(rows[k])
  }

  /** `SELECT COUNT(*) ... WHERE p`. */
  function Count(rows: Rows, p: JavaAdmin -> bool): (n: nat)
    ensures n <= |rows|
  {
    SubsetCardinality(KeysWhere(rows, p), rows.Keys);
    |KeysWhere(rows, p)|
  }

  lemma {:induction false} SubsetCardinality<T>(a: set<T>, b: set<T>)
    requires a <= b
    ensures |a| <= |b|
  {
    if a != {} {
      var x :| x in a;
      SubsetCardinality(a - {x}, b - {x});
    }
  }

  /** A count is the size of the matching sub-table. */
  lemma CountIsSizeOfWhere(rows: Rows, p: JavaAdmin -> bool)
    ensures Count(rows, p) == |Where(rows, p)|
  {
    assert Where(rows, p).Keys == KeysWhere(rows, p);
  }

  // ---------------------------------------------------------------------
  // Derived queries
  // ---------------------------------------------------------------------

  /** `findById`. */
  function FindById(r: Repo, id: Int64): (a: Option<JavaAdmin>)
    ensures a.Some? <==> id in r.rows
    ensures a.Some? ==> a.value == r.rows[id]
  {
    if id in r.rows then Some(r.rows[id]) else None
  }

  /** A single-result derived query (`findByUsername`, `findByEmail`,
      `findByPhone`): empty for no row, the row for exactly one, and
      `IncorrectResultSizeDataAccessException` for more. */
  function FindUnique(rows: Rows, p: JavaAdmin -> bool): (r: Result<Option<JavaAdmin>, Exception>)
    ensures r.Ok? <==> Count(rows, p) <= 1
    ensures r.Ok? && r.value.None? <==> Count(rows, p) == 0
    ensures r.Ok? && r.value.Some? ==> exists k :: k in rows && p(rows[k]) && rows[k] == r.value.value
    ensures r.Ok? && r.value.None? <==> forall k :: k in rows ==> !p(rows[k])
    ensures r.Err? ==> exists j, k :: j in rows && k in rows && j != k && p(rows[j]) && p(rows[k])
  {
    var ks := KeysWhere(rows, p);
    if |ks| == 0 then
      assert ks == {};
      Ok(None)
    else if |ks| == 1 then
      SingletonHasOneElement(ks);
      var k :| k in ks;
      Ok(Some(rows[k]))
    else
      TwoElements(ks);
      Err(Exception(OtherException("IncorrectResultSizeDataAccessException"),
                    Some("query did not return a unique result: " + IntToString(|ks|))))
  }

  lemma TwoElements<T>(s: set<T>)
    requires |s| > 1
    ensures exists x, y :: x in s && y in s && x != y
  {
    var x :| x in s;
    assert |s - {x}| > 0;
    var y :| y in s - {x};
  }

  lemma SingletonHasOneElement<T>(s: set<T>)
    requires |s| == 1
    ensures forall x, y :: x in s && y in s ==> x == y
  {
    var z :| z in s;
    assert s == {z} by {
      assert s - {z} == {} by { assert |s - {z}| == 0; }
    }
  }

  /** `findByUsername`: the one row with that user name, nothing when no
      row has it, and a failure when two rows share it. */
  function FindByUsername(r: Repo, username: Option<string>): (res: Result<Option<JavaAdmin>, Exception>)
    ensures res.Ok? && res.value.Some?
            ==> res.value.value.username == username && exists k :: k in r.rows && r.rows[k] == res.value.value
    ensures res.Ok? && res.value.None? <==> forall k :: k in r.rows ==> r.rows[k].username != username
    ensures res.Err?
            ==> exists j, k :: j in r.rows && k in r.rows && j != k && r.rows[j].username == username && r.rows[k].username == username
  {
    FindUnique(r.rows, (a: JavaAdmin) => a.username == username)
  }

  /** `findByEmail`, the same over the e-mail column. */
  function FindByEmail(r: Repo, email: Option<string>): (res: Result<Option<JavaAdmin>, Exception>)
    ensures res.Ok? && res.value.Some?
            ==> res.value.value.email == email && exists k :: k in r.rows && r.rows[k] == res.value.value
    ensures res.Ok? && res.value.None? <==> forall k :: k in r.rows ==> r.rows[k].email != email
    ensures res.Err?
            ==> exists j, k :: j in r.rows && k in r.rows && j != k && r.rows[j].email == email && r.rows[k].email == email
  {
    FindUnique(r.rows, (a: JavaAdmin) => a.email == email)
  }

  /** `findByPhone`, the same over the phone column. */
  function FindByPhone(r: Repo, phone: Option<string>): (res: Result<Option<JavaAdmin>, Exception>)
    ensures res.Ok? && res.value.Some?
            ==> res.value.value.phone == phone && exists k :: k in r.rows && r.rows[k] == res.value.value
    ensures res.Ok? && res.value.None? <==> forall k :: k in r.rows ==> r.rows[k].phone != phone
    ensures res.Err?
            ==> exists j, k :: j in r.rows && k in r.rows && j != k && r.rows[j].phone == phone && r.rows[k].phone == phone
  {
    FindUnique(r.rows, (a: JavaAdmin) => a.phone == phone)
  }

  /** `existsByUsername`: some row has that user name (`IS NULL` for null). */
  function ExistsByUsername(r: Repo, username: Option<string>): (b: bool)
    ensures b <==> exists k :: k in r.rows && r.rows[k].username == username
  {
    Count(r.rows, (a: JavaAdmin) => a.username == username) > 0
  }

  function ExistsByEmail(r: Repo, email: Option<string>): (b: bool)
    ensures b <==> exists k :: k in r.rows && r.rows[k].email == email
  {
    Count(r.rows, (a: JavaAdmin) => a.email == email) > 0
  }

  /** A user name exists exactly when the unique lookup does not come back
      empty. */
  lemma ExistsAgreesWithFind(r: Repo, username: Option<string>)
    ensures ExistsByUsername(r, username) <==> !(FindByUsername(r, username).Ok? && FindByUsername(r, username).value.None?)
  {
  }

  function FindByStatus(r: Repo, status: Option<Int32>): (sub: Rows)
    ensures forall k :: k in sub <==> k in r.rows && r.rows[k].status == status
  {
    Where(r.rows, (a: JavaAdmin) => a.status == status)
  }

  function FindByRole(r: Repo, role: Option<string>): (sub: Rows)
    ensures forall k :: k in sub <==> k in r.rows && r.rows[k].role == role
  {
    Where(r.rows, (a: JavaAdmin) => a.role == role)
  }

  function FindByStatusAndRole(r: Repo, status: Option<Int32>, role: Option<string>): (sub: Rows)
    ensures sub == Where(FindByStatus(r, status), (a: JavaAdmin) => a.role == role)
  {
    Where(r.rows, (a: JavaAdmin) => a.status == status && a.role == role)
  }

  /** `countByStatus`: the number of ids whose row has that status. */
  function CountByStatus(r: Repo, status: Option<Int32>): (n: nat)
    ensures n == |set k | k in r.rows && r.rows[k].status == status|
  {
    assert KeysWhere(r.rows, (a: JavaAdmin) => a.status == status) == set k | k in r.rows && r.rows[k].status == status;
    Count(r.rows, (a: JavaAdmin) => a.status == status)
  }

  /** `countByRole`: the number of ids whose row has that role. */
  function CountByRole(r: Repo, role: Option<string>): (n: nat)
    ensures n == |set k | k in r.rows && r.rows[k].role == role|
  {
    assert KeysWhere(r.rows, (a: JavaAdmin) => a.role == role) == set k | k in r.rows && r.rows[k].role == role;
    Count(r.rows, (a: JavaAdmin) => a.role == role)
  }

  /** `countByStatus` and `countByRole` are the sizes of `findByStatus` and
      `findByRole` for the same argument. */
  lemma CountsMatchFinds(r: Repo, status: Option<Int32>, role: Option<string>)
    ensures CountByStatus(r, status) == |FindByStatus(r, status)|
    ensures CountByRole(r, role) == |FindByRole(r, role)|
  {
    CountIsSizeOfWhere(r.rows, (a: JavaAdmin) => a.status == status);
    CountIsSizeOfWhere(r.rows, (a: JavaAdmin) => a.role == role);
  }

  /** `LIKE %x%` on a nullable column: NULL never matches. */
  function Like(column: Option<string>, x: string): (b: bool)
    ensures b <==> column.Some? && exists k :: 0 <= k <= |column.value| - |x| && StartsWith(column.value[k..], x)
  {
    if column.Some? then
      ContainsIffOccurs(column.value, x);
      Contains(column.value, x)
    else false
  }

  /** `findByUsernameContaining` and `findByEmailContaining`, without the
      paging. */
  function FindByUsernameContaining(r: Repo, username: string): (sub: Rows)
    ensures forall k :: k in sub <==> k in r.rows && Like(r.rows[k].username, username)
  {
    Where(r.rows, (a: JavaAdmin) => Like(a.username, username))
  }

  function FindByEmailContaining(r: Repo, email: string): (sub: Rows)
    ensures forall k :: k in sub <==> k in r.rows && Like(r.rows[k].email, email)
  {
    Where(r.rows, (a: JavaAdmin) => Like(a.email, email))
  }

  /** `findByCreateTimeBetween`: both ends inclusive; a NULL create time
      never matches. */
  function FindByCreateTimeBetween(r: Repo, start: Timestamp, end: Timestamp): (sub: Rows)
    ensures forall k :: k in sub <==> k in r.rows && r.rows[k].createTime.Some?
                                      && start <= r.rows[k].createTime.value <= end
  {
    Where(r.rows, (a: JavaAdmin) => a.createTime.Some? && start <= a.createTime.value <= end)
  }

  // ---------------------------------------------------------------------
  // findByMultipleConditions
  // ---------------------------------------------------------------------

  /** The JPQL filter: a null parameter imposes nothing, user name and
      e-mail match as substrings, status and role by equality. */
  predicate MatchesConditions(a: JavaAdmin, username: Option<string>, email: Option<string>,
                              status: Option<Int32>, role: Option<string>) {
    (username.None? || Like(a.username, username.value))
    && (email.None? || Like(a.email, email.value))
    && (status.None? || a.status == status)
    && (role.None? || a.role == role)
  }

  function FindByMultipleConditions(r: Repo, username: Option<string>, email: Option<string>,
                                    status: Option<Int32>, role: Option<string>): (sub: Rows)
    ensures forall k :: k in sub <==> k in r.rows && MatchesConditions(r.rows[k], username, email, status, role)
    ensures username.None? && email.None? && status.None? && role.None? ==> sub == r.rows
  {
    Where(r.rows, (a: JavaAdmin) => MatchesConditions(a, username, email, status, role))
  }

  /** An empty search string is not "no filter" here: `LIKE '%%'` still
      excludes the rows whose column is NULL. */
  lemma EmptyPatternExcludesNull(r: Repo, k: Int64)
    requires k in r.rows && r.rows[k].email.None?
    ensures k !in FindByMultipleConditions(r, None, Some(""), None, None)
  {
  }

  // ---------------------------------------------------------------------
  // Saving and deleting
  // ---------------------------------------------------------------------

  /** `save`: an entity without an id, or with an id the table does not
      hold, is inserted under the next auto-increment key after `onCreate`;
      an entity whose id is in the table replaces that row after
      `onUpdate`, except that the create time, declared not updatable,
      stays the stored one. */
  function Save(r: Repo, a: JavaAdmin, now: Timestamp): (res: (Repo, JavaAdmin))
    requires Valid(r) && IsLong(r.nextId)
    ensures Valid(res.0)
    ensures var (r2, saved) := res;
            saved.id.Some? && saved.id.value in r2.rows && r2.rows[saved.id.value] == saved
            && r2.rows.Keys == r.rows.Keys + {saved.id.value}
            && (forall k :: k in r.rows && k != saved.id.value ==> r2.rows[k] == r.rows[k])
    ensures a.id.None? || a.id.value !in r.rows ==>
              res.0.rows.Keys == r.rows.Keys + {r.nextId} && r.nextId !in r.rows
              && res.1 == OnCreate(a, now).(id := Some(r.nextId as Int64))
    ensures a.id.Some? && a.id.value in r.rows ==>
              res.0.rows.Keys == r.rows.Keys && res.0.nextId == r.nextId
              && res.1 == OnUpdate(a, now).(createTime := r.rows[a.id.value].createTime)
  {
    if a.id.None? || a.id.value !in r.rows then
      var id: Int64 := r.nextId;
      var saved := OnCreate(a, now).(id := Some(id));
      (Repo(r.rows[id := saved], r.nextId + 1), saved)
    else
      var id := a.id.value;
      var saved := OnUpdate(a, now).(createTime := r.rows[id].createTime);
      (r.(rows := r.rows[id := saved]), saved)
  }

  /** `saveAll`: `save` of each entity in turn. */
  function SaveAll(r: Repo, items: seq<JavaAdmin>, now: Timestamp): (res: (Repo, seq<JavaAdmin>))
    requires Valid(r) && IsLong(r.nextId + |items|)
    ensures Valid(res.0) && |res.1| == |items|
    ensures r.rows.Keys <= res.0.rows.Keys
    ensures r.nextId <= res.0.nextId <= r.nextId + |items|
    ensures forall i :: 0 <= i < |res.1| ==> res.1[i].id.Some?
    decreases |items|
  {
    if |items| == 0 then (r, [])
    else
      var (r1, first) := Save(r, items[0], now);
      var (r2, rest) := SaveAll(r1, items[1..], now);
      (r2, [first] + rest)
  }

  /** `deleteById`: removes the row; an unknown id throws
      `EmptyResultDataAccessException`. */
  function DeleteById(r: Repo, id: Int64): (res: Result<Repo, Exception>)
    requires Valid(r)
    ensures res.Ok? <==> id in r.rows
    ensures res.Ok? ==> Valid(res.value) && res.value.rows == r.rows - {id} && res.value.nextId == r.nextId
  {
    if id in r.rows then Ok(r.(rows := r.rows - {id}))
    else Err(Exception(OtherException("EmptyResultDataAccessException"),
                       Some("No class com.example.pf4j.entity.JavaAdmin entity with id " + IntToString(id) + " exists!")))
  }

  /** No id occurs twice. */
  predicate Distinct(ids: seq<Int64>) {
    forall i, j :: 0 <= i < j < |ids| ==> ids[i] != ids[j]
  }

  /** `deleteAllById`: `deleteById` for each id in turn.  An unknown id, or
      one already deleted earlier in the list, throws, and the surrounding
      transaction rolls the earlier deletes back. */
  function DeleteAllById(r: Repo, ids: seq<Int64>): (res: Result<Repo, Exception>)
    requires Valid(r)
    ensures res.Ok? ==> Valid(res.value) && res.value.nextId == r.nextId && res.value.rows.Keys <= r.rows.Keys
    decreases |ids|
  {
    if |ids| == 0 then Ok(r)
    else
      match DeleteById(r, ids[0])
      case Err(e) => Err(e)
      case Ok(r1) => DeleteAllById(r1, ids[1..])
  }

  /** A list is distinct when its head does not recur and its tail is. */
  lemma {:induction false} DistinctCons(ids: seq<Int64>)
    requires |ids| > 0
    ensures Distinct(ids) <==> ids[0] !in ids[1..] && Distinct(ids[1..])
  {
    if ids[0] !in ids[1..] && Distinct(ids[1..]) {
      forall i, j | 0 <= i < j < |ids|
        ensures ids[i] != ids[j]
      {
        if i > 0 {
          assert ids[1..][i - 1] != ids[1..][j - 1];
        } else {
          assert ids[j] == ids[1..][j - 1];
        }
      }
    }
    if Distinct(ids) {
      forall i, j | 0 <= i < j < |ids[1..]|
        ensures ids[1..][i] != ids[1..][j]
      {
        assert ids[i + 1] != ids[j + 1];
      }
      forall k | 0 <= k < |ids[1..]|
        ensures ids[1..][k] != ids[0]
      {
        assert ids[0] != ids[k + 1];
      }
    }
  }

  /** The whole list succeeds exactly when its ids are distinct and all
      present. */
  lemma {:induction false} DeleteAllByIdSucceeds(r: Repo, ids: seq<Int64>)
    requires Valid(r)
    ensures DeleteAllById(r, ids).Ok? <==> Distinct(ids) && forall i :: 0 <= i < |ids| ==> ids[i] in r.rows
    decreases |ids|
  {
    if |ids| > 0 {
      DistinctCons(ids);
      if ids[0] in r.rows {
        var r1 := DeleteById(r, ids[0]).value;
        DeleteAllByIdSucceeds(r1, ids[1..]);
        assert forall i :: 1 <= i < |ids| ==> ids[i] == ids[1..][i - 1];
        if forall i :: 0 <= i < |ids[1..]| ==> ids[1..][i] in r1.rows {
          forall i | 0 <= i < |ids|
            ensures ids[i] in r.rows
          {
            if i > 0 {
              assert ids[1..][i - 1] in r1.rows;
            }
          }
        }
      }
    }
  }

  /** After a successful deletion exactly the listed rows are gone and the
      others are unchanged. */
  lemma {:induction false} DeleteAllByIdRows(r: Repo, ids: seq<Int64>)
    requires Valid(r) && DeleteAllById(r, ids).Ok?
    ensures forall k :: k in DeleteAllById(r, ids).value.rows <==> k in r.rows && k !in ids
    ensures forall k :: k in DeleteAllById(r, ids).value.rows ==> DeleteAllById(r, ids).value.rows[k] == r.rows[k]
    decreases |ids|
  {
    if |ids| > 0 {
      var r1 := DeleteById(r, ids[0]).value;
      DeleteAllByIdRows(r1, ids[1..]);
      assert forall k :: k in ids <==> k == ids[0] || k in ids[1..];
    }
  }

  // ---------------------------------------------------------------------
  // Hand-written update, delete and statistics queries
  // ---------------------------------------------------------------------

  /** `updateStatusById`: sets status and update time of the row with that
      id and answers the number of rows changed. */
  function UpdateStatusById(r: Repo, id: Option<Int64>, status: Int32, now: Timestamp): (res: (Repo, int))
    requires Valid(r)
    ensures Valid(res.0) && res.0.nextId == r.nextId && res.0.rows.Keys == r.rows.Keys
    ensures res.1 == (if id.Some? && id.value in r.rows then 1 else 0)
    ensures forall k :: k in r.rows && Some(k) != id ==> res.0.rows[k] == r.rows[k]
    ensures res.1 == 1 ==> res.0.rows[id.value] == r.rows[id.value].(status := Some(status), updateTime := Some(now))
  {
    if id.Some? && id.value in r.rows then
      var k := id.value;
      (r.(rows := r.rows[k := r.rows[k].(status := Some(status), updateTime := Some(now))]), 1)
    else (r, 0)
  }

  /** `updatePasswordById`: sets password and update time of that row. */
  function UpdatePasswordById(r: Repo, id: Option<Int64>, password: string, now: Timestamp): (res: (Repo, int))
    requires Valid(r)
    ensures Valid(res.0) && res.0.nextId == r.nextId && res.0.rows.Keys == r.rows.Keys
    ensures res.1 == (if id.Some? && id.value in r.rows then 1 else 0)
    ensures forall k :: k in r.rows && Some(k) != id ==> res.0.rows[k] == r.rows[k]
    ensures res.1 == 1 ==> res.0.rows[id.value] == r.rows[id.value].(password := Some(password), updateTime := Some(now))
  {
    if id.Some? && id.value in r.rows then
      var k := id.value;
      (r.(rows := r.rows[k := r.rows[k].(password := Some(password), updateTime := Some(now))]), 1)
    else (r, 0)
  }

  /** `updateStatusByIds`: sets status and update time of every row whose
      id is in the list and answers how many rows that is. */
  function UpdateStatusByIds(r: Repo, ids: seq<Int64>, status: Int32, now: Timestamp): (res: (Repo, int))
    requires Valid(r)
    ensures Valid(res.0) && res.0.nextId == r.nextId && res.0.rows.Keys == r.rows.Keys
    ensures res.1 == |set k | k in r.rows && k in ids|
    ensures forall k :: k in r.rows && k !in ids ==> res.0.rows[k] == r.rows[k]
    ensures forall k :: k in r.rows && k in ids ==>
              res.0.rows[k] == r.rows[k].(status := Some(status), updateTime := Some(now))
  {
    var rows := map k | k in r.rows :: if k in ids then r.rows[k].(status := Some(status), updateTime := Some(now)) else r.rows[k];
    (r.(rows := rows), |set k | k in r.rows && k in ids|)
  }

  /** `deleteByCreateTimeBefore`: removes exactly the rows created strictly
      before `t` and answers how many. */
  function DeleteByCreateTimeBefore(r: Repo, t: Timestamp): (res: (Repo, int))
    requires Valid(r)
    ensures Valid(res.0) && res.0.nextId == r.nextId
    ensures forall k :: k in res.0.rows <==> k in r.rows && !(r.rows[k].createTime.Some? && r.rows[k].createTime.value < t)
    ensures forall k :: k in res.0.rows ==> res.0.rows[k] == r.rows[k]
    ensures res.1 == |r.rows| - |res.0.rows|
  {
    var stale := KeysWhere(r.rows, (a: JavaAdmin) => a.createTime.Some? && a.createTime.value < t);
    var kept := map k | k in r.rows && k !in stale :: r.rows[k];
    assert kept.Keys == r.rows.Keys - stale;
    (r.(rows := kept), |stale|)
  }

  /** One `SUM(CASE WHEN ... THEN 1 ELSE 0 END)` column: NULL over an empty
      table, the number of matching rows otherwise. */
  function SumWhen(rows: Rows, p: JavaAdmin -> bool): (s: Option<int>)
    ensures s.None? <==> |rows| == 0
    ensures s.Some? ==> s.value == Count(rows, p)
  {
    if |rows| == 0 then None else Some(Count(rows, p))
  }

  predicate IsEnabled(a: JavaAdmin) { a.status == Some(ENABLED) }
  predicate IsDisabled(a: JavaAdmin) { a.status == Some(DISABLED) }
  predicate IsAdmin(a: JavaAdmin) { a.role == Some(ADMIN_ROLE) }
  predicate IsUser(a: JavaAdmin) { a.role == Some(USER_ROLE) }

  /** `getUserStatistics`: `[COUNT, #status = 1, #status = 0, #role = 'admin',
      #role = 'user']`, the four sums NULL over an empty table.  The
      `Object[]` answer is taken to be this one row, not an array that
      holds it. */
  function UserStatisticsRow(r: Repo): (row: seq<Option<int>>)
    ensures |row| == 5 && row[0] == Some(|r.rows|)
    ensures |r.rows| == 0 ==> forall i :: 1 <= i < 5 ==> row[i].None?
    ensures |r.rows| > 0 ==> forall i :: 1 <= i < 5 ==> row[i].Some? && 0 <= row[i].value <= |r.rows|
    ensures row[1].GetOr(0) == Count(r.rows, IsEnabled) && row[2].GetOr(0) == Count(r.rows, IsDisabled)
    ensures row[3].GetOr(0) == Count(r.rows, IsAdmin) && row[4].GetOr(0) == Count(r.rows, IsUser)
  {
    [Some(|r.rows|),
     SumWhen(r.rows, IsEnabled), SumWhen(r.rows, IsDisabled),
     SumWhen(r.rows, IsAdmin), SumWhen(r.rows, IsUser)]
  }

  /** Two counts over disjoint conditions add up to at most the table
      size. */
  lemma {:induction false} DisjointCountsBounded(rows: Rows, p: JavaAdmin -> bool, q: JavaAdmin -> bool)
    requires forall a :: !(p(a) && q(a))
    ensures Count(rows, p) + Count(rows, q) <= |rows|
  {
    var a := KeysWhere(rows, p);
    var b := KeysWhere(rows, q);
    assert a !! b;
    SubsetCardinality(a + b, rows.Keys);
  }

  /** Enabled plus disabled, and admins plus users, never exceed the total. */
  lemma StatisticsBounded(r: Repo)
    requires |r.rows| > 0
    ensures var row := UserStatisticsRow(r);
            row[1].value + row[2].value <= row[0].value && row[3].value + row[4].value <= row[0].value
  {
    DisjointCountsBounded(r.rows, IsEnabled, IsDisabled);
    DisjointCountsBounded(r.rows, IsAdmin, IsUser);
  }
}

=== FILE: java_numbers.dfy ===
/**
  Java integer types and the decimal conversions of `Integer`, `Long` and
  `Boolean` that the modelled services call.  Dafny integers are unbounded,
  so the 32- and 64-bit ranges are stated explicitly.
*/
module JavaNumbers {
  import opened Wrappers
  import opened JavaStrings

  const INT_MIN: int := -0x8000_0000
  const INT_MAX: int := 0x7FFF_FFFF
  const LONG_MIN: int := -0x8000_0000_0000_0000
  const LONG_MAX: int := 0x7FFF_FFFF_FFFF_FFFF

  predicate IsInt(x: int) {
    INT_MIN <= x <= INT_MAX
  }

  predicate IsLong(x: int) {
    LONG_MIN <= x <= LONG_MAX
  }

  /** A Java `int` value. */
  type Int32 = x: int | IsInt(x)

  /** A Java `long` value. */
  type Int64 = x: int | IsLong(x)

  /** Reinterprets an unbounded integer as a two's-complement `int`, the
      way Java arithmetic wraps on overflow. */
  function WrapInt(x: int): (r: Int32)
    ensures (r - x) % 0x1_0000_0000 == 0
    ensures IsInt(x) ==> r == x
  {
    var m := x % 0x1_0000_0000;
    if m <= INT_MAX then m else m - 0x1_0000_0000
  }

  function DigitChar(d: nat): (c: char)
    requires d < 10
    ensures IsAsciiDigit(c)
  {
    (48 + d) as char
  }

  function DigitValue(c: char): (d: nat)
    requires IsAsciiDigit(c)
    ensures d < 10 && DigitChar(d) == c
  {
    c as int - 48
  }

  /** Decimal digits of a natural number, without leading zeros. */
  function NatToString(n: nat): (s: string)
    ensures |s| >= 1
    ensures forall i :: 0 <= i < |s| ==> IsAsciiDigit(s[i])
    ensures |s| > 1 ==> s[0] != '0'
  {
    if n < 10 then [DigitChar(n)] else NatToString(n / 10) + [DigitChar(n % 10)]
  }

  /** `String.valueOf(int)` / `Integer.toString`, and the same for `long`. */
  function IntToString(x: int): (s: string)
    ensures |s| >= 1
    ensures forall i :: 0 <= i < |s| ==> IsAsciiDigit(s[i]) || (i == 0 && s[i] == '-')
    ensures (s[0] == '-') <==> x < 0
  {
    if x < 0 then "-" + NatToString(-x) else NatToString(x)
  }

  predicate AllDigits(s: string) {
    forall i :: 0 <= i < |s| ==> IsAsciiDigit(s[i])
  }

  /** The value of a string of decimal digits. */
  function DigitsValue(s: string): (n: nat)
    requires AllDigits(s)
  {
    if |s| == 0 then 0 else DigitsValue(s[..|s| - 1]) * 10 + DigitValue(s[|s| - 1])
  }

  lemma {:induction false} DigitsValueOfNatToString(n: nat)
    ensures DigitsValue(NatToString(n)) == n
  {
    var s := NatToString(n);
    if n >= 10 {
      DigitsValueOfNatToString(n / 10);
      assert s[..|s| - 1] == NatToString(n / 10);
    }
  }

  /** The parsing shared by `Integer.parseInt` and `Long.parseLong`: an
      optional `+` or `-`, then at least one decimal digit, with the value
      inside `[lo, hi]`; anything else is a `NumberFormatException`,
      modelled as `None`.  Only ASCII digits are accepted. */
  function ParseInteger(s: string, lo: int, hi: int): (r: Option<int>)
    ensures r.Some? ==> lo <= r.value <= hi
    ensures |s| == 0 ==> r.None?
  {
    if |s| == 0 then None
    else
      var negative := s[0] == '-';
      var body := if s[0] == '-' || s[0] == '+' then s[1..] else s;
      if |body| == 0 || !AllDigits(body) then None
      else
        var magnitude: int := DigitsValue(body);
        var v := if negative then -magnitude else magnitude;
        if lo <= v <= hi then Some(v) else None
  }

  /** `Integer.parseInt` / `Integer.valueOf(String)`. */
  function ParseInt(s: string): (r: Option<Int32>)
    ensures r.Some? ==> ParseInteger(s, INT_MIN, INT_MAX) == Some(r.value as int)
    ensures r.None? ==> ParseInteger(s, INT_MIN, INT_MAX).None?
  {
    match ParseInteger(s, INT_MIN, INT_MAX)
    case Some(v) => Some(v)
    case None => None
  }

  /** `Long.parseLong` / `Long.valueOf(String)`. */
  function ParseLong(s: string): (r: Option<Int64>)
    ensures r.Some? ==> ParseInteger(s, LONG_MIN, LONG_MAX) == Some(r.value as int)
    ensures r.None? ==> ParseInteger(s, LONG_MIN, LONG_MAX).None?
  {
    match ParseInteger(s, LONG_MIN, LONG_MAX)
    case Some(v) => Some(v)
    case None => None
  }

  /** Parsing the decimal text of a number gives the number back whenever it
      lies inside the accepted range, and fails otherwise. */
  lemma {:induction false} ParseIntegerOfIntToString(x: int, lo: int, hi: int)
    ensures ParseInteger(IntToString(x), lo, hi) == if lo <= x <= hi then Some(x) else None
  {
    var s := IntToString(x);
    if x < 0 {
      assert s[1..] == NatToString(-x);
      DigitsValueOfNatToString(-x);
    } else {
      assert IsAsciiDigit(s[0]);
      DigitsValueOfNatToString(x);
    }
  }

  /** `Integer.parseInt(String.valueOf(x)) == x` for every `int`. */
  lemma ParseIntRoundTrip(x: Int32)
    ensures ParseInt(IntToString(x)) == Some(x)
  {
    var n: int := x;
    ParseIntegerOfIntToString(n, INT_MIN, INT_MAX);
    assert IsInt(n);
  }

  /** `Long.parseLong(String.valueOf(x)) == x` for every `long`. */
  lemma ParseLongRoundTrip(x: Int64)
    ensures ParseLong(IntToString(x)) == Some(x)
  {
    var n: int := x;
    ParseIntegerOfIntToString(n, LONG_MIN, LONG_MAX);
    assert IsLong(n);
  }

  /** Distinct numbers have distinct decimal texts. */
  lemma IntToStringInjective(x: int, y: int)
    requires IntToString(x) == IntToString(y)
    ensures x == y
  {
    ParseIntegerOfIntToString(x, x, x);
    ParseIntegerOfIntToString(y, x, x);
  }

  /** `Boolean.valueOf(String)`: true exactly for "true" in any letter case;
      `null` and every other text give false. */
  function ParseBoolean(s: Option<string>): (b: bool)
    ensures b <==> s.Some? && |s.value| == 4 && forall i :: 0 <= i < 4 ==> LowerChar(s.value[i]) == "true"[i]
    ensures s == Some("true") || s == Some("TRUE") ==> b
  {
    s.Some? && EqualsIgnoreCase(s.value, "true")
  }
}

=== FILE: java_strings.dfy ===
/**
  The parts of `java.lang.String` (and of Spring's `StringUtils`) that the
  modelled services rely on, with Java's exact edge cases: `trim` strips
  control characters as well as spaces, `split` with a one-character
  pattern drops trailing empty pieces, `hasText` uses
  `Character.isWhitespace`.  Case mapping is ASCII only.
*/
module JavaStrings {

  // ---------------------------------------------------------------------
  // Character classes
  // ---------------------------------------------------------------------

  /** Characters removed by `String.trim()`: every code point up to U+0020. */
  predicate IsTrimmable(c: char) {
    c <= ' '
  }

  /** `Character.isWhitespace`: Unicode space separators except the no-break
      spaces U+00A0, U+2007 and U+202F, the line and paragraph separators,
      and the controls U+0009..U+000D and U+001C..U+001F. */
  predicate IsJavaWhitespace(c: char) {
    ('\U{0009}' <= c <= '\U{000D}') || ('\U{001C}' <= c <= '\U{0020}')
    || c == '\U{1680}' || ('\U{2000}' <= c <= '\U{2006}') || ('\U{2008}' <= c <= '\U{200A}')
    || c == '\U{2028}' || c == '\U{2029}' || c == '\U{205F}' || c == '\U{3000}'
  }

  /** The regular-expression class `\s`: `[ \t\n\x0B\f\r]`. */
  predicate IsRegexSpace(c: char) {
    c == ' ' || ('\U{0009}' <= c <= '\U{000D}')
  }

  predicate IsAsciiDigit(c: char) {
    '0' <= c <= '9'
  }

  function LowerChar(c: char): char {
    if 'A' <= c <= 'Z' then (c as int + 32) as char else c
  }

  function UpperChar(c: char): char {
    if 'a' <= c <= 'z' then (c as int - 32) as char else c
  }

  // ---------------------------------------------------------------------
  // trim / isBlank / hasText
  // ---------------------------------------------------------------------

  /** Drops the leading trimmable characters. */
  function TrimStart(s: string): (r: string)
    ensures |r| <= |s| && r == s[|s| - |r|..]
    ensures forall i :: 0 <= i < |s| - |r| ==> IsTrimmable(s[i])
    ensures |r| > 0 ==> !IsTrimmable(r[0])
  {
    if |s| > 0 && IsTrimmable(s[0]) then TrimStart(s[1..]) else s
  }

  /** Drops the trailing trimmable characters. */
  function TrimEnd(s: string): (r: string)
    ensures |r| <= |s| && r == s[..|r|]
    ensures forall i :: |r| <= i < |s| ==> IsTrimmable(s[i])
    ensures |r| > 0 ==> !IsTrimmable(r[|r| - 1])
  {
    if |s| > 0 && IsTrimmable(s[|s| - 1]) then TrimEnd(s[..|s| - 1]) else s
  }

  /** `String.trim()`. */
  function Trim(s: string): (r: string)
    ensures |r| <= |s|
    ensures |r| > 0 ==> !IsTrimmable(r[0]) && !IsTrimmable(r[|r| - 1])
  {
    TrimEnd(TrimStart(s))
  }

  /** `String.trim().isEmpty()`. */
  predicate IsBlank(s: string) {
    |Trim(s)| == 0
  }

  /** A string is blank exactly when every character is trimmable. */
  lemma {:induction false} BlankIffAllTrimmable(s: string)
    ensures IsBlank(s) <==> forall i :: 0 <= i < |s| ==> IsTrimmable(s[i])
  {
    var a := TrimStart(s);
    if |a| > 0 {
      assert !IsTrimmable(a[0]);
      assert |TrimEnd(a)| > 0;
      assert !IsTrimmable(s[|s| - |a|]);
    }
  }

  /** Trimming a string with no trimmable character at either end changes nothing. */
  lemma {:induction false} TrimOfTrimmed(s: string)
    requires |s| > 0 ==> !IsTrimmable(s[0]) && !IsTrimmable(s[|s| - 1])
    ensures Trim(s) == s
  {
  }

  /** Spring `StringUtils.hasText(String)`: non-null and some character is
      not `Character.isWhitespace`. */
  predicate HasText(s: string) {
    exists i :: 0 <= i < |s| && !IsJavaWhitespace(s[i])
  }

  // ---------------------------------------------------------------------
  // Searching
  // ---------------------------------------------------------------------

  predicate StartsWith(s: string, prefix: string) {
    |prefix| <= |s| && s[..|prefix|] == prefix
  }

  /** `String.contains`: `t` occurs at some offset of `s`. */
  predicate Contains(s: string, t: string)
    decreases |s|
  {
    StartsWith(s, t) || (|s| > 0 && Contains(s[1..], t))
  }

  /** `Contains` agrees with the definition by offsets. */
  lemma {:induction false} ContainsIffOccurs(s: string, t: string)
    ensures Contains(s, t) <==> exists k :: 0 <= k <= |s| - |t| && StartsWith(s[k..], t)
    decreases |s|
  {
    if StartsWith(s, t) {
      assert s[0..] == s;
    }
    if |s| > 0 {
      ContainsIffOccurs(s[1..], t);
      if Contains(s[1..], t) {
        var k :| 0 <= k <= |s| - 1 - |t| && StartsWith(s[1..][k..], t);
        assert s[1..][k..] == s[k + 1..];
      }
      if exists k :: 0 <= k <= |s| - |t| && StartsWith(s[k..], t) {
        var k :| 0 <= k <= |s| - |t| && StartsWith(s[k..], t);
        if k > 0 {
          assert s[1..][k - 1..] == s[k..];
        }
      }
    } else {
      if exists k :: 0 <= k <= |s| - |t| && StartsWith(s[k..], t) {
        var k :| 0 <= k <= |s| - |t| && StartsWith(s[k..], t);
        assert s[k..] == s;
      }
    }
  }

  /** A text that lacks the first character of `t` does not contain `t`. */
  lemma {:induction false} NotContainsWithoutFirstChar(s: string, t: string)
    requires |t| > 0 && t[0] !in s
    ensures !Contains(s, t)
    decreases |s|
  {
    if |s| > 0 {
      NotContainsWithoutFirstChar(s[1..], t);
    }
  }

  /** A one-character `contains` is sequence membership. */
  lemma {:induction false} ContainsCharIffIn(s: string, c: char)
    ensures Contains(s, [c]) <==> c in s
    decreases |s|
  {
    if |s| > 0 {
      ContainsCharIffIn(s[1..], c);
      assert s == [s[0]] + s[1..];
    }
  }

  // ---------------------------------------------------------------------
  // Transformations
  // ---------------------------------------------------------------------

  /** `String.toLowerCase()` restricted to ASCII letters. */
  function ToLower(s: string): (r: string)
    ensures |r| == |s|
    ensures forall i :: 0 <= i < |s| ==> r[i] == LowerChar(s[i])
  {
    seq(|s|, i requires 0 <= i < |s| => LowerChar(s[i]))
  }

  /** `String.toUpperCase()` restricted to ASCII letters. */
  function ToUpper(s: string): (r: string)
    ensures |r| == |s|
    ensures forall i :: 0 <= i < |s| ==> r[i] == UpperChar(s[i])
  {
    seq(|s|, i requires 0 <= i < |s| => UpperChar(s[i]))
  }

  /** `String.equalsIgnoreCase` for ASCII text. */
  predicate EqualsIgnoreCase(a: string, b: string) {
    ToLower(a) == ToLower(b)
  }

  /** `StringBuilder.reverse()` on text without surrogate pairs. */
  function Reverse(s: string): (r: string)
    ensures |r| == |s|
    ensures forall i :: 0 <= i < |s| ==> r[i] == s[|s| - 1 - i]
  {
    if |s| == 0 then "" else Reverse(s[1..]) + [s[0]]
  }

  /** `String.replace(target, replacement)`: every occurrence of a non-empty
      `target`, scanned left to right without overlap. */
  function Replace(s: string, target: string, replacement: string): (r: string)
    requires |target| > 0
    ensures !Contains(s, target) ==> r == s
    decreases |s|
  {
    if |s| < |target| then s
    else if s[..|target|] == target then replacement + Replace(s[|target|..], target, replacement)
    else [s[0]] + Replace(s[1..], target, replacement)
  }

  /** Removing `t` from `p + t`, when no occurrence of `t` starts inside `p`,
      leaves `p` followed by the replacement. */
  lemma {:induction false} ReplaceTrailingTarget(p: string, t: string, replacement: string)
    requires |t| > 0
    requires forall i :: 0 <= i < |p| ==> !StartsWith((p + t)[i..], t)
    ensures Replace(p + t, t, replacement) == p + replacement
    decreases |p|
  {
    var s := p + t;
    if |p| == 0 {
      assert s == t && s[..|t|] == t && s[|t|..] == [];
    } else {
      assert !StartsWith(s[0..], t);
      assert s[0..] == s && s[1..] == p[1..] + t;
      forall i | 0 <= i < |p[1..]|
        ensures !StartsWith((p[1..] + t)[i..], t)
      {
        assert (p[1..] + t)[i..] == s[i + 1..];
      }
      ReplaceTrailingTarget(p[1..], t, replacement);
      assert [p[0]] + (p[1..] + replacement) == p + replacement;
    }
  }

  // ---------------------------------------------------------------------
  // split
  // ---------------------------------------------------------------------

  /** All pieces of `s` between occurrences of `c`, empty pieces included. */
  function SplitAll(s: string, c: char): (r: seq<string>)
    ensures |r| >= 1
    ensures forall i :: 0 <= i < |r| ==> c !in r[i]
  {
    if |s| == 0 then [""]
    else
      var rest := SplitAll(s[1..], c);
      if s[0] == c then [""] + rest else [[s[0]] + rest[0]] + rest[1..]
  }

  /** Drops the empty pieces at the end, as `split` with limit 0 does. */
  function StripTrailingEmpty(parts: seq<string>): (r: seq<string>)
    ensures r <= parts
    ensures |r| > 0 ==> r[|r| - 1] != ""
    ensures forall i :: |r| <= i < |parts| ==> parts[i] == ""
  {
    if |parts| == 0 then []
    else if parts[|parts| - 1] == "" then StripTrailingEmpty(parts[..|parts| - 1])
    else parts
  }

  /** `String.split(String.valueOf(c))` for a character `c` that is not a
      regular-expression metacharacter (or is escaped): a string without
      `c` comes back whole, otherwise trailing empty pieces are removed. */
  function Split(s: string, c: char): (r: seq<string>)
    ensures forall i :: 0 <= i < |r| ==> c !in r[i]
    ensures c !in s ==> r == [s]
  {
    if c !in s then [s] else StripTrailingEmpty(SplitAll(s, c))
  }

  /** When `c` occurs in `s`, the first piece of `SplitAll` is the text
      before its first occurrence. */
  lemma {:induction false} SplitAllFirstPiece(s: string, c: char)
    requires c in s
    ensures var p := SplitAll(s, c)[0]; |p| < |s| && s[..|p|] == p && s[|p|] == c
  {
    if s[0] != c {
      var i :| 0 <= i < |s| && s[i] == c;
      assert s[1..][i - 1] == c;
      SplitAllFirstPiece(s[1..], c);
    }
  }

  /** Every piece of `SplitAll` is empty exactly when `s` is made of `c`
      alone. */
  lemma {:induction false} SplitAllAllEmpty(s: string, c: char)
    ensures (forall i :: 0 <= i < |s| ==> s[i] == c)
            <==> (forall k :: 0 <= k < |SplitAll(s, c)| ==> SplitAll(s, c)[k] == "")
  {
    if |s| > 0 {
      var rest := SplitAll(s[1..], c);
      SplitAllAllEmpty(s[1..], c);
      if s[0] == c {
        var all := SplitAll(s, c);
        assert all == [""] + rest;
        if forall k :: 0 <= k < |rest| ==> rest[k] == "" {
          forall k | 0 <= k < |all|
            ensures all[k] == ""
          {
            if k > 0 { assert all[k] == rest[k - 1]; }
          }
        }
        if forall k :: 0 <= k < |all| ==> all[k] == "" {
          forall k | 0 <= k < |rest|
            ensures rest[k] == ""
          {
            assert all[k + 1] == rest[k];
          }
        }
        assert (forall i :: 0 <= i < |s| ==> s[i] == c) <==> (forall i :: 0 <= i < |s[1..]| ==> s[1..][i] == c);
      } else {
        assert SplitAll(s, c)[0] != "";
      }
    }
  }

  /** `s.split(c)[0]`, when `c` occurs in `s`: the split is empty exactly
      when `s` is made of `c` alone, and otherwise its first piece is the
      text before the first `c`. */
  lemma SplitBeforeFirst(s: string, c: char)
    requires c in s
    ensures |Split(s, c)| == 0 <==> forall i :: 0 <= i < |s| ==> s[i] == c
    ensures |Split(s, c)| > 0 ==> var p := Split(s, c)[0]; |p| < |s| && s[..|p|] == p && s[|p|] == c
  {
    var parts := SplitAll(s, c);
    SplitAllAllEmpty(s, c);
    SplitAllFirstPiece(s, c);
    var r := Split(s, c);
    if |r| > 0 {
      assert r[0] == parts[0];
    }
  }

  /** Joins pieces with the separator `c` between consecutive ones. */
  function Join(parts: seq<string>, c: char): string
    requires |parts| >= 1
  {
    if |parts| == 1 then parts[0] else parts[0] + [c] + Join(parts[1..], c)
  }

  lemma {:induction false} SplitAllNoSeparator(s: string, c: char)
    requires c !in s
    ensures SplitAll(s, c) == [s]
  {
    if |s| > 0 {
      SplitAllNoSeparator(s[1..], c);
      assert [s[0]] + s[1..] == s;
    }
  }

  lemma {:induction false} SplitAllCons(a: string, b: string, c: char)
    requires c !in a
    ensures SplitAll(a + [c] + b, c) == [a] + SplitAll(b, c)
    decreases |a|
  {
    if |a| == 0 {
      assert a + [c] + b == [c] + b;
      assert ([c] + b)[1..] == b;
    } else {
      SplitAllCons(a[1..], b, c);
      assert (a + [c] + b)[1..] == a[1..] + [c] + b;
      assert [a[0]] + a[1..] == a;
    }
  }

  lemma {:induction false} SplitAllJoin(parts: seq<string>, c: char)
    requires |parts| >= 1
    requires forall i :: 0 <= i < |parts| ==> c !in parts[i]
    ensures SplitAll(Join(parts, c), c) == parts
  {
    if |parts| == 1 {
      SplitAllNoSeparator(parts[0], c);
    } else {
      SplitAllJoin(parts[1..], c);
      SplitAllCons(parts[0], Join(parts[1..], c), c);
      assert [parts[0]] + parts[1..] == parts;
    }
  }

  lemma {:induction false} JoinContainsSeparator(parts: seq<string>, c: char)
    requires |parts| >= 2
    ensures c in Join(parts, c)
  {
    assert Join(parts, c)[|parts[0]|] == c;
  }

  /** Splitting undoes joining, as long as no piece contains the separator
      and the last piece is not empty (otherwise `split` would drop it). */
  lemma {:induction false} SplitJoin(parts: seq<string>, c: char)
    requires |parts| >= 1
    requires forall i :: 0 <= i < |parts| ==> c !in parts[i]
    requires |parts| >= 2 ==> parts[|parts| - 1] != ""
    ensures Split(Join(parts, c), c) == parts
  {
    if |parts| == 1 {
      assert Join(parts, c) == parts[0];
    } else {
      JoinContainsSeparator(parts, c);
      SplitAllJoin(parts, c);
    }
  }

  /** The first piece of `split` is the text before the first separator,
      as long as something other than a separator follows it. */
  lemma {:induction false} SplitFirstPiece(a: string, c: char, rest: string)
    requires c !in a && |rest| > 0 && rest[0] != c
    ensures c in a + [c] + rest
    ensures |Split(a + [c] + rest, c)| >= 2 && Split(a + [c] + rest, c)[0] == a
  {
    assert (a + [c] + rest)[|a|] == c;
    SplitAllCons(a, rest, c);
    var all := SplitAll(a + [c] + rest, c);
    assert all[1] == SplitAll(rest, c)[0];
    assert SplitAll(rest, c)[0] != "" by {
      assert SplitAll(rest, c)[0] == [rest[0]] + SplitAll(rest[1..], c)[0];
    }
  }

  /** `split` of the empty string yields one empty piece, and of a string
      made only of separators yields no piece at all. */
  lemma {:induction false} SplitEdgeCases(c: char)
    ensures Split("", c) == [""]
    ensures Split([c], c) == []
  {
    assert SplitAll([c], c) == ["", ""];
  }

  // ---------------------------------------------------------------------
  // split("\\s+")
  // ---------------------------------------------------------------------

  /** Pieces of `s` between maximal runs of `\s`, empty pieces included
      (a leading run produces a leading empty piece). */
  function SplitSpaceRunsAll(s: string): (r: seq<string>)
    ensures |r| >= 1
    ensures forall i :: 0 <= i < |r| ==> forall j :: 0 <= j < |r[i]| ==> !IsRegexSpace(r[i][j])
    ensures forall i :: 1 <= i < |r| - 1 ==> r[i] != ""
  {
    if |s| == 0 then [""]
    else
      var rest := SplitSpaceRunsAll(s[1..]);
      if !IsRegexSpace(s[0]) then [[s[0]] + rest[0]] + rest[1..]
      else if rest[0] == "" && |rest| > 1 then rest
      else [""] + rest
  }

  /** `String.split("\\s+")`: a string without whitespace comes back whole,
      otherwise trailing empty pieces are removed. */
  function SplitSpaceRuns(s: string): (r: seq<string>)
    ensures forall i :: 0 <= i < |r| ==> forall j :: 0 <= j < |r[i]| ==> !IsRegexSpace(r[i][j])
  {
    if forall j :: 0 <= j < |s| ==> !IsRegexSpace(s[j]) then [s]
    else StripTrailingEmpty(SplitSpaceRunsAll(s))
  }

  /** The number of maximal runs of `\s` in `s`, counted at the run ends. */
  function SpaceRuns(s: string): nat {
    if |s| == 0 then 0
    else (if IsRegexSpace(s[0]) && (|s| == 1 || !IsRegexSpace(s[1])) then 1 else 0) + SpaceRuns(s[1..])
  }

  /** A string has no run of whitespace exactly when it has no whitespace. */
  lemma {:induction false} NoSpaceRuns(s: string)
    ensures SpaceRuns(s) == 0 <==> forall j :: 0 <= j < |s| ==> !IsRegexSpace(s[j])
  {
    if |s| > 0 {
      NoSpaceRuns(s[1..]);
      assert forall j :: 1 <= j < |s| ==> s[j] == s[1..][j - 1];
    }
  }

  /** Splitting at every run gives one piece more than there are runs; the
      first piece is empty exactly when the text starts with whitespace (or
      is empty), the last exactly when it ends with whitespace. */
  lemma {:induction false} SplitSpaceRunsAllShape(s: string)
    ensures |SplitSpaceRunsAll(s)| == SpaceRuns(s) + 1
    ensures SplitSpaceRunsAll(s)[0] == "" <==> |s| == 0 || IsRegexSpace(s[0])
    ensures SplitSpaceRunsAll(s)[|SplitSpaceRunsAll(s)| - 1] == "" <==> |s| == 0 || IsRegexSpace(s[|s| - 1])
  {
    if |s| > 0 {
      var tail := s[1..];
      var rest := SplitSpaceRunsAll(tail);
      SplitSpaceRunsAllShape(tail);
      if |tail| > 0 {
        assert tail[0] == s[1] && tail[|tail| - 1] == s[|s| - 1];
      }
      if |rest| == 1 {
        NoSpaceRuns(tail);
        if |tail| > 0 {
          assert !IsRegexSpace(tail[0]) && !IsRegexSpace(tail[|tail| - 1]);
        }
      }
      if |tail| > 0 && IsRegexSpace(tail[0]) {
        NoSpaceRuns(tail);
        assert |rest| > 1;
      }
    }
  }

  /** For text that neither starts nor ends with whitespace, `split("\\s+")`
      gives the words: one non-empty piece more than there are runs of
      whitespace. */
  lemma WordsOfTrimmedText(s: string)
    requires |s| > 0 && !IsRegexSpace(s[0]) && !IsRegexSpace(s[|s| - 1])
    ensures |SplitSpaceRuns(s)| == SpaceRuns(s) + 1
    ensures forall i :: 0 <= i < |SplitSpaceRuns(s)| ==> SplitSpaceRuns(s)[i] != ""
  {
    NoSpaceRuns(s);
    if SpaceRuns(s) > 0 {
      var all := SplitSpaceRunsAll(s);
      SplitSpaceRunsAllShape(s);
      assert all[|all| - 1] != "";
      assert StripTrailingEmpty(all) == all;
      assert SplitSpaceRuns(s) == all;
      forall i | 0 <= i < |all|
        ensures all[i] != ""
      {
        if i == 0 {
          assert all[0] != "";
        }
      }
    }
  }

  /** Text made only of whitespace splits into no pieces at all. */
  lemma {:induction false} AllSpaceSplitsToNothing(s: string)
    requires |s| > 0 && forall j :: 0 <= j < |s| ==> IsRegexSpace(s[j])
    ensures SplitSpaceRuns(s) == []
  {
    var all := SplitSpaceRunsAll(s);
    SplitSpaceRunsAllShape(s);
    assert SpaceRuns(s) == 1 by { SingleSpaceRun(s); }
    assert all == ["", ""];
    assert !IsRegexSpace(s[0]) == false;
    assert StripTrailingEmpty(["", ""]) == StripTrailingEmpty([""]) == [];
  }

  /** Whitespace-only text is a single run. */
  lemma {:induction false} SingleSpaceRun(s: string)
    requires |s| > 0 && forall j :: 0 <= j < |s| ==> IsRegexSpace(s[j])
    ensures SpaceRuns(s) == 1
  {
    if |s| > 1 {
      SingleSpaceRun(s[1..]);
    }
  }
}

=== FILE: legacy_config_service.dfy ===
/**
  The older `DatabaseConfigService`, which keeps the data-source settings
  as `spring.datasource.*` properties of the Spring environment.  The
  environment is a base property map with at most one "dynamicDataSource"
  layer in front of it: `addFirst` of a source with the same name replaces
  the previous layer, and a `null` value in the layer falls through to the
  base, as Spring's property resolver skips `null` values.
*/
module LegacyConfigService {
  import opened Wrappers
  import opened JavaStrings
  import DatabaseConfigModel

  const URL_KEY: string := "spring.datasource.url"
  const USERNAME_KEY: string := "spring.datasource.username"
  const PASSWORD_KEY: string := "spring.datasource.password"
  const DRIVER_KEY: string := "spring.datasource.driver-class-name"
  const MYSQL_DRIVER: string := "com.mysql.cj.jdbc.Driver"
  const DEFAULT_PORT: string := "3306"
  const MASKED_PASSWORD: string := "******"

  /** The query string of a URL built here: the scaffold's query without
      `allowPublicKeyRetrieval`. */
  const LEGACY_QUERY: string := DatabaseConfigModel.QUERY_HEAD + "/" + "Shanghai"

  /** A `Map<String, String>` whose values may be `null`. */
  type NullableMap = map<string, Option<string>>

  datatype Environment = Environment(base: map<string, string>, dynamic: Option<NullableMap>)

  /** `environment.getProperty(key)`: the dynamic layer's non-null value,
      else the base value, else `null`. */
  function GetProperty(env: Environment, key: string): (r: Option<string>)
    ensures env.dynamic.Some? && key in env.dynamic.value && env.dynamic.value[key].Some?
            ==> r == env.dynamic.value[key]
    ensures r.None? <==> key !in env.base && !(env.dynamic.Some? && key in env.dynamic.value && env.dynamic.value[key].Some?)
  {
    if env.dynamic.Some? && key in env.dynamic.value && env.dynamic.value[key].Some? then env.dynamic.value[key]
    else if key in env.base then Some(env.base[key])
    else None
  }

  /** `Map.get`: `null` for an absent key or a `null` value. */
  function Get(m: NullableMap, key: string): Option<string> {
    if key in m then m[key] else None
  }

  /** `Map.getOrDefault`: the default only for an ABSENT key; a key mapped
      to `null` gives `null`. */
  function GetOrDefault(m: NullableMap, key: string, default: string): (r: Option<string>)
    ensures key !in m ==> r == Some(default)
    ensures key in m ==> r == m[key]
  {
    if key in m then m[key] else Some(default)
  }

  /** `String.format("%s", s)`. */
  function FormatText(s: Option<string>): string {
    if s.Some? then s.value else "null"
  }

  datatype LegacyService = LegacyService(env: Environment, currentConfig: NullableMap,
                                         dynamicDataSource: Option<map<string, Option<string>>>)

  /** The URL `updateConfig` stores: the given one when it is non-empty;
      otherwise one built from host, port (default "3306") and database
      when host and database are present; otherwise the given (null or
      empty) one unchanged. */
  function UrlToStore(data: NullableMap): (url: Option<string>)
    ensures Get(data, "url").Some? && Get(data, "url").value != "" ==> url == Get(data, "url")
    ensures url.Some? && url != Get(data, "url") ==> StartsWith(url.value, DatabaseConfigModel.JDBC_PREFIX)
  {
    var url := Get(data, "url");
    if url.Some? && url.value != "" then url
    else
      var host := Get(data, "host");
      var port := GetOrDefault(data, "port", DEFAULT_PORT);
      var database := Get(data, "database");
      if host.Some? && database.Some? then
        var built := DatabaseConfigModel.JDBC_PREFIX + (host.value + ":" + FormatText(port)) + "/" + database.value + LEGACY_QUERY;
        assert built == DatabaseConfigModel.JDBC_PREFIX + ((host.value + ":" + FormatText(port)) + "/" + database.value + LEGACY_QUERY);
        assert built[..|DatabaseConfigModel.JDBC_PREFIX|] == DatabaseConfigModel.JDBC_PREFIX;
        Some(built)
      else url
  }

  /** `updateConfig`: a `null` map fails (the `NullPointerException` is
      caught); any other map is accepted without validation.  The four
      `spring.datasource.*` properties become the new dynamic layer and
      the stored configuration is replaced wholesale. */
  function UpdateConfig(s: LegacyService, configData: Option<NullableMap>): (r: (LegacyService, bool))
    ensures configData.None? ==> r == (s, false)
    ensures configData.Some? ==> r.1
    ensures configData.Some? ==>
              r.0.env.base == s.env.base && r.0.env.dynamic.Some?
              && r.0.env.dynamic.value.Keys == {URL_KEY, USERNAME_KEY, PASSWORD_KEY, DRIVER_KEY}
              && r.0.env.dynamic.value[URL_KEY] == UrlToStore(configData.value)
              && r.0.env.dynamic.value[USERNAME_KEY] == Get(configData.value, "username")
              && r.0.env.dynamic.value[PASSWORD_KEY] == Get(configData.value, "password")
              && r.0.env.dynamic.value[DRIVER_KEY] == GetOrDefault(configData.value, "driverClassName", MYSQL_DRIVER)
    ensures configData.Some? ==> r.0.currentConfig.Keys == {"url", "username", "password", "driverClassName"}
    ensures r.0.dynamicDataSource == s.dynamicDataSource
  {
    if configData.None? then (s, false)
    else
      var data := configData.value;
      var url := UrlToStore(data);
      var username := Get(data, "username");
      var password := Get(data, "password");
      var driver := GetOrDefault(data, "driverClassName", MYSQL_DRIVER);
      var props := map[URL_KEY := url, USERNAME_KEY := username, PASSWORD_KEY := password, DRIVER_KEY := driver];
      var current := map["url" := url, "username" := username, "password" := password, "driverClassName" := driver];
      (s.(env := s.env.(dynamic := Some(props)), currentConfig := current), true)
  }

  /** The host, port and database keys `getCurrentConfig` adds for a URL
      with more than three `/`-pieces: the third piece split at `:` gives
      host and port ("3306" without a second piece), the fourth before its
      first `?` gives the database.  An index exception part-way (a third
      piece of only colons, a fourth of only question marks) is caught, and
      the keys put before it stay. */
  function UrlDetails(config: map<string, string>, url: string): (r: map<string, string>)
    ensures config.Keys <= r.Keys
    ensures forall k :: k in config && k !in {"host", "port", "database"} ==> r[k] == config[k]
    ensures |Split(url, '/')| <= 3 ==> r == config
  {
    var parts := Split(url, '/');
    if |parts| <= 3 then config
    else
      var hostPort := Split(parts[2], ':');
      if |hostPort| == 0 then config
      else
        var withHost := config["host" := hostPort[0]]["port" := if |hostPort| > 1 then hostPort[1] else DEFAULT_PORT];
        var dbPart := parts[3];
        if '?' in dbPart then
          var pieces := Split(dbPart, '?');
          if |pieces| == 0 then withHost else withHost["database" := pieces[0]]
        else withHost["database" := dbPart]
  }

  /** `getCurrentConfig`: URL, user and driver from the environment (with
      defaults "", "" and the MySQL driver), the password always masked,
      and the details read from a non-empty URL. */
  function GetCurrentConfig(env: Environment): (r: map<string, string>)
    ensures {"url", "username", "password", "driverClassName"} <= r.Keys
    ensures r["password"] == MASKED_PASSWORD
    ensures r["url"] == GetProperty(env, URL_KEY).GetOr("")
    ensures r["username"] == GetProperty(env, USERNAME_KEY).GetOr("")
    ensures r["driverClassName"] == GetProperty(env, DRIVER_KEY).GetOr(MYSQL_DRIVER)
    ensures r["url"] == "" ==> r.Keys == {"url", "username", "password", "driverClassName"}
  {
    var url := GetProperty(env, URL_KEY).GetOr("");
    var config := map["url" := url, "username" := GetProperty(env, USERNAME_KEY).GetOr(""),
                      "password" := MASKED_PASSWORD,
                      "driverClassName" := GetProperty(env, DRIVER_KEY).GetOr(MYSQL_DRIVER)];
    if url == "" then config else UrlDetails(config, url)
  }

  /** The stored URL and user name the connection test and the reload
      both insist on. */
  predicate HasUrlAndUser(env: Environment) {
    GetProperty(env, URL_KEY).Some? && GetProperty(env, USERNAME_KEY).Some?
  }

  /** The settings a data source is built from, as `testConnection()` and
      `reloadDataSource` read them. */
  function StoredSettings(env: Environment): map<string, Option<string>> {
    map["url" := GetProperty(env, URL_KEY), "username" := GetProperty(env, USERNAME_KEY),
        "password" := GetProperty(env, PASSWORD_KEY), "driverClassName" := GetProperty(env, DRIVER_KEY)]
  }

  /** `testConnection()`: false without connecting when URL or user is
      missing, otherwise the connection attempt (`connect`) decides. */
  function TestConnection(env: Environment, connect: NullableMap -> bool): (ok: bool)
    ensures !HasUrlAndUser(env) ==> !ok
    ensures HasUrlAndUser(env) ==> (ok <==> connect(StoredSettings(env)))
  {
    HasUrlAndUser(env) && connect(StoredSettings(env))
  }

  /** `reloadDataSource`: false with the data source untouched when URL or
      user is missing or when building throws (`build` answers false);
      otherwise the data source is rebuilt from the stored settings. */
  function ReloadDataSource(s: LegacyService, build: NullableMap -> bool): (r: (LegacyService, bool))
    ensures !r.1 ==> r.0 == s
    ensures r.1 <==> HasUrlAndUser(s.env) && build(StoredSettings(s.env))
    ensures r.1 ==> r.0 == s.(dynamicDataSource := Some(StoredSettings(s.env)))
  {
    if !HasUrlAndUser(s.env) || !build(StoredSettings(s.env)) then (s, false)
    else (s.(dynamicDataSource := Some(StoredSettings(s.env))), true)
  }

  // ---------------------------------------------------------------------
  // Round trip
  // ---------------------------------------------------------------------

  lemma JoinCons(a: string, rest: seq<string>, c: char)
    requires |rest| >= 1
    ensures Join([a] + rest, c) == a + [c] + Join(rest, c)
  {
    assert ([a] + rest)[1..] == rest;
  }

  /** A legacy URL is five `/`-pieces: "jdbc:mysql:", an empty piece,
      host-and-port, database-and-query, and "Shanghai". */
  lemma {:induction false} LegacyUrlShape(hp: string, d: string)
    ensures DatabaseConfigModel.JDBC_PREFIX + hp + "/" + d + LEGACY_QUERY
            == Join(["jdbc:mysql:", "", hp, d + DatabaseConfigModel.QUERY_HEAD, "Shanghai"], '/')
  {
    var qh := DatabaseConfigModel.QUERY_HEAD;
    assert DatabaseConfigModel.JDBC_PREFIX == "jdbc:mysql:" + "/" + "" + "/";
    JoinCons("jdbc:mysql:", ["", hp, d + qh, "Shanghai"], '/');
    assert ["", hp, d + qh, "Shanghai"] == [""] + [hp, d + qh, "Shanghai"];
    JoinCons("", [hp, d + qh, "Shanghai"], '/');
    assert [hp, d + qh, "Shanghai"] == [hp] + [d + qh, "Shanghai"];
    JoinCons(hp, [d + qh, "Shanghai"], '/');
    assert [d + qh, "Shanghai"] == [d + qh] + ["Shanghai"];
    JoinCons(d + qh, ["Shanghai"], '/');
    assert Join(["Shanghai"], '/') == "Shanghai";
    assert LEGACY_QUERY == qh + "/" + "Shanghai";
  }

  /** The database piece of a legacy URL gives back the database name. */
  lemma {:induction false} LegacyDatabasePart(d: string)
    requires '?' !in d
    ensures '?' in d + DatabaseConfigModel.QUERY_HEAD
    ensures |Split(d + DatabaseConfigModel.QUERY_HEAD, '?')| > 0
    ensures Split(d + DatabaseConfigModel.QUERY_HEAD, '?')[0] == d
  {
    DatabaseConfigModel.DatabasePartSplit(d);
  }

  /** The details read from a legacy URL are the host, port and database
      it was built from. */
  lemma {:induction false} UrlDetailsOfLegacyUrl(config: map<string, string>, h: string, p: string, d: string)
    requires '/' !in h && ':' !in h && '/' !in p && ':' !in p && p != "" && '/' !in d && '?' !in d
    ensures var r := UrlDetails(config, DatabaseConfigModel.JDBC_PREFIX + (h + ":" + p) + "/" + d + LEGACY_QUERY);
            "host" in r && "port" in r && "database" in r && r["host"] == h && r["port"] == p && r["database"] == d
  {
    var hp := h + ":" + p;
    var qh := DatabaseConfigModel.QUERY_HEAD;
    var parts := ["jdbc:mysql:", "", hp, d + qh, "Shanghai"];
    LegacyUrlShape(hp, d);
    DatabaseConfigModel.QueryHalvesHaveNoSlash();
    assert '/' !in "jdbc:mysql:" && '/' !in "Shanghai";
    assert '/' !in hp && '/' !in d + qh;
    assert forall i :: 0 <= i < |parts| ==> '/' !in parts[i];
    SplitJoin(parts, '/');
    assert Join([h, p], ':') == hp;
    SplitJoin([h, p], ':');
    LegacyDatabasePart(d);
  }

  /** After `updateConfig` with host, port and database but no URL, the
      environment's URL is the one built from them. */
  lemma StoredUrlAfterUpdate(s: LegacyService, data: NullableMap, h: string, p: string, d: string)
    requires "url" !in data && Get(data, "host") == Some(h) && Get(data, "port") == Some(p)
    requires Get(data, "database") == Some(d)
    ensures GetProperty(UpdateConfig(s, Some(data)).0.env, URL_KEY)
            == Some(DatabaseConfigModel.JDBC_PREFIX + (h + ":" + p) + "/" + d + LEGACY_QUERY)
  {
    assert GetOrDefault(data, "port", DEFAULT_PORT) == Some(p);
  }

  /** After `updateConfig` with host, port and database but no URL,
      `getCurrentConfig` reports the same host, port and database, as long
      as none of them holds a `/`, the host and port no `:`, the database
      no `?`, and the port is not empty. */
  lemma {:induction false} UpdateThenReadRoundTrip(s: LegacyService, data: NullableMap, h: string, p: string, d: string)
    requires "url" !in data && Get(data, "host") == Some(h) && Get(data, "port") == Some(p)
    requires Get(data, "database") == Some(d)
    requires '/' !in h && ':' !in h && '/' !in p && ':' !in p && p != "" && '/' !in d && '?' !in d
    ensures var config := GetCurrentConfig(UpdateConfig(s, Some(data)).0.env);
            "host" in config && "port" in config && "database" in config
            && config["host"] == h && config["port"] == p && config["database"] == d
  {
    var env := UpdateConfig(s, Some(data)).0.env;
    var url := DatabaseConfigModel.JDBC_PREFIX + (h + ":" + p) + "/" + d + LEGACY_QUERY;
    StoredUrlAfterUpdate(s, data, h, p, d);
    assert url != "" by { assert |url| >= |DatabaseConfigModel.JDBC_PREFIX| > 0; }
    var config := map["url" := url, "username" := GetProperty(env, USERNAME_KEY).GetOr(""),
                      "password" := MASKED_PASSWORD,
                      "driverClassName" := GetProperty(env, DRIVER_KEY).GetOr(MYSQL_DRIVER)];
    assert GetCurrentConfig(env) == UrlDetails(config, url);
    UrlDetailsOfLegacyUrl(config, h, p, d);
  }
}

=== FILE: plugin_method_controller.dfy ===
/**
  `PluginMethodController`: wraps `PluginMethodService` in HTTP responses.
  Every outcome, failures included, is answered with HTTP 200; a failure
  is an error envelope whose message carries the exception's message.
  The success data is built with `Map.of`, which rejects a null value, so a
  method that ran but returned null (a `void` method, say) is reported as
  a failure with message "null".
*/
module PluginMethodController {
  import opened Wrappers
  import opened Values
  import opened PluginModel
  import opened Responses
  import PluginMethodService

  /** An HTTP answer: status code and body. */
  datatype Http<T> = Http(status: int, body: T)

  const EXECUTE_FAILED_PREFIX: string := "插件方法执行失败: "
  const LIST_FAILED_PREFIX: string := "获取插件方法列表失败: "

  /** `Map.of(k1, v1, ...)`: throws a `NullPointerException` (without a
      message) when a value is null. */
  function MapOf(entries: seq<(string, Value)>): (r: Result<Value, Exception>)
    ensures r.Ok? <==> forall i :: 0 <= i < |entries| ==> !entries[i].1.Null?
    ensures r.Ok? ==> r.value == Obj(entries)
    ensures r.Err? ==> r.error == Exception(NullPointer, None)
  {
    if forall i :: 0 <= i < |entries| ==> !entries[i].1.Null? then Ok(Obj(entries))
    else Err(Exception(NullPointer, None))
  }

  /** The envelope built from a call's data, or from the exception that
      escaped the `try`. */
  function Envelope(data: Result<Value, Exception>, prefix: string): (r: Http<ApiResponse<Value>>)
    ensures r.status == 200
    ensures data.Ok? ==> r.body == SuccessWith(Some(data.value))
    ensures data.Err? ==> r.body == Error(Some(prefix + MessageText(data.error)))
  {
    match data
    case Ok(d) => Http(200, SuccessWith(Some(d)))
    case Err(e) => Http(200, Error(Some(prefix + MessageText(e))))
  }

  /** The data map of a successful call: plugin, method and result. */
  function ExecutionData(pluginName: string, methodName: string, result: Result<Value, Exception>): (r: Result<Value, Exception>)
    ensures r.Ok? <==> result.Ok? && !result.value.Null?
    ensures r.Ok? ==> r.value == Obj([("plugin", Str(pluginName)), ("method", Str(methodName)), ("result", result.value)])
    ensures result.Err? ==> r == result
  {
    match result
    case Err(e) => Err(e)
    case Ok(v) =>
      var entries := [("plugin", Str(pluginName)), ("method", Str(methodName)), ("result", v)];
      assert entries[2].1 == v;
      MapOf(entries)
  }

  /** POST `/api/plugins/method/{pluginName}/{methodName}` with an optional
      JSON body as the parameters. */
  function ExecutePluginMethod(plugins: seq<PluginExt>, all: seq<Extension>, pluginName: string, methodName: string,
                               params: Option<JMap>,
                               invoke: (Extension, Method, seq<Value>) -> Outcome,
                               doubleValueOf: string -> Option<string>): (r: Http<ApiResponse<Value>>)
    ensures r.status == 200
    ensures var call := PluginMethodService.ExecuteMethod(plugins, all, pluginName, methodName, params, invoke, doubleValueOf);
            && (call.Ok? && !call.value.Null? ==>
                  r.body == SuccessWith(Some(Obj([("plugin", Str(pluginName)), ("method", Str(methodName)), ("result", call.value)]))))
            && (call.Err? ==> r.body == Error(Some(EXECUTE_FAILED_PREFIX + MessageText(call.error))))
            && (call == Ok(Null) ==> r.body == Error(Some(EXECUTE_FAILED_PREFIX + "null")))
  {
    var call := PluginMethodService.ExecuteMethod(plugins, all, pluginName, methodName, params, invoke, doubleValueOf);
    Envelope(ExecutionData(pluginName, methodName, call), EXECUTE_FAILED_PREFIX)
  }

  /** GET `/api/plugins/method/{pluginName}/{methodName}`: the POST handler
      with no body. */
  function ExecutePluginMethodGet(plugins: seq<PluginExt>, all: seq<Extension>, pluginName: string, methodName: string,
                                  invoke: (Extension, Method, seq<Value>) -> Outcome,
                                  doubleValueOf: string -> Option<string>): (r: Http<ApiResponse<Value>>)
    ensures r == ExecutePluginMethod(plugins, all, pluginName, methodName, None, invoke, doubleValueOf)
  {
    var call := PluginMethodService.ExecuteMethod(plugins, all, pluginName, methodName, None, invoke, doubleValueOf);
    Envelope(ExecutionData(pluginName, methodName, call), EXECUTE_FAILED_PREFIX)
  }

  /** A method that ran and threw and a method that ran and returned null
      produce the same answer: the plugin's exception message is lost in
      the `InvocationTargetException`, and the null result fails `Map.of`. */
  lemma ThrowingAndVoidMethodsLookAlike(e: Extension, m: Method, args: seq<Value>, ex: Exception,
                                        plugins: seq<PluginExt>, all: seq<Extension>, pluginName: string, methodName: string,
                                        params: Option<JMap>, doubleValueOf: string -> Option<string>)
    ensures
      var throwing := (x: Extension, y: Method, a: seq<Value>) => Threw(ex);
      var returningNull := (x: Extension, y: Method, a: seq<Value>) => Returned(Null);
      var viaThrow := PluginMethodService.ExecuteMethod(plugins, all, pluginName, methodName, params, throwing, doubleValueOf);
      var viaNull := PluginMethodService.ExecuteMethod(plugins, all, pluginName, methodName, params, returningNull, doubleValueOf);
      (viaThrow.Err? && viaThrow.error.kind == InvocationTarget) ==>
        ExecutePluginMethod(plugins, all, pluginName, methodName, params, throwing, doubleValueOf)
        == ExecutePluginMethod(plugins, all, pluginName, methodName, params, returningNull, doubleValueOf)
  {
  }

  /** GET `/api/plugins/method/{pluginName}/methods`. */
  function GetPluginMethods(plugins: seq<PluginExt>, all: seq<Extension>, pluginName: string): (r: Http<ApiResponse<Value>>)
    ensures r.status == 200
    ensures var listing := PluginMethodService.GetPluginMethods(plugins, all, pluginName);
            && (listing.Ok? ==> r.body == SuccessWith(Some(Obj([("plugin", Str(pluginName)), ("methods", listing.value)]))))
            && (listing.Err? ==> r.body == Error(Some(LIST_FAILED_PREFIX + MessageText(listing.error))))
  {
    var listing := PluginMethodService.GetPluginMethods(plugins, all, pluginName);
    var data := match listing
                case Err(e) => Err(e)
                case Ok(methods) => MapOf([("plugin", Str(pluginName)), ("methods", methods)]);
    Envelope(data, LIST_FAILED_PREFIX)
  }
}

=== FILE: plugin_method_service.dfy ===
/**
  `PluginMethodService`: calls an arbitrary public method of a plugin by
  name.  It resolves the extension instance from a loosely matched name,
  picks an overload by name and argument count, binds request parameters
  to the method's formal parameters (by name, then by position key
  "argN", else the type's default), converts them, and invokes the method.
  The invoked method's behaviour and `Double.valueOf` are parameters.
*/
module PluginMethodService {
  import opened Wrappers
  import opened JavaStrings
  import opened JavaNumbers
  import opened Values
  import opened PluginModel

  // ---------------------------------------------------------------------
  // Instance lookup
  // ---------------------------------------------------------------------

  /** The lower-cased simple class name with "plugin" and then "extension"
      removed, as the first lookup stage compares it. */
  function PluginStyleName(simpleName: string): string {
    Replace(Replace(ToLower(simpleName), "plugin", ""), "extension", "")
  }

  /** The same normalisation in the opposite order, used by the second stage. */
  function ExtensionStyleName(simpleName: string): string {
    Replace(Replace(ToLower(simpleName), "extension", ""), "plugin", "")
  }

  /** First stage: the exact plugin name, or the normalised class name
      compared with the raw (not lower-cased) requested name. */
  predicate MatchesPlugin(p: PluginExt, name: string) {
    name == NameOf(p) || name == PluginStyleName(p.simpleName)
  }

  /** Second stage: the lower-cased class name contains the lower-cased
      requested name, or equals it once normalised. */
  predicate MatchesExtension(e: Extension, name: string) {
    Contains(ToLower(e.simpleName), ToLower(name)) || ExtensionStyleName(e.simpleName) == ToLower(name)
  }

  /** `getPluginInstance`: the first `PluginInterface` extension matching
      the first stage; only when none does, the first extension of any kind
      matching the second stage; otherwise null. */
  function GetPluginInstance(plugins: seq<PluginExt>, all: seq<Extension>, name: string): (r: Option<Extension>)
    ensures r.None? <==> (forall i :: 0 <= i < |plugins| ==> !MatchesPlugin(plugins[i], name))
                         && (forall i :: 0 <= i < |all| ==> !MatchesExtension(all[i], name))
    ensures (exists i :: 0 <= i < |plugins| && MatchesPlugin(plugins[i], name)) ==>
              exists k :: 0 <= k < |plugins| && r == Some(plugins[k]) && MatchesPlugin(plugins[k], name)
                          && forall j :: 0 <= j < k ==> !MatchesPlugin(plugins[j], name)
    ensures (forall i :: 0 <= i < |plugins| ==> !MatchesPlugin(plugins[i], name)) && r.Some? ==>
              exists k :: 0 <= k < |all| && r == Some(all[k]) && MatchesExtension(all[k], name)
                          && forall j :: 0 <= j < k ==> !MatchesExtension(all[j], name)
  {
    match FindFirst(plugins, (p: PluginExt) => MatchesPlugin(p, name))
    case Some(k) => Some(plugins[k])
    case None =>
      match FindFirst(all, (e: Extension) => MatchesExtension(e, name))
      case Some(k) => Some(all[k])
      case None => None
  }

  lemma {:induction false} ContainsEmpty(s: string)
    ensures Contains(s, "")
  {
    assert StartsWith(s, "");
  }

  /** When no plugin matches the empty name by the first stage, the empty
      name selects the first extension of all, because every class name
      contains the empty string. */
  lemma EmptyNameSelectsFirstExtension(plugins: seq<PluginExt>, all: seq<Extension>)
    requires |all| > 0
    requires forall i :: 0 <= i < |plugins| ==> !MatchesPlugin(plugins[i], "")
    ensures GetPluginInstance(plugins, all, "") == Some(all[0])
  {
    ContainsEmpty(ToLower(all[0].simpleName));
    assert MatchesExtension(all[0], "");
  }

  lemma LowerHelloExtension()
    ensures ToLower("HelloExtension") == "helloextension"
    ensures ToLower("Hello") == "hello"
  {
  }

  lemma {:induction false} NoPluginInHelloExtension()
    ensures !Contains("helloextension", "plugin")
  {
    NotContainsWithoutFirstChar("helloextension", "plugin");
  }

  lemma {:induction false} StripExtensionFromHello(s: string)
    requires s == "helloextension"
    ensures Replace(s, "extension", "") == "hello"
  {
    var t := "extension";
    forall i | 0 <= i < 5
      ensures !StartsWith(("hello" + t)[i..], t)
    {
      if i == 1 {
        assert ("hello" + t)[i..][1] != t[1];
      } else {
        assert ("hello" + t)[i..][0] != t[0];
      }
    }
    ReplaceTrailingTarget("hello", t, "");
    assert s == "hello" + t;
  }

  /** The first stage compares the normalised class name with the name as
      given, so "hello" finds `HelloExtension` there, while "Hello" only
      finds it in the second stage, through the lower-cased containment test. */
  lemma HelloExtensionLookup(info: PluginInfo, methods: seq<Method>)
    requires info.name != "hello" && info.name != "Hello"
    ensures var e: PluginExt := Extension("HelloExtension", Some(info), methods);
            && MatchesPlugin(e, "hello")
            && !MatchesPlugin(e, "Hello")
            && MatchesExtension(e, "Hello")
  {
    var e: PluginExt := Extension("HelloExtension", Some(info), methods);
    assert PluginStyleName("HelloExtension") == "hello" by {
      LowerHelloExtension();
      NoPluginInHelloExtension();
      StripExtensionFromHello("helloextension");
    }
    assert MatchesExtension(e, "Hello") by {
      LowerHelloExtension();
      assert StartsWith("helloextension", "hello");
    }
  }

  // ---------------------------------------------------------------------
  // Overload selection
  // ---------------------------------------------------------------------

  /** A request without parameters: a null or empty body. */
  predicate NoParams(params: Option<JMap>) {
    params.None? || |params.value| == 0
  }

  /** The exact-match rule: same name, and no formal parameters when there
      are no request parameters, otherwise as many formal parameters as
      request parameters. */
  predicate ExactMatch(m: Method, name: string, params: Option<JMap>) {
    m.name == name && |m.params| == (if NoParams(params) then 0 else |params.value|)
  }

  /** `findMethod`: the first exact match; failing that, the first method
      of that name whatever its arity; null only when no method has the name. */
  function FindMethod(methods: seq<Method>, name: string, params: Option<JMap>): (r: Option<Method>)
    ensures r.None? <==> forall i :: 0 <= i < |methods| ==> methods[i].name != name
    ensures r.Some? ==> r.value.name == name && r.value in methods
    ensures (exists i :: 0 <= i < |methods| && ExactMatch(methods[i], name, params)) ==>
              exists k :: 0 <= k < |methods| && r == Some(methods[k]) && ExactMatch(methods[k], name, params)
                          && forall j :: 0 <= j < k ==> !ExactMatch(methods[j], name, params)
    ensures (forall i :: 0 <= i < |methods| ==> !ExactMatch(methods[i], name, params)) && r.Some? ==>
              exists k :: 0 <= k < |methods| && r == Some(methods[k])
                          && forall j :: 0 <= j < k ==> methods[j].name != name
  {
    match FindFirst(methods, (m: Method) => ExactMatch(m, name, params))
    case Some(k) => Some(methods[k])
    case None =>
      match FindFirst(methods, (m: Method) => m.name == name)
      case Some(k) => Some(methods[k])
      case None => None
  }

  // ---------------------------------------------------------------------
  // Argument binding and conversion
  // ---------------------------------------------------------------------

  /** `getDefaultValue`: false, zero or '\0' for the eight primitives and
      null for every other type, boxed wrappers included. */
  function DefaultValue(t: JType): (v: Value)
    ensures v.Null? <==> !t.Prim?
    ensures t != Void ==> AcceptsArgument(t, v)
  {
    match t
    case Prim(p) =>
      (match p
       case PBoolean => Bool(false)
       case PByte => Byte(0)
       case PShort => Short(0)
       case PInt => Int(0)
       case PLong => Long(0)
       case PFloat => Decimal(true, "0.0")
       case PDouble => Decimal(false, "0.0")
       case PChar => Char('\0'))
    case _ => Null
  }

  predicate IsIntTarget(t: JType) {
    t == Prim(PInt) || t == Ref("Integer")
  }

  predicate IsLongTarget(t: JType) {
    t == Prim(PLong) || t == Ref("Long")
  }

  predicate IsBooleanTarget(t: JType) {
    t == Prim(PBoolean) || t == Ref("Boolean")
  }

  predicate IsDoubleTarget(t: JType) {
    t == Prim(PDouble) || t == Ref("Double")
  }

  /** The target types `convertParameter` knows how to produce. */
  predicate IsConvertibleTarget(t: JType) {
    t == Ref("String") || IsIntTarget(t) || IsLongTarget(t) || IsBooleanTarget(t) || IsDoubleTarget(t)
  }

  /** `convertParameter`: null becomes the default, an assignable value
      passes unchanged, and the String, int, long, boolean and double
      targets (primitive or boxed) are produced from `toString()`; any
      other value is passed on unconverted.  `doubleValueOf` stands for
      `Double.valueOf`, giving the canonical text or failing. */
  function ConvertParameter(v: Value, t: JType, doubleValueOf: string -> Option<string>): (r: Result<Value, Exception>)
    ensures v.Null? ==> r == Ok(DefaultValue(t))
    ensures !v.Null? && IsAssignable(t, v) ==> r == Ok(v)
    ensures r.Err? ==> r.error.kind == NumberFormat
    ensures r.Err? ==> !v.Null? && (IsIntTarget(t) || IsLongTarget(t) || IsDoubleTarget(t))
    ensures !v.Null? && !IsAssignable(t, v) && !IsConvertibleTarget(t) ==> r == Ok(v)
  {
    if v.Null? then Ok(DefaultValue(t))
    else if IsAssignable(t, v) then Ok(v)
    else
      var text := ToJavaString(v);
      if t == Ref("String") then Ok(Str(text))
      else if IsIntTarget(t) then
        match ParseInt(text)
        case Some(i) => Ok(Int(i))
        case None => Err(NumberFormatError(text))
      else if IsLongTarget(t) then
        match ParseLong(text)
        case Some(l) => Ok(Long(l))
        case None => Err(NumberFormatError(text))
      else if IsBooleanTarget(t) then Ok(Bool(ParseBoolean(Some(text))))
      else if IsDoubleTarget(t) then
        match doubleValueOf(text)
        case Some(d) => Ok(Decimal(false, d))
        case None => Err(NumberFormatError(text))
      else Ok(v)
  }

  /** A converted argument for a target the conversion knows is always
      accepted by `Method.invoke`. */
  lemma ConvertedArgumentAccepted(v: Value, t: JType, doubleValueOf: string -> Option<string>)
    requires IsConvertibleTarget(t)
    requires ConvertParameter(v, t, doubleValueOf).Ok?
    ensures AcceptsArgument(t, ConvertParameter(v, t, doubleValueOf).value)
  {
  }

  /** An `int` parameter given an `Integer` receives the same number back:
      `Integer.valueOf(toString())` is the identity on the `int` range. */
  lemma {:induction false} IntConversionRoundTrip(n: Int32, doubleValueOf: string -> Option<string>)
    ensures ConvertParameter(Int(n), Prim(PInt), doubleValueOf) == Ok(Int(n))
  {
    assert !IsAssignable(Prim(PInt), Int(n));
    assert ToJavaString(Int(n)) == IntToString(n);
    ParseIntRoundTrip(n);
  }

  /** A `long` parameter given a `Long` receives the same number back. */
  lemma {:induction false} LongConversionRoundTrip(l: Int64, doubleValueOf: string -> Option<string>)
    ensures ConvertParameter(Long(l), Prim(PLong), doubleValueOf) == Ok(Long(l))
  {
    assert !IsAssignable(Prim(PLong), Long(l));
    assert ToJavaString(Long(l)) == IntToString(l);
    ParseLongRoundTrip(l);
  }

  /** A non-numeric string for an `int` parameter is a `NumberFormatException`. */
  lemma NonNumericIntArgument(doubleValueOf: string -> Option<string>)
    ensures ConvertParameter(Str("abc"), Prim(PInt), doubleValueOf) == Err(NumberFormatError("abc"))
    ensures ConvertParameter(Str("5"), Prim(PInt), doubleValueOf) == Ok(Int(5))
    ensures ConvertParameter(Str("TRUE"), Ref("Boolean"), doubleValueOf) == Ok(Bool(true))
  {
    assert !AllDigits("abc") by {
      assert !IsAsciiDigit("abc"[0]);
    }
    assert DigitsValue("5") == 5;
  }

  /** The key under which the `i`-th parameter may be given by position. */
  function PositionKey(i: nat): string {
    "arg" + IntToString(i)
  }

  /** The value bound to formal parameter `p` at position `i`: by declared
      name, then by position key, otherwise the type's default; all of
      them defaults when the request has no parameters. */
  function BindArgument(p: Param, i: nat, params: Option<JMap>, doubleValueOf: string -> Option<string>): Result<Value, Exception>
  {
    if NoParams(params) then Ok(DefaultValue(p.ptype))
    else if HasKey(params.value, p.name) then ConvertParameter(Get(params.value, p.name), p.ptype, doubleValueOf)
    else if HasKey(params.value, PositionKey(i)) then ConvertParameter(Get(params.value, PositionKey(i)), p.ptype, doubleValueOf)
    else Ok(DefaultValue(p.ptype))
  }

  /** Applies `bind` to every element with its position, counting from
      `start`, stopping at the first failure. */
  function BindEach<A, B>(xs: seq<A>, start: nat, bind: (A, nat) -> Result<B, Exception>): (r: Result<seq<B>, Exception>)
    ensures r.Ok? <==> forall i :: 0 <= i < |xs| ==> bind(xs[i], start + i).Ok?
    ensures r.Ok? ==> |r.value| == |xs|
    ensures r.Ok? ==> forall i :: 0 <= i < |xs| ==> r.value[i] == bind(xs[i], start + i).value
    ensures r.Err? ==> exists k :: 0 <= k < |xs| && bind(xs[k], start + k) == Err(r.error)
                                   && forall j :: 0 <= j < k ==> bind(xs[j], start + j).Ok?
    decreases |xs|
  {
    if |xs| == 0 then Ok([])
    else
      match bind(xs[0], start)
      case Err(e) => Err(e)
      case Ok(first) =>
        var rest := BindEach(xs[1..], start + 1, bind);
        assert forall j :: 1 <= j < |xs| ==> xs[1..][j - 1] == xs[j] && start + 1 + (j - 1) == start + j;
        match rest
        case Err(e) => Err(e)
        case Ok(tail) => Ok([first] + tail)
  }

  /** `prepareMethodArguments` for method `m`. */
  function PrepareMethodArguments(m: Method, params: Option<JMap>, doubleValueOf: string -> Option<string>): (r: Result<seq<Value>, Exception>)
    ensures r.Ok? ==> |r.value| == |m.params|
    ensures NoParams(params) ==> r.Ok? && forall i :: 0 <= i < |m.params| ==> r.value[i] == DefaultValue(m.params[i].ptype)
  {
    BindEach(m.params, 0, (p: Param, i: nat) => BindArgument(p, i, params, doubleValueOf))
  }

  /** Without request parameters every argument is its type's default, so
      the arguments are always accepted by `Method.invoke`. */
  lemma DefaultArgumentsAccepted(m: Method, doubleValueOf: string -> Option<string>)
    requires forall i :: 0 <= i < |m.params| ==> m.params[i].ptype != Void
    ensures var r := PrepareMethodArguments(m, None, doubleValueOf);
            r.Ok? && forall i :: 0 <= i < |m.params| ==> AcceptsArgument(m.params[i].ptype, r.value[i])
  {
  }

  // ---------------------------------------------------------------------
  // Execution
  // ---------------------------------------------------------------------

  const PLUGIN_NOT_FOUND_PREFIX: string := "插件未找到: "
  const METHOD_NOT_FOUND_PREFIX: string := "方法未找到: "

  /** What `Method.invoke` throws itself when an argument does not fit. */
  const ARGUMENT_MISMATCH: Exception := Exception(IllegalArgument, Some("argument type mismatch"))

  predicate ArgumentsAccepted(m: Method, args: seq<Value>)
    requires |args| == |m.params|
  {
    forall i :: 0 <= i < |args| ==> AcceptsArgument(m.params[i].ptype, args[i])
  }

  /** `executeMethod`.  An exception thrown by the plugin method reaches the
      caller wrapped in an `InvocationTargetException`, whose message is
      null. */
  function ExecuteMethod(plugins: seq<PluginExt>, all: seq<Extension>, pluginName: string, methodName: string,
                         params: Option<JMap>,
                         invoke: (Extension, Method, seq<Value>) -> Outcome,
                         doubleValueOf: string -> Option<string>): (r: Result<Value, Exception>)
    ensures GetPluginInstance(plugins, all, pluginName).None? ==>
              r == Err(Exception(IllegalArgument, Some(PLUGIN_NOT_FOUND_PREFIX + pluginName)))
    ensures GetPluginInstance(plugins, all, pluginName).Some?
            && FindMethod(GetPluginInstance(plugins, all, pluginName).value.methods, methodName, params).None? ==>
              r == Err(Exception(NoSuchMethod, Some(METHOD_NOT_FOUND_PREFIX + methodName)))
    ensures r.Ok? ==> exists e, m, args :: e in all + plugins && m in e.methods && m.name == methodName
                                           && |args| == |m.params| && ArgumentsAccepted(m, args)
                                           && invoke(e, m, args) == Returned(r.value)
    ensures r.Err? && r.error.kind == InvocationTarget ==> r.error.message.None?
    ensures var inst := GetPluginInstance(plugins, all, pluginName);
            inst.Some? && FindMethod(inst.value.methods, methodName, params).Some? ==>
              var e := inst.value;
              var m := FindMethod(e.methods, methodName, params).value;
              var prepared := PrepareMethodArguments(m, params, doubleValueOf);
              && (prepared.Err? ==> r == Err(prepared.error))
              && (prepared.Ok? && !ArgumentsAccepted(m, prepared.value) ==> r == Err(ARGUMENT_MISMATCH))
              && (prepared.Ok? && ArgumentsAccepted(m, prepared.value) && invoke(e, m, prepared.value).Returned?
                  ==> r == Ok(invoke(e, m, prepared.value).v))
              && (prepared.Ok? && ArgumentsAccepted(m, prepared.value) && invoke(e, m, prepared.value).Threw?
                  ==> r == Err(Exception(InvocationTarget, None)))
  {
    match GetPluginInstance(plugins, all, pluginName)
    case None => Err(Exception(IllegalArgument, Some(PLUGIN_NOT_FOUND_PREFIX + pluginName)))
    case Some(e) =>
      match FindMethod(e.methods, methodName, params)
      case None => Err(Exception(NoSuchMethod, Some(METHOD_NOT_FOUND_PREFIX + methodName)))
      case Some(m) =>
        match PrepareMethodArguments(m, params, doubleValueOf)
        case Err(err) => Err(err)
        case Ok(args) =>
          if !ArgumentsAccepted(m, args) then Err(ARGUMENT_MISMATCH)
          else
            match invoke(e, m, args)
            case Returned(v) => Ok(v)
            case Threw(_) => Err(Exception(InvocationTarget, None))
  }

  // ---------------------------------------------------------------------
  // Method listing
  // ---------------------------------------------------------------------

  /** The `Object` methods the listing hides. */
  const HIDDEN_METHOD_NAMES: set<string> := {"equals", "hashCode", "toString", "getClass", "notify", "notifyAll", "wait"}

  /** `shouldIncludeMethod`: everything but the `Object` housekeeping
      methods; getters and setters are kept. */
  function ShouldIncludeMethod(m: Method): (b: bool)
    ensures StartsWith(m.name, "set") ==> b
    ensures StartsWith(m.name, "get") && m.name != "getClass" ==> b
    ensures StartsWith(m.name, "is") ==> b
  {
    if m.name in HIDDEN_METHOD_NAMES then
      HiddenNamesAreNotAccessors(m.name);
      false
    else true
  }

  /** Of the hidden names only `getClass` looks like a getter, and none
      like a setter or an `is` test. */
  lemma HiddenNamesAreNotAccessors(n: string)
    requires n in HIDDEN_METHOD_NAMES
    ensures !StartsWith(n, "set") && !StartsWith(n, "is")
    ensures StartsWith(n, "get") ==> n == "getClass"
  {
    assert n[0] != 's' && n[0] != 'i';
    if n != "getClass" {
      assert n[0] != 'g';
    }
  }

  /** `getPluginMethods`: the instance's simple class name and a description
      of each listed method, in `getMethods()` order. */
  function GetPluginMethods(plugins: seq<PluginExt>, all: seq<Extension>, pluginName: string): (r: Result<Value, Exception>)
    ensures r.Err? <==> GetPluginInstance(plugins, all, pluginName).None?
    ensures r.Err? ==> r.error == Exception(IllegalArgument, Some(PLUGIN_NOT_FOUND_PREFIX + pluginName))
    ensures r.Ok? ==> var e := GetPluginInstance(plugins, all, pluginName).value;
                      r.value.Obj? && Keys(r.value.entries) == ["className", "methods"]
                      && Get(r.value.entries, "className") == Str(e.simpleName)
                      && Get(r.value.entries, "methods").List?
                      && |Get(r.value.entries, "methods").items| == CountWhere(e.methods, ShouldIncludeMethod)
  {
    match GetPluginInstance(plugins, all, pluginName)
    case None => Err(Exception(IllegalArgument, Some(PLUGIN_NOT_FOUND_PREFIX + pluginName)))
    case Some(e) =>
      Ok(Obj([("className", Str(e.simpleName)), ("methods", List(MethodInfos(e.methods, ShouldIncludeMethod)))]))
  }
}

=== FILE: plugin_model.dfy ===
/**
  The plugin world as the host application sees it through PF4J and
  reflection: extension objects identified by their simple class name,
  their public methods as explicit records, and the outcome of calling
  into plugin code, which the model cannot see and takes as a parameter.
*/
module PluginModel {
  import opened Wrappers
  import opened JavaStrings
  import opened Values

  datatype Primitive = PBoolean | PByte | PShort | PInt | PLong | PFloat | PDouble | PChar

  /** A `Class<?>` as used in method signatures; reference classes are
      identified by their simple name ("String", "Integer", "Map", ...). */
  datatype JType = Prim(p: Primitive) | Ref(simpleName: string) | Void

  /** `Class.getSimpleName()`. */
  function TypeSimpleName(t: JType): string {
    match t
    case Prim(p) =>
      (match p
       case PBoolean => "boolean"
       case PByte => "byte"
       case PShort => "short"
       case PInt => "int"
       case PLong => "long"
       case PFloat => "float"
       case PDouble => "double"
       case PChar => "char")
    case Ref(n) => n
    case Void => "void"
  }

  const OBJECT_CLASS: string := "java.lang.Object"

  datatype Param = Param(name: string, ptype: JType)

  /** A public method: `getName()`, `getDeclaringClass()` (fully qualified),
      `getParameters()` and `getReturnType()`. */
  datatype Method = Method(name: string, declaringClass: string, params: seq<Param>, returnType: JType)

  /** What a `PluginInterface` implementation answers about itself. */
  datatype PluginInfo = PluginInfo(name: string, version: string, description: string)

  /** An extension object: its simple class name, its `PluginInterface`
      answers when it implements that interface, and `getClass().getMethods()`
      (inherited `Object` methods included) in a fixed order. */
  datatype Extension = Extension(simpleName: string, plugin: Option<PluginInfo>, methods: seq<Method>)

  /** An extension that implements `PluginInterface`. */
  type PluginExt = e: Extension | e.plugin.Some? witness Extension("", Some(PluginInfo("", "", "")), [])

  /** `getPluginName()` of a plugin extension. */
  function NameOf(p: PluginExt): string {
    p.plugin.value.name
  }

  /** The result of running code the model cannot see. */
  datatype Outcome = Returned(v: Value) | Threw(e: Exception)

  /** Index of the first element satisfying `p`. */
  function FindFirst<T>(s: seq<T>, p: T -> bool): (r: Option<nat>)
    ensures r.Some? ==> r.value < |s| && p(s[r.value])
    ensures r.Some? ==> forall j :: 0 <= j < r.value ==> !p(s[j])
    ensures r.None? ==> forall j :: 0 <= j < |s| ==> !p(s[j])
  {
    if |s| == 0 then None
    else if p(s[0]) then Some(0)
    else
      match FindFirst(s[1..], p)
      case None => None
      case Some(k) => Some(k + 1)
  }

  /** Number of elements satisfying `p`. */
  function CountWhere<T>(s: seq<T>, p: T -> bool): (n: nat)
    ensures n <= |s|
    ensures n == 0 <==> forall j :: 0 <= j < |s| ==> !p(s[j])
  {
    if |s| == 0 then 0 else (if p(s[0]) then 1 else 0) + CountWhere(s[1..], p)
  }

  /** The elements satisfying `p`, in order. */
  function Filter<T>(s: seq<T>, p: T -> bool): (r: seq<T>)
    ensures |r| == CountWhere(s, p)
    ensures forall i :: 0 <= i < |r| ==> p(r[i]) && r[i] in s
    ensures forall j :: 0 <= j < |s| && p(s[j]) ==> s[j] in r
  {
    if |s| == 0 then [] else (if p(s[0]) then [s[0]] else []) + Filter(s[1..], p)
  }

  /** The simple names of every class and interface a value's runtime class
      can be assigned to (`Class.isAssignableFrom`). */
  function RuntimeSupertypes(v: Value): set<string>
    requires !v.Null?
  {
    var basics := {"Object", "Serializable"};
    match v
    case Str(_) => basics + {"String", "CharSequence", "Comparable"}
    case Int(_) => basics + {"Integer", "Number", "Comparable"}
    case Long(_) => basics + {"Long", "Number", "Comparable"}
    case Short(_) => basics + {"Short", "Number", "Comparable"}
    case Byte(_) => basics + {"Byte", "Number", "Comparable"}
    case Char(_) => basics + {"Character", "Comparable"}
    case Bool(_) => basics + {"Boolean", "Comparable"}
    case Decimal(isFloat, _) => basics + {if isFloat then "Float" else "Double", "Number", "Comparable"}
    case List(_) => basics + {"ArrayList", "AbstractList", "AbstractCollection", "List", "Collection",
                              "Iterable", "RandomAccess", "Cloneable"}
    case Obj(_) => basics + {"LinkedHashMap", "HashMap", "AbstractMap", "Map", "Cloneable"}
    case Other(name, _) => {"Object", name}
  }

  /** `targetType.isAssignableFrom(value.getClass())`: never true for a
      primitive target. */
  predicate IsAssignable(t: JType, v: Value)
    requires !v.Null?
  {
    t.Ref? && t.simpleName in RuntimeSupertypes(v)
  }

  /** Whether `Method.invoke` accepts `v` for a parameter of type `t`:
      references take null or an assignable value, primitives take their
      wrapper after unboxing and widening. */
  predicate AcceptsArgument(t: JType, v: Value) {
    match t
    case Ref(_) => v.Null? || IsAssignable(t, v)
    case Void => false
    case Prim(p) =>
      match p
      case PBoolean => v.Bool?
      case PByte => v.Byte?
      case PChar => v.Char?
      case PShort => v.Short? || v.Byte?
      case PInt => v.Int? || v.Short? || v.Byte? || v.Char?
      case PLong => v.Long? || v.Int? || v.Short? || v.Byte? || v.Char?
      case PFloat => (v.Decimal? && v.isFloat) || v.Long? || v.Int? || v.Short? || v.Byte? || v.Char?
      case PDouble => v.Decimal? || v.Long? || v.Int? || v.Short? || v.Byte? || v.Char?
  }

  /** The description of one method that both the method listing and the
      API documentation produce: name, return type and parameters. */
  function MethodInfo(m: Method): (info: Value)
    ensures info.Obj? && Keys(info.entries) == ["name", "returnType", "parameters"]
    ensures info.entries[0].1 == Str(m.name)
    ensures info.entries[2].1.List? && |info.entries[2].1.items| == |m.params|
  {
    Obj([("name", Str(m.name)),
         ("returnType", Str(TypeSimpleName(m.returnType))),
         ("parameters", List(ParamInfos(m.params)))])
  }

  function ParamInfos(ps: seq<Param>): (r: seq<Value>)
    ensures |r| == |ps|
    ensures forall i :: 0 <= i < |ps| ==>
      r[i] == Obj([("name", Str(ps[i].name)), ("type", Str(TypeSimpleName(ps[i].ptype)))])
  {
    if |ps| == 0 then []
    else [Obj([("name", Str(ps[0].name)), ("type", Str(TypeSimpleName(ps[0].ptype)))])] + ParamInfos(ps[1..])
  }

  /** `MethodInfo` of every method satisfying `keep`, in order. */
  function MethodInfos(ms: seq<Method>, keep: Method -> bool): (r: seq<Value>)
    ensures |r| == CountWhere(ms, keep)
    ensures forall i :: 0 <= i < |r| ==> r[i] == MethodInfo(Filter(ms, keep)[i])
  {
    if |ms| == 0 then []
    else (if keep(ms[0]) then [MethodInfo(ms[0])] else []) + MethodInfos(ms[1..], keep)
  }
}

=== FILE: plugin_service.dfy ===
/**
  `PluginService`: name lookup over the `PluginInterface` extensions,
  error-swallowing execution, start/stop, the reload sequence and the
  state statistics.  The PF4J manager is replaced by its observable parts:
  the plugin wrappers (id and state), the extensions, and the outcome of
  each manager call.
*/
module PluginService {
  import opened Wrappers
  import opened Values
  import opened PluginModel

  /** No plugin before position `k` carries `name`. */
  predicate NoneNamedBefore(plugins: seq<PluginExt>, k: nat, name: string)
    requires k <= |plugins|
  {
    forall j :: 0 <= j < k ==> NameOf(plugins[j]) != name
  }

  /** `getPluginByName`: the first plugin, in extension order, whose name
      equals `name` exactly; null when there is none. */
  function GetPluginByName(plugins: seq<PluginExt>, name: string): (r: Option<PluginExt>)
    ensures r.None? <==> NoneNamedBefore(plugins, |plugins|, name)
    ensures r.Some? ==> exists k :: 0 <= k < |plugins| && plugins[k] == r.value
                                   && NameOf(plugins[k]) == name && NoneNamedBefore(plugins, k, name)
  {
    match FindFirst(plugins, (p: PluginExt) => NameOf(p) == name)
    case None => None
    case Some(k) => Some(plugins[k])
  }

  const NOT_FOUND_PREFIX: string := "插件未找到: "
  const EXECUTION_FAILED_PREFIX: string := "插件执行失败: "

  /** `executePlugin`: never throws.  A found plugin's result is passed on
      unchanged; an unknown name and an exception from `execute` both come
      back as a message string. */
  function ExecutePlugin(plugins: seq<PluginExt>, name: string, input: Value,
                         execute: (PluginExt, Value) -> Outcome): (r: Value)
    ensures GetPluginByName(plugins, name).None? ==> r == Str(NOT_FOUND_PREFIX + name)
    ensures GetPluginByName(plugins, name).Some? ==>
      var p := GetPluginByName(plugins, name).value;
      match execute(p, input)
      case Returned(v) => r == v
      case Threw(e) => r == Str(EXECUTION_FAILED_PREFIX + MessageText(e))
  {
    match GetPluginByName(plugins, name)
    case None => Str(NOT_FOUND_PREFIX + name)
    case Some(p) =>
      match execute(p, input)
      case Returned(v) => v
      case Threw(e) => Str(EXECUTION_FAILED_PREFIX + MessageText(e))
  }

  /** Whether a manager call returned normally or threw. */
  datatype CallOutcome = Completed | Raised(e: Exception)

  /** `startPlugin`: true exactly when the manager call completed. */
  function StartPlugin(call: CallOutcome): (started: bool)
    ensures started <==> !call.Raised?
  {
    match call
    case Completed => true
    case Raised(_) => false
  }

  /** `stopPlugin`: true exactly when the manager call completed. */
  function StopPlugin(call: CallOutcome): (stopped: bool)
    ensures stopped <==> !call.Raised?
  {
    match call
    case Completed => true
    case Raised(_) => false
  }

  datatype ReloadStep = StopPlugins | UnloadPlugins | LoadPlugins | StartPlugins

  /** The manager calls of `reloadPlugins`, in the order they are made. */
  const RELOAD_ORDER: seq<ReloadStep> := [StopPlugins, UnloadPlugins, LoadPlugins, StartPlugins]

  /** Runs `steps` in order until one fails, returning the steps attempted. */
  function RunUntilFailure(steps: seq<ReloadStep>, completes: ReloadStep -> bool): (attempted: seq<ReloadStep>)
    ensures attempted <= steps
    ensures forall i :: 0 <= i < |attempted| - 1 ==> completes(attempted[i])
    ensures |attempted| < |steps| ==> |attempted| > 0 && !completes(attempted[|attempted| - 1])
    ensures (forall i :: 0 <= i < |steps| ==> completes(steps[i])) ==> attempted == steps
  {
    if |steps| == 0 then []
    else if !completes(steps[0]) then [steps[0]]
    else [steps[0]] + RunUntilFailure(steps[1..], completes)
  }

  /** `reloadPlugins`: stop, unload, load and start inside one `try`; the
      first step that throws ends the sequence and the exception is
      swallowed.  The result is the list of manager calls made. */
  function ReloadPlugins(completes: ReloadStep -> bool): (calls: seq<ReloadStep>)
    ensures 1 <= |calls| <= 4 && calls <= RELOAD_ORDER
    ensures forall i :: 0 <= i < |calls| - 1 ==> completes(calls[i])
    ensures |calls| < 4 ==> !completes(calls[|calls| - 1])
    ensures completes(StopPlugins) && completes(UnloadPlugins) && completes(LoadPlugins)
            ==> calls == RELOAD_ORDER
  {
    RunUntilFailure(RELOAD_ORDER, completes)
  }

  // ---------------------------------------------------------------------
  // Statistics
  // ---------------------------------------------------------------------

  datatype PluginState = Created | Disabled | Resolved | Started | Stopped | Failed | Unloaded

  /** `PluginState.toString()`. */
  function StateText(s: PluginState): string {
    match s
    case Created => "CREATED"
    case Disabled => "DISABLED"
    case Resolved => "RESOLVED"
    case Started => "STARTED"
    case Stopped => "STOPPED"
    case Failed => "FAILED"
    case Unloaded => "UNLOADED"
  }

  lemma StateTextInjective(a: PluginState, b: PluginState)
    requires StateText(a) == StateText(b)
    ensures a == b
  {
  }

  datatype Wrapper = Wrapper(pluginId: string, state: PluginState)

  /** How many wrappers have a state whose text is `text`. */
  function CountInState(ws: seq<Wrapper>, text: string): (n: nat)
    ensures n <= |ws|
    ensures n == 0 <==> forall i :: 0 <= i < |ws| ==> StateText(ws[i].state) != text
  {
    if |ws| == 0 then 0
    else (if StateText(ws[0].state) == text then 1 else 0) + CountInState(ws[1..], text)
  }

  /** A tally: state text to number of wrappers, in first-seen order. */
  type Tally = seq<(string, nat)>

  function TallyOf(t: Tally, key: string): nat {
    if |t| == 0 then 0 else (if t[0].0 == key then t[0].1 else 0) + TallyOf(t[1..], key)
  }

  function TallySum(t: Tally): nat {
    if |t| == 0 then 0 else t[0].1 + TallySum(t[1..])
  }

  /** No state text is tallied twice. */
  predicate TallyKeysDistinct(t: Tally) {
    forall i, j :: 0 <= i < j < |t| ==> t[i].0 != t[j].0
  }

  /** Adds one to `key`'s count, appending the key if it is new. */
  function Increment(t: Tally, key: string): (r: Tally)
    ensures TallyOf(r, key) == TallyOf(t, key) + 1
    ensures forall k :: k != key ==> TallyOf(r, k) == TallyOf(t, k)
    ensures TallySum(r) == TallySum(t) + 1
    ensures |r| >= 1
    ensures forall i :: 0 <= i < |r| ==> r[i].0 == key || exists j :: 0 <= j < |t| && t[j].0 == r[i].0
    ensures TallyKeysDistinct(t) ==> TallyKeysDistinct(r)
  {
    if |t| == 0 then [(key, 1)]
    else if t[0].0 == key then [(key, t[0].1 + 1)] + t[1..]
    else
      var rest := Increment(t[1..], key);
      assert forall i :: 1 <= i < |t| ==> t[1..][i - 1] == t[i];
      [t[0]] + rest
  }

  /** `Collectors.groupingBy(state.toString(), counting())`. */
  function Distribution(ws: seq<Wrapper>): (t: Tally)
    ensures TallySum(t) == |ws|
    ensures forall text :: TallyOf(t, text) == CountInState(ws, text)
    ensures TallyKeysDistinct(t)
  {
    if |ws| == 0 then []
    else
      var t := Increment(Distribution(ws[..|ws| - 1]), StateText(ws[|ws| - 1].state));
      CountInStateSnoc(ws);
      t
  }

  lemma {:induction false} CountInStateSnoc(ws: seq<Wrapper>)
    requires |ws| > 0
    ensures forall text :: CountInState(ws, text) ==
                           CountInState(ws[..|ws| - 1], text) + (if StateText(ws[|ws| - 1].state) == text then 1 else 0)
  {
    if |ws| > 1 {
      CountInStateSnoc(ws[1..]);
      assert ws[1..][..|ws| - 2] == ws[..|ws| - 1][1..];
    }
  }

  datatype PluginStats = PluginStats(
    totalPlugins: nat,
    activePlugins: nat,
    startedPlugins: nat,
    stoppedPlugins: nat,
    failedPlugins: nat,
    statusDistribution: Tally)

  /** `getPluginStats`. */
  function GetPluginStats(wrappers: seq<Wrapper>, plugins: seq<PluginExt>): (s: PluginStats)
    ensures s.totalPlugins == |wrappers| && s.activePlugins == |plugins|
    ensures s.startedPlugins == CountInState(wrappers, "STARTED")
    ensures s.stoppedPlugins == CountInState(wrappers, "STOPPED")
    ensures s.failedPlugins == CountInState(wrappers, "FAILED")
    ensures TallySum(s.statusDistribution) == s.totalPlugins
    ensures TallyOf(s.statusDistribution, "STARTED") == s.startedPlugins
  {
    PluginStats(|wrappers|, |plugins|,
                CountInState(wrappers, "STARTED"),
                CountInState(wrappers, "STOPPED"),
                CountInState(wrappers, "FAILED"),
                Distribution(wrappers))
  }

  /** Counts of distinct state texts never add up to more than the number
      of wrappers. */
  lemma {:induction false} ThreeStateCountsBounded(ws: seq<Wrapper>, a: string, b: string, c: string)
    requires a != b && b != c && a != c
    ensures CountInState(ws, a) + CountInState(ws, b) + CountInState(ws, c) <= |ws|
  {
    if |ws| > 0 {
      ThreeStateCountsBounded(ws[1..], a, b, c);
    }
  }

  /** The started, stopped and failed counts together never exceed the
      total. */
  lemma StatsCountsBounded(wrappers: seq<Wrapper>, plugins: seq<PluginExt>)
    ensures var s := GetPluginStats(wrappers, plugins);
            s.startedPlugins + s.stoppedPlugins + s.failedPlugins <= s.totalPlugins
  {
    ThreeStateCountsBounded(wrappers, "STARTED", "STOPPED", "FAILED");
  }
}

=== FILE: responses.dfy ===
/**
  The two response envelopes of the application: `ApiResponse` (nullable
  `Integer` code, serialised without null fields) and the older `Resultt`
  (primitive `int` code).  A Java `null` field is `None`.
*/
module Responses {
  import opened Wrappers

  const OK_CODE: int := 200
  const CLIENT_ERROR_CODE: int := 400
  const SERVER_ERROR_CODE: int := 500

  datatype ApiResponse<T> = ApiResponse(code: Option<int>, message: Option<string>, data: Option<T>)

  /** The JSON keys written for an envelope: null fields are omitted. */
  function JsonKeys<T>(r: ApiResponse<T>): (keys: seq<string>)
    ensures |keys| <= 3
    ensures "data" in keys <==> r.data.Some?
    ensures "code" in keys <==> r.code.Some?
    ensures "message" in keys <==> r.message.Some?
  {
    (if r.code.Some? then ["code"] else [])
    + (if r.message.Some? then ["message"] else [])
    + (if r.data.Some? then ["data"] else [])
  }

  /** `ApiResponse.success()`. */
  function Success<T>(): (r: ApiResponse<T>)
    ensures r.code == Some(OK_CODE) && r.message == Some("success")
    ensures JsonKeys(r) == ["code", "message"]
  {
    ApiResponse(Some(200), Some("success"), None)
  }

  /** `ApiResponse.success(data)`; a null `data` is simply not serialised. */
  function SuccessWith<T>(data: Option<T>): (r: ApiResponse<T>)
    ensures r.code == Some(OK_CODE) && r.message == Some("success") && r.data == data
    ensures data.None? ==> r == Success()
  {
    ApiResponse(Some(200), Some("success"), data)
  }

  /** `ApiResponse.success(message, data)`. */
  function SuccessWithMessage<T>(message: Option<string>, data: Option<T>): (r: ApiResponse<T>)
    ensures r.code == Some(OK_CODE) && r.message == message && r.data == data
    ensures message == Some("success") ==> r == SuccessWith(data)
  {
    ApiResponse(Some(200), message, data)
  }

  /** `ApiResponse.error(message)`: a client error without data. */
  function Error<T>(message: Option<string>): (r: ApiResponse<T>)
    ensures r.code == Some(CLIENT_ERROR_CODE) && r.message == message && r.data.None?
    ensures r != SuccessWithMessage(message, None)
  {
    ApiResponse(Some(400), message, None)
  }

  /** `ApiResponse.serverError(message)`: a server error without data. */
  function ServerError<T>(message: Option<string>): (r: ApiResponse<T>)
    ensures r.code == Some(SERVER_ERROR_CODE) && r.message == message && r.data.None?
    ensures r != Error(message)
  {
    ApiResponse(Some(500), message, None)
  }

  /** `ApiResponse.custom(code, message, data)`: every factory above is a
      special case of it. */
  function Custom<T>(code: Option<int>, message: Option<string>, data: Option<T>): (r: ApiResponse<T>)
    ensures r.code == code && r.message == message && r.data == data
    ensures code == Some(OK_CODE) ==> r == SuccessWithMessage(message, data)
    ensures code == Some(CLIENT_ERROR_CODE) && data.None? ==> r == Error(message)
  {
    ApiResponse(code, message, data)
  }

  /** The older envelope; its code is a primitive and therefore never null. */
  datatype Resultt<T> = Resultt(code: int, msg: Option<string>, data: Option<T>)
  {
    /** `setCode`: only the code changes. */
    function WithCode(c: int): (r: Resultt<T>)
      ensures r.code == c && r.msg == msg && r.data == data
    {
      this.(code := c)
    }

    /** `setMsg`: only the message changes. */
    function WithMsg(m: Option<string>): (r: Resultt<T>)
      ensures r.code == code && r.msg == m && r.data == data
    {
      this.(msg := m)
    }

    /** `setData`: only the data changes. */
    function WithData(d: Option<T>): (r: Resultt<T>)
      ensures r.code == code && r.msg == msg && r.data == d
    {
      this.(data := d)
    }
  }

  /** `new Resultt()`: code 0, everything else null. */
  function NewResultt<T>(): (r: Resultt<T>)
    ensures r.code == 0 && r.msg.None? && r.data.None?
  {
    Resultt(0, None, None)
  }

  /** `new Resultt(code, msg)`: data null. */
  function NewResulttWithoutData<T>(code: int, msg: Option<string>): (r: Resultt<T>)
    ensures r.code == code && r.msg == msg && r.data.None?
  {
    Resultt(code, msg, None)
  }

  /** `Resultt.success(data)`. */
  function ResulttSuccessWith<T>(data: Option<T>): (r: Resultt<T>)
    ensures r.code == OK_CODE && r.msg == Some("success") && r.data == data
  {
    Resultt(200, Some("success"), data)
  }

  /** `Resultt.success()`, which delegates to `success(null)`. */
  function ResulttSuccess<T>(): (r: Resultt<T>)
    ensures r == ResulttSuccessWith(None)
    ensures r.code == OK_CODE && r.data.None?
  {
    ResulttSuccessWith(None)
  }

  /** `Resultt.error(code, msg)`: whatever code the caller passes, no data. */
  function ResulttError<T>(code: int, msg: Option<string>): (r: Resultt<T>)
    ensures r.code == code && r.msg == msg && r.data.None?
    ensures r == NewResulttWithoutData(code, msg)
  {
    Resultt(code, msg, None)
  }

  /** Setting every field of a fresh envelope rebuilds the three-argument
      constructor's result, whatever order the setters run in. */
  lemma {:induction false} SettersRebuildResultt<T>(code: int, msg: Option<string>, data: Option<T>)
    ensures NewResultt<T>().WithCode(code).WithMsg(msg).WithData(data) == Resultt(code, msg, data)
    ensures NewResultt<T>().WithData(data).WithMsg(msg).WithCode(code) == Resultt(code, msg, data)
  {
  }
}

=== FILE: security.dfy ===
/**
  `AuthService` and `SecurityInterceptor`: who the current user is, and
  the allow / 401 / 403 decision taken before every request under
  "/api/".  The security context's authentication is an explicit input.
*/
module Security {
  import opened Wrappers
  import opened JavaStrings

  /** The principal of an authentication: a `UserDetails` (whose user name
      may be null) or any other object, known by its `toString()`. */
  datatype Principal = UserDetails(username: Option<string>) | OtherPrincipal(text: string)

  /** The parts of a Spring `Authentication` the code reads: the
      authenticated flag, `getName()`, the principal and the authority
      strings. */
  datatype Authentication = Authentication(authenticated: bool, name: Option<string>, principal: Principal,
                                           authorities: seq<Option<string>>)

  const ANONYMOUS_USER: string := "anonymousUser"
  const ROLE_ADMIN: string := "ROLE_ADMIN"

  /** `getCurrentUsername`: null unless an authenticated authentication is
      present; then the `UserDetails` user name, or the principal's text. */
  function CurrentUsername(auth: Option<Authentication>): (name: Option<string>)
    ensures auth.None? || !auth.value.authenticated ==> name.None?
    ensures auth.Some? && auth.value.authenticated && auth.value.principal.OtherPrincipal?
            ==> name == Some(auth.value.principal.text)
    ensures auth.Some? && auth.value.authenticated && auth.value.principal.UserDetails?
            ==> name == auth.value.principal.username
  {
    if auth.None? || !auth.value.authenticated then None
    else
      match auth.value.principal
      case UserDetails(u) => u
      case OtherPrincipal(t) => Some(t)
  }

  /** `isAuthenticated`: present, flagged authenticated, and not the
      anonymous user (a null name is not "anonymousUser"). */
  function IsAuthenticated(auth: Option<Authentication>): (b: bool)
    ensures b <==> auth.Some? && auth.value.authenticated && auth.value.name != Some(ANONYMOUS_USER)
  {
    auth.Some? && auth.value.authenticated && !(auth.value.name == Some(ANONYMOUS_USER))
  }

  /** `isAdmin`: present, flagged authenticated, and holding the authority
      "ROLE_ADMIN"; the anonymous user is not excluded. */
  function IsAdmin(auth: Option<Authentication>): (b: bool)
    ensures b <==> auth.Some? && auth.value.authenticated && Some(ROLE_ADMIN) in auth.value.authorities
  {
    auth.Some? && auth.value.authenticated
    && exists i :: 0 <= i < |auth.value.authorities| && auth.value.authorities[i] == Some(ROLE_ADMIN)
  }

  /** An anonymous token carrying "ROLE_ADMIN" counts as admin, yet not as
      authenticated. */
  lemma AnonymousAdmin(principal: Principal)
    ensures var auth := Some(Authentication(true, Some(ANONYMOUS_USER), principal, [Some(ROLE_ADMIN)]));
            IsAdmin(auth) && !IsAuthenticated(auth)
  {
    var auth := Authentication(true, Some(ANONYMOUS_USER), principal, [Some(ROLE_ADMIN)]);
    assert auth.authorities[0] == Some(ROLE_ADMIN);
  }

  /** Whenever a user name is reported, the authentication is flagged
      authenticated; being authenticated or admin needs the same flag. */
  lemma UsernameNeedsAuthentication(auth: Option<Authentication>)
    ensures IsAuthenticated(auth) || IsAdmin(auth) ==> auth.Some? && auth.value.authenticated
    ensures CurrentUsername(auth).Some? ==> auth.Some? && auth.value.authenticated
  {
  }

  // ---------------------------------------------------------------------
  // SecurityInterceptor.preHandle
  // ---------------------------------------------------------------------

  const API_PREFIX: string := "/api/"
  const JSON_CONTENT_TYPE: string := "application/json;charset=UTF-8"
  const UNAUTHORIZED_BODY: string := "{\"error\":\"未授权访问\",\"message\":\"请先登录\"}"
  const FORBIDDEN_BODY: string := "{\"error\":\"权限不足\",\"message\":\"需要管理员权限\"}"

  /** What `preHandle` did to the response. */
  datatype Response = Untouched | Written(status: int, contentType: string, body: string)

  /** `preHandle`: a URI outside "/api/" passes untouched; under it, an
      unauthenticated request is refused with 401, an authenticated
      non-admin with 403, and an admin passes. */
  function PreHandle(uri: string, auth: Option<Authentication>): (r: (bool, Response))
    ensures !StartsWith(uri, API_PREFIX) ==> r == (true, Untouched)
    ensures StartsWith(uri, API_PREFIX) && !IsAuthenticated(auth)
            ==> r == (false, Written(401, JSON_CONTENT_TYPE, UNAUTHORIZED_BODY))
    ensures StartsWith(uri, API_PREFIX) && IsAuthenticated(auth) && !IsAdmin(auth)
            ==> r == (false, Written(403, JSON_CONTENT_TYPE, FORBIDDEN_BODY))
    ensures r.0 <==> !StartsWith(uri, API_PREFIX) || (IsAuthenticated(auth) && IsAdmin(auth))
    ensures r.0 ==> r.1 == Untouched
  {
    if !StartsWith(uri, API_PREFIX) then (true, Untouched)
    else if !IsAuthenticated(auth) then (false, Written(401, JSON_CONTENT_TYPE, UNAUTHORIZED_BODY))
    else if !IsAdmin(auth) then (false, Written(403, JSON_CONTENT_TYPE, FORBIDDEN_BODY))
    else (true, Untouched)
  }

  /** Authentication is checked first: a request that is not authenticated
      never sees 403, whatever its authorities. */
  lemma UnauthenticatedNeverForbidden(uri: string, auth: Option<Authentication>)
    requires !IsAuthenticated(auth)
    ensures PreHandle(uri, auth).1 != Written(403, JSON_CONTENT_TYPE, FORBIDDEN_BODY)
  {
    assert UNAUTHORIZED_BODY != FORBIDDEN_BODY by { assert UNAUTHORIZED_BODY[10] != FORBIDDEN_BODY[10]; }
  }

  /** "/api" itself, without the trailing slash, is not guarded. */
  lemma BareApiPathPasses(auth: Option<Authentication>)
    ensures PreHandle("/api", auth) == (true, Untouched)
  {
  }
}

=== FILE: user_admin.dfy ===
/**
  The user-management plugin (`UserAdminExtension`): an in-memory table of
  user records keyed by their id text, with list, create, update, delete
  and get actions dispatched from `execute`.  Records are the maps the
  plugin keeps; `Date` fields are readings of a clock the caller passes
  in, and the `HashMap` iteration order used by the listing is a
  parameter.
*/
module UserAdmin {
  import opened Wrappers
  import opened JavaNumbers
  import opened JavaStrings
  import opened Values

  /** A `new Date()` reading, known by its `toString()` text: the plugin
      only stores dates and never compares them. */
  type Timestamp = string

  /** One user record.  `id` and `username` are always strings; the other
      three fields hold whatever an update stored, `null` included. */
  datatype User = User(id: string, username: string, email: Value, role: Value, status: Value,
                       createTime: Timestamp, updateTime: Option<Timestamp>)

  /** The `users` map, keyed by id text. */
  type Users = map<string, User>

  const PLUGIN_NAME: string := "用户管理插件"
  const DEFAULT_ROLE: string := "普通用户"
  const ACTIVE: string := "ACTIVE"
  const USERNAME_REQUIRED: string := "用户名不能为空"
  const USERNAME_TAKEN: string := "用户名已存在"
  const NO_SUCH_USER: string := "用户不存在"
  const CREATED: string := "用户创建成功"
  const UPDATED: string := "用户更新成功"
  const DELETED: string := "用户删除成功"
  const UNSUPPORTED_PREFIX: string := "不支持的操作: "

  /** A `Date` in a record. */
  function DateValue(t: Timestamp): Value {
    Other("Date", t)
  }

  /** A record as the `Map<String, Object>` the plugin hands out. */
  function UserValue(u: User): Value {
    Obj([("id", Str(u.id)), ("username", Str(u.username)), ("email", u.email), ("role", u.role),
         ("status", u.status), ("createTime", DateValue(u.createTime))]
        + (if u.updateTime.Some? then [("updateTime", DateValue(u.updateTime.value))] else []))
  }

  // ---------------------------------------------------------------------
  // Replies (`Map.of` literals)
  // ---------------------------------------------------------------------

  function Failure(message: string): Value {
    Obj([("success", Bool(false)), ("message", Str(message))])
  }

  function Found(u: User): Value {
    Obj([("success", Bool(true)), ("data", UserValue(u))])
  }

  function Success(message: string, data: Value): Value {
    Obj([("success", Bool(true)), ("message", Str(message)), ("data", data)])
  }

  // ---------------------------------------------------------------------
  // Parameters
  // ---------------------------------------------------------------------

  function Param(params: seq<(string, Value)>, key: string): Result<Option<string>, Exception> {
    CastString(Get(params, key))
  }

  /** Some record already carries this user name. */
  predicate NameTaken(users: Users, username: string) {
    exists k :: k in users && users[k].username == username
  }

  /** The table invariant the plugin keeps: every record sits under its
      own id, and no two records share a user name. */
  ghost predicate Keyed(users: Users) {
    && (forall k :: k in users ==> users[k].id == k)
    && (forall a, b :: a in users && b in users && a != b ==> users[a].username != users[b].username)
  }

  /** The record a successful `createUser` stores. */
  function NewUser(id: string, username: string, email: Option<string>, role: Option<string>,
                   now: Timestamp): (u: User)
    ensures u.id == id && u.username == username && u.status == Str(ACTIVE)
    ensures u.email == Str(email.GetOr("")) && u.role == Str(role.GetOr(DEFAULT_ROLE))
    ensures u.createTime == now && u.updateTime.None?
  {
    User(id, username, Str(email.GetOr("")), Str(role.GetOr(DEFAULT_ROLE)), Str(ACTIVE), now, None)
  }

  /** The two sample records the constructor stores. */
  function SampleUsers(now: Timestamp): (users: Users)
    ensures users.Keys == {"1", "2"}
    ensures users["1"].username == "admin" && users["2"].username == "user"
    ensures Keyed(users)
  {
    map["1" := User("1", "admin", Str("admin@example.com"), Str("管理员"), Str(ACTIVE), now, None),
        "2" := User("2", "user", Str("user@example.com"), Str("普通用户"), Str(ACTIVE), now, None)]
  }

  /** Putting a record under its own id, with a user name nobody has,
      keeps the table keyed, whether or not the id was taken. */
  lemma {:induction false} PutKeepsKeyed(users: Users, u: User)
    requires Keyed(users) && !NameTaken(users, u.username)
    ensures Keyed(users[u.id := u])
  {
    var t := users[u.id := u];
    forall a, b | a in t && b in t && a != b
      ensures t[a].username != t[b].username
    {
      if a == u.id {
        assert b in users && users[b].username == t[b].username;
      } else if b == u.id {
        assert a in users && users[a].username == t[a].username;
      }
    }
  }

  // ---------------------------------------------------------------------
  // createUser as written: the id is `users.size() + 1`
  // ---------------------------------------------------------------------

  /** The checks and the insertion of `createUser` exactly as written,
      once the parameters are cast: the new record is put under the text
      of `users.size() + 1`, replacing whatever record already had that
      id. */
  function AdmitAsWritten(users: Users, username: Option<string>, email: Option<string>, role: Option<string>,
                          now: Timestamp): (r: (Users, Value))
    ensures username.None? || IsBlank(username.value) ==> r == (users, Failure(USERNAME_REQUIRED))
    ensures username.Some? && !IsBlank(username.value) && NameTaken(users, username.value)
            ==> r == (users, Failure(USERNAME_TAKEN))
    ensures username.Some? && !IsBlank(username.value) && !NameTaken(users, username.value)
            ==> NatToString(|users| + 1) in r.0 && r.0[NatToString(|users| + 1)].username == username.value
    ensures username.Some? && !IsBlank(username.value) && !NameTaken(users, username.value)
            ==> r.1 == Success(CREATED, UserValue(r.0[NatToString(|users| + 1)]))
    ensures forall k :: k in users ==> k in r.0
    ensures forall k :: k in r.0 && k !in users ==> k == NatToString(|users| + 1)
    ensures forall k :: k in users && k != NatToString(|users| + 1) ==> r.0[k] == users[k]
    ensures Keyed(users) ==> Keyed(r.0)
  {
    if username.None? || IsBlank(username.value) then (users, Failure(USERNAME_REQUIRED))
    else if NameTaken(users, username.value) then (users, Failure(USERNAME_TAKEN))
    else
      var id := NatToString(|users| + 1);
      var u := NewUser(id, username.value, email, role, now);
      assert Keyed(users) ==> Keyed(users[id := u]) by {
        if Keyed(users) { PutKeepsKeyed(users, u); }
      }
      (users[id := u], Success(CREATED, UserValue(u)))
  }

  /** `createUser` as written: the three casts, then the checks. */
  function CreateUserAsWritten(users: Users, params: seq<(string, Value)>, now: Timestamp)
    : (r: Result<(Users, Value), Exception>)
    ensures r.Err? <==> Param(params, "username").Err? || Param(params, "email").Err? || Param(params, "role").Err?
    ensures r.Ok? ==> r.value == AdmitAsWritten(users, Param(params, "username").value, Param(params, "email").value,
                                                Param(params, "role").value, now)
    ensures r.Ok? && Keyed(users) ==> Keyed(r.value.0)
  {
    var username :- Param(params, "username");
    var email :- Param(params, "email");
    var role :- Param(params, "role");
    Ok(AdmitAsWritten(users, username, email, role, now))
  }

  /** Parameters holding only a user name: the e-mail and role are null. */
  lemma OnlyUsername(name: string)
    ensures Param([("username", Str(name))], "username") == Ok(Some(name))
    ensures Param([("username", Str(name))], "email") == Ok(None)
    ensures Param([("username", Str(name))], "role") == Ok(None)
  {
  }

  lemma CarolIsNotBlank()
    ensures !IsBlank("carol")
  {
    BlankIffAllTrimmable("carol");
    assert !IsTrimmable("carol"[0]);
  }

  /** Deleting user "1" from the sample data and then creating "carol"
      gives her id "2", which overwrites the sample user "user": the table
      still holds one record, and "user" is gone without being deleted. */
  lemma CreateAfterDeleteOverwrites(now: Timestamp)
    ensures var afterDelete := SampleUsers(now) - {"1"};
            var r := CreateUserAsWritten(afterDelete, [("username", Str("carol"))], now);
            r.Ok? && r.value.0.Keys == {"2"} && r.value.0["2"].username == "carol"
            && !NameTaken(r.value.0, "user")
  {
    var afterDelete := SampleUsers(now) - {"1"};
    assert afterDelete.Keys == {"2"};
    assert !NameTaken(afterDelete, "carol");
    assert NatToString(|afterDelete| + 1) == "2";
    OnlyUsername("carol");
    CarolIsNotBlank();
    var a := AdmitAsWritten(afterDelete, Some("carol"), None, None, now);
    assert "2" in a.0;
    assert a.0.Keys == {"2"};
  }

  // ---------------------------------------------------------------------
  // The corrected plugin state: ids come from a counter
  // ---------------------------------------------------------------------

  /** The corrected plugin's state: the records and the number of ids
      handed out. */
  datatype Store = Store(users: Users, lastId: nat)

  /** The table is keyed and no id still to be handed out is taken. */
  ghost predicate Valid(s: Store) {
    && Keyed(s.users)
    && (forall j: nat :: j > s.lastId ==> NatToString(j) !in s.users)
  }

  /** Distinct numbers have distinct id texts. */
  lemma NatToStringInjective(i: nat, j: nat)
    requires i != j
    ensures NatToString(i) != NatToString(j)
  {
    if NatToString(i) == NatToString(j) {
      assert IntToString(i) == IntToString(j);
      IntToStringInjective(i, j);
    }
  }

  /** Storing a record under the next id, with a user name nobody has,
      keeps the store valid and replaces nothing. */
  lemma {:induction false} InsertNextKeepsValid(s: Store, u: User)
    requires Valid(s)
    requires u.id == NatToString(s.lastId + 1) && !NameTaken(s.users, u.username)
    ensures u.id !in s.users
    ensures Valid(Store(s.users[u.id := u], s.lastId + 1))
  {
    PutKeepsKeyed(s.users, u);
    forall j: nat | j > s.lastId + 1
      ensures NatToString(j) !in s.users[u.id := u]
    {
      NatToStringInjective(j, s.lastId + 1);
    }
  }

  /** The state after construction: the two sample records, ids "1" and
      "2" handed out. */
  function Initial(now: Timestamp): (s: Store)
    ensures Valid(s)
    ensures s.users == SampleUsers(now) && |s.users| == 2
  {
    assert NatToString(1) == "1" && NatToString(2) == "2";
    forall j: nat | j > 2
      ensures NatToString(j) !in SampleUsers(now)
    {
      NatToStringInjective(j, 1);
      NatToStringInjective(j, 2);
    }
    Store(SampleUsers(now), 2)
  }

  /** `createUser` with the collision removed: a blank or missing user name
      and a taken one are refused and change nothing; otherwise the record
      is stored under a fresh id and every earlier record stays. */
  function CreateUser(s: Store, params: seq<(string, Value)>, now: Timestamp): (r: Result<(Store, Value), Exception>)
    requires Valid(s)
    ensures r.Err? <==> Param(params, "username").Err? || Param(params, "email").Err? || Param(params, "role").Err?
    ensures r.Ok? ==> r.value == Admit(s, Param(params, "username").value, Param(params, "email").value,
                                       Param(params, "role").value, now)
    ensures r.Ok? ==> Valid(r.value.0)
  {
    var username :- Param(params, "username");
    var email :- Param(params, "email");
    var role :- Param(params, "role");
    Ok(Admit(s, username, email, role, now))
  }

  /** The checks and the insertion of `createUser`, once the parameters
      are cast. */
  function Admit(s: Store, username: Option<string>, email: Option<string>, role: Option<string>,
                 now: Timestamp): (r: (Store, Value))
    requires Valid(s)
    ensures username.None? || IsBlank(username.value) ==> r == (s, Failure(USERNAME_REQUIRED))
    ensures username.Some? && !IsBlank(username.value) && NameTaken(s.users, username.value)
            ==> r == (s, Failure(USERNAME_TAKEN))
    ensures username.Some? && !IsBlank(username.value) && !NameTaken(s.users, username.value)
            ==> var id := NatToString(s.lastId + 1);
                id !in s.users && id in r.0.users
                && (forall k :: k in r.0.users && k !in s.users ==> k == id)
                && r.0.users[id].username == username.value
                && r.1 == Success(CREATED, UserValue(r.0.users[id]))
    ensures forall k :: k in s.users ==> k in r.0.users && r.0.users[k] == s.users[k]
    ensures Valid(r.0)
  {
    if username.None? || IsBlank(username.value) then (s, Failure(USERNAME_REQUIRED))
    else if NameTaken(s.users, username.value) then (s, Failure(USERNAME_TAKEN))
    else
      var id := NatToString(s.lastId + 1);
      var u := NewUser(id, username.value, email, role, now);
      InsertNextKeepsValid(s, u);
      (Store(s.users[id := u], s.lastId + 1), Success(CREATED, UserValue(u)))
  }

  /** As long as nothing was deleted (the ids handed out are as many as
      the records), the id `size() + 1` is the counter's next id, so the
      program as written and the corrected one create the same table. */
  lemma AsWrittenAgreesWithoutDeletes(s: Store, username: Option<string>, email: Option<string>,
                                      role: Option<string>, now: Timestamp)
    requires Valid(s) && |s.users| == s.lastId
    ensures AdmitAsWritten(s.users, username, email, role, now)
            == (Admit(s, username, email, role, now).0.users, Admit(s, username, email, role, now).1)
  {
  }

  /** The same deletion and creation as in `CreateAfterDeleteOverwrites`,
      starting from the constructed state, keep "user". */
  lemma CreateAfterDeleteKeeps(now: Timestamp)
    ensures var s := Initial(now);
            var afterDelete := Store(s.users - {"1"}, s.lastId);
            var r := CreateUser(afterDelete, [("username", Str("carol"))], now);
            r.Ok? && r.value.0.users.Keys == {"2", "3"} && r.value.0.users["2"].username == "user"
            && r.value.0.users["3"].username == "carol"
  {
    var s := Initial(now);
    var afterDelete := Store(s.users - {"1"}, s.lastId);
    assert Valid(afterDelete);
    CreateByName(afterDelete, "carol", now);
    AdmitCarol(afterDelete, now);
  }

  /** Creating from parameters that hold only a user name is admitting
      that name with no e-mail and no role. */
  lemma CreateByName(s: Store, username: string, now: Timestamp)
    requires Valid(s)
    ensures CreateUser(s, [("username", Str(username))], now) == Ok(Admit(s, Some(username), None, None, now))
  {
    OnlyUsername(username);
  }

  lemma AdmitCarol(afterDelete: Store, now: Timestamp)
    requires afterDelete == Store(Initial(now).users - {"1"}, 2) && Valid(afterDelete)
    ensures var a := Admit(afterDelete, Some("carol"), None, None, now);
            a.0.users.Keys == {"2", "3"} && a.0.users["2"].username == "user" && a.0.users["3"].username == "carol"
  {
    assert afterDelete.users.Keys == {"2"};
    assert !NameTaken(afterDelete.users, "carol");
    CarolIsNotBlank();
    assert NatToString(3) == "3";
    var a := Admit(afterDelete, Some("carol"), None, None, now);
    assert "2" in a.0.users && "3" in a.0.users;
    assert a.0.users.Keys == {"2", "3"};
  }

  // ---------------------------------------------------------------------
  // update, delete, get, list, destroy
  // ---------------------------------------------------------------------

  /** The record with the given id, when the id is a present string. */
  function Target(users: Users, params: seq<(string, Value)>): (r: Result<Option<string>, Exception>)
    ensures r.Ok? && r.value.Some? ==> r.value.value in users
    ensures r.Ok? && r.value.None? ==> !(Get(params, "id").Str? && Get(params, "id").s in users)
    ensures r.Err? <==> Param(params, "id").Err?
  {
    var id :- Param(params, "id");
    if id.Some? && id.value in users then Ok(id) else Ok(None)
  }

  /** `updateUser`: an unknown or missing id is refused; otherwise the
      e-mail, role and status present in the parameters (null included)
      replace the record's, and the update time is set.  The id and user
      name never change. */
  function UpdateUser(users: Users, params: seq<(string, Value)>, now: Timestamp): (r: Result<(Users, Value), Exception>)
    ensures r.Err? <==> Param(params, "id").Err?
    ensures r.Ok? && !(Get(params, "id").Str? && Get(params, "id").s in users) ==> r.value == (users, Failure(NO_SUCH_USER))
    ensures r.Ok? ==> r.value.0.Keys == users.Keys
    ensures r.Ok? && Get(params, "id").Str? && Get(params, "id").s in users
            ==> var id := Get(params, "id").s;
                id in r.value.0
                && (forall k :: k in users && k != id ==> r.value.0[k] == users[k])
                && var u := r.value.0[id];
                u.id == users[id].id && u.username == users[id].username
                && u.createTime == users[id].createTime && u.updateTime == Some(now)
                && u.email == (if HasKey(params, "email") then Get(params, "email") else users[id].email)
                && u.role == (if HasKey(params, "role") then Get(params, "role") else users[id].role)
                && u.status == (if HasKey(params, "status") then Get(params, "status") else users[id].status)
                && r.value.1 == Success(UPDATED, UserValue(u))
    ensures r.Ok? && Keyed(users) ==> Keyed(r.value.0)
  {
    var id :- Target(users, params);
    if id.None? then Ok((users, Failure(NO_SUCH_USER)))
    else
      var prev := users[id.value];
      var u := prev.(email := if HasKey(params, "email") then Get(params, "email") else prev.email,
                     role := if HasKey(params, "role") then Get(params, "role") else prev.role,
                     status := if HasKey(params, "status") then Get(params, "status") else prev.status,
                     updateTime := Some(now));
      Ok((users[id.value := u], Success(UPDATED, UserValue(u))))
  }

  /** `deleteUser`: an unknown or missing id is refused; otherwise exactly
      that record goes. */
  function DeleteUser(users: Users, params: seq<(string, Value)>): (r: Result<(Users, Value), Exception>)
    ensures r.Err? <==> Param(params, "id").Err?
    ensures r.Ok? && !(Get(params, "id").Str? && Get(params, "id").s in users) ==> r.value == (users, Failure(NO_SUCH_USER))
    ensures r.Ok? && Get(params, "id").Str? && Get(params, "id").s in users
            ==> r.value.0 == users - {Get(params, "id").s}
                && r.value.1 == Obj([("success", Bool(true)), ("message", Str(DELETED))])
    ensures r.Ok? ==> r.value.0.Keys <= users.Keys
    ensures r.Ok? && Keyed(users) ==> Keyed(r.value.0)
  {
    var id :- Target(users, params);
    if id.None? then Ok((users, Failure(NO_SUCH_USER)))
    else Ok((users - {id.value}, Obj([("success", Bool(true)), ("message", Str(DELETED))])))
  }

  /** `getUser`: the record under the id, or the refusal. */
  function GetUser(users: Users, params: seq<(string, Value)>): (r: Result<Value, Exception>)
    ensures r.Err? <==> Param(params, "id").Err?
    ensures r.Ok? && !(Get(params, "id").Str? && Get(params, "id").s in users) ==> r.value == Failure(NO_SUCH_USER)
    ensures r.Ok? && Get(params, "id").Str? && Get(params, "id").s in users
            ==> r.value == Found(users[Get(params, "id").s])
  {
    var id :- Target(users, params);
    if id.None? then Ok(Failure(NO_SUCH_USER))
    else Ok(Found(users[id.value]))
  }

  /** `order` lists each key of `users` (the `HashMap`'s iteration order). */
  ghost predicate Enumerates(order: seq<string>, keys: set<string>) {
    |order| == |keys| && forall k :: k in keys <==> k in order
  }

  /** The records visited in `order`, skipping ids without a record. */
  function InOrder(users: Users, order: seq<string>): (vs: seq<Value>)
    ensures |vs| <= |order|
    ensures (forall i :: 0 <= i < |order| ==> order[i] in users) ==> |vs| == |order|
    ensures forall v :: v in vs ==> exists k :: k in users && v == UserValue(users[k])
  {
    if |order| == 0 then []
    else (if order[0] in users then [UserValue(users[order[0]])] else []) + InOrder(users, order[1..])
  }

  /** `listUsers`: every record, in the map's order, and their number. */
  function ListUsers(users: Users, order: seq<string>): (v: Value)
    ensures v.Obj? && Get(v.entries, "data").List? && Get(v.entries, "success") == Bool(true) && Get(v.entries, "total") == Int(WrapInt(|users|))
    ensures Enumerates(order, users.Keys) ==> Get(v.entries, "data").List? && |Get(v.entries, "data").items| == |users|
    ensures forall k :: k in users && k in order ==> UserValue(users[k]) in Get(v.entries, "data").items
  {
    GetOfThree("success", Bool(true), "data", List(InOrder(users, order)), "total", Int(WrapInt(|users|)));
    InOrderListsEach(users, order);
    Obj([("success", Bool(true)), ("data", List(InOrder(users, order))), ("total", Int(WrapInt(|users|)))])
  }

  lemma {:induction false} InOrderListsEach(users: Users, order: seq<string>)
    ensures forall k :: k in users && k in order ==> UserValue(users[k]) in InOrder(users, order)
    ensures (forall k :: k in order ==> k in users) ==> |InOrder(users, order)| == |order|
  {
    if |order| > 0 {
      InOrderListsEach(users, order[1..]);
      assert forall k :: k in order && k != order[0] ==> k in order[1..];
    }
  }

  /** `destroy`: all records are dropped. */
  function Destroy(users: Users): (r: Users)
    ensures |r| == 0 && Keyed(r)
  {
    map[]
  }

  // ---------------------------------------------------------------------
  // execute
  // ---------------------------------------------------------------------

  /** The "action" parameter names the create operation. */
  predicate IsCreate(input: Value) {
    input.Obj? && Get(input.entries, "action") == Str("create")
  }

  /** `execute`, as written: anything but a map lists the users; a map's
      "action" picks the operation, an unknown one is answered with an
      error entry, a missing one throws (`switch` on null) and a
      non-string one fails the cast.  Only "create" adds records, and
      every operation keeps the table keyed. */
  function Execute(users: Users, input: Value, order: seq<string>, now: Timestamp): (r: Result<(Users, Value), Exception>)
    ensures !input.Obj? ==> r == Ok((users, ListUsers(users, order)))
    ensures input.Obj? && Get(input.entries, "action").Null? ==> r == Err(Exception(NullPointer, None))
    ensures input.Obj? && !Get(input.entries, "action").Null? && !Get(input.entries, "action").Str?
            ==> r.Err? && r.error.kind == ClassCast
    ensures input.Obj? && Get(input.entries, "action").Str?
            && Get(input.entries, "action").s !in {"list", "create", "update", "delete", "get"}
            ==> r == Ok((users, Obj([("error", Str(UNSUPPORTED_PREFIX + Get(input.entries, "action").s))])))
    ensures input.Obj? && Get(input.entries, "action") == Str("list") ==> r == Ok((users, ListUsers(users, order)))
    ensures input.Obj? && Get(input.entries, "action") == Str("get")
            ==> r == (var got := GetUser(users, input.entries); if got.Ok? then Ok((users, got.value)) else Err(got.error))
    ensures IsCreate(input) ==> r == CreateUserAsWritten(users, input.entries, now)
    ensures input.Obj? && Get(input.entries, "action") == Str("update") ==> r == UpdateUser(users, input.entries, now)
    ensures input.Obj? && Get(input.entries, "action") == Str("delete") ==> r == DeleteUser(users, input.entries)
    ensures r.Ok? && !IsCreate(input) ==> r.value.0.Keys <= users.Keys
    ensures r.Ok? && Keyed(users) ==> Keyed(r.value.0)
  {
    if !input.Obj? then Ok((users, ListUsers(users, order)))
    else
      var params := input.entries;
      var action :- Param(params, "action");
      if action.None? then Err(Exception(NullPointer, None))
      else if action.value == "list" then Ok((users, ListUsers(users, order)))
      else if action.value == "create" then CreateUserAsWritten(users, params, now)
      else if action.value == "update" then UpdateUser(users, params, now)
      else if action.value == "delete" then DeleteUser(users, params)
      else if action.value == "get" then
        var v :- GetUser(users, params);
        Ok((users, v))
      else Ok((users, Obj([("error", Str(UNSUPPORTED_PREFIX + action.value))])))
  }

  /** `execute` with the corrected create: "create" takes the counter's
      next id; every other action is the program's own, over the same
      records, and the store stays valid throughout. */
  function ExecuteCorrected(s: Store, input: Value, order: seq<string>, now: Timestamp): (r: Result<(Store, Value), Exception>)
    requires Valid(s)
    ensures IsCreate(input) ==> r == CreateUser(s, input.entries, now)
    ensures !IsCreate(input) ==> (r.Ok? <==> Execute(s.users, input, order, now).Ok?)
    ensures !IsCreate(input) && r.Ok?
            ==> r.value == (Store(Execute(s.users, input, order, now).value.0, s.lastId), Execute(s.users, input, order, now).value.1)
    ensures r.Ok? ==> Valid(r.value.0)
  {
    if IsCreate(input) then CreateUser(s, input.entries, now)
    else
      var (users, reply) :- Execute(s.users, input, order, now);
      Ok((Store(users, s.lastId), reply))
  }

  lemma IdOnly(id: string)
    ensures Get([("id", Str(id))], "id") == Str(id)
    ensures Param([("id", Str(id))], "id") == Ok(Some(id))
  {
  }

  /** A user created by the program as written can be read back under its
      new id. */
  lemma {:induction false} CreatedCanBeRead(users: Users, username: string, email: Option<string>, role: Option<string>,
                                            now: Timestamp)
    requires !IsBlank(username) && !NameTaken(users, username)
    ensures var t := AdmitAsWritten(users, Some(username), email, role, now).0;
            var id := NatToString(|users| + 1);
            id in t && t[id].username == username
            && ReadsBack(t, id)
  {
    var t := AdmitAsWritten(users, Some(username), email, role, now).0;
    ReadBack(t, NatToString(|users| + 1));
  }

  ghost predicate ReadsBack(t: Users, id: string)
    requires id in t
  {
    GetUser(t, [("id", Str(id))]) == Ok(Found(t[id]))
  }

  lemma ReadBack(users: Users, id: string)
    requires id in users
    ensures ReadsBack(users, id)
  {
    IdOnly(id);
  }

  /** With the corrected create, deleting the id a creation handed out
      restores the table. */
  lemma {:induction false} DeleteUndoesCreate(s: Store, username: string, email: Option<string>, role: Option<string>,
                                              now: Timestamp)
    requires Valid(s)
    requires !IsBlank(username) && !NameTaken(s.users, username)
    ensures var t := Admit(s, Some(username), email, role, now).0;
            var id := NatToString(s.lastId + 1);
            DeletingRestores(t.users, id, s.users)
  {
    var t := Admit(s, Some(username), email, role, now).0;
    DeleteBack(t.users, s.users, NatToString(s.lastId + 1));
  }

  /** Deleting `id` from `t` leaves exactly `users`. */
  ghost predicate DeletingRestores(t: Users, id: string, users: Users) {
    DeleteUser(t, [("id", Str(id))]).Ok? && DeleteUser(t, [("id", Str(id))]).value.0 == users
  }

  lemma DeleteBack(t: Users, before: Users, id: string)
    requires id !in before && id in t
    requires forall k :: k in t && k !in before ==> k == id
    requires forall k :: k in before ==> k in t && t[k] == before[k]
    ensures DeletingRestores(t, id, before)
  {
    IdOnly(id);
    assert (t - {id}).Keys == before.Keys;
  }
}

=== FILE: values.dfy ===
/**
  Dynamically typed Java values as they flow through the plugin API:
  request bodies deserialised by Jackson, plugin results, and the
  `Map<String, Object>` records the demo plugins keep.  A map is an
  association list whose order is the map's iteration order.
*/
module Values {
  import opened Wrappers
  import opened JavaNumbers

  datatype Value =
    | Null
    | Str(s: string)
    | Int(i: Int32)
    | Long(l: Int64)
    | Short(sh: int)
    | Byte(bt: int)
    | Char(c: char)
    | Bool(b: bool)
    /** `Float` / `Double`, carried as Java's decimal text (no arithmetic is modelled) */
    | Decimal(isFloat: bool, text: string)
    | List(items: seq<Value>)
    | Obj(entries: seq<(string, Value)>)
    /** any other object: its simple class name and its `toString()` text */
    | Other(className: string, text: string)

  /** The entry for `key` in an association list (the first one, if the
      list is not a proper map). */
  function Lookup(entries: seq<(string, Value)>, key: string): (r: Option<Value>)
    ensures r.Some? <==> exists i :: 0 <= i < |entries| && entries[i].0 == key
    ensures r.Some? ==> (key, r.value) in entries
  {
    if |entries| == 0 then None
    else if entries[0].0 == key then Some(entries[0].1)
    else Lookup(entries[1..], key)
  }

  /** An entry whose key does not occur earlier is what `Lookup` finds. */
  lemma {:induction false} LookupAt(entries: seq<(string, Value)>, i: nat)
    requires i < |entries|
    requires forall j :: 0 <= j < i ==> entries[j].0 != entries[i].0
    ensures Lookup(entries, entries[i].0) == Some(entries[i].1)
  {
    if i > 0 {
      LookupAt(entries[1..], i - 1);
    }
  }

  /** A three-entry map literal with distinct keys answers each key with its
      own value. */
  lemma GetOfThree(a: string, x: Value, b: string, y: Value, c: string, z: Value)
    requires a != b && a != c && b != c
    ensures Get([(a, x), (b, y), (c, z)], a) == x
    ensures Get([(a, x), (b, y), (c, z)], b) == y
    ensures Get([(a, x), (b, y), (c, z)], c) == z
  {
    var entries := [(a, x), (b, y), (c, z)];
    LookupAt(entries, 0);
    LookupAt(entries, 1);
    LookupAt(entries, 2);
  }

  predicate HasKey(entries: seq<(string, Value)>, key: string) {
    Lookup(entries, key).Some?
  }

  /** The same for a five-entry map literal. */
  lemma GetOfFive(entries: seq<(string, Value)>)
    requires |entries| == 5
    requires forall i, j :: 0 <= i < j < 5 ==> entries[i].0 != entries[j].0
    ensures forall i :: 0 <= i < 5 ==> Get(entries, entries[i].0) == entries[i].1
  {
    forall i | 0 <= i < 5
      ensures Get(entries, entries[i].0) == entries[i].1
    {
      LookupAt(entries, i);
    }
  }

  /** `Map.get`: the stored value, or `null` when the key is absent. */
  function Get(entries: seq<(string, Value)>, key: string): Value {
    Lookup(entries, key).GetOr(Null)
  }

  function Keys(entries: seq<(string, Value)>): (ks: seq<string>)
    ensures |ks| == |entries|
    ensures forall i :: 0 <= i < |entries| ==> ks[i] == entries[i].0
  {
    if |entries| == 0 then [] else [entries[0].0] + Keys(entries[1..])
  }

  /** No key occurs twice: the list is a proper map. */
  predicate DistinctKeys(entries: seq<(string, Value)>) {
    |entries| == 0 || (!HasKey(entries[1..], entries[0].0) && DistinctKeys(entries[1..]))
  }

  /** A Java `Map<String, Object>`: an association list without repeated
      keys, whose length is the map's `size()`. */
  type JMap = e: seq<(string, Value)> | DistinctKeys(e) witness []

  /** `Map.put`: an existing key keeps its position and gets the new value,
      a new key is appended. */
  function Put(entries: seq<(string, Value)>, key: string, v: Value): (r: seq<(string, Value)>)
    ensures Lookup(r, key) == Some(v)
    ensures forall k :: k != key ==> Lookup(r, k) == Lookup(entries, k)
    ensures |r| == if HasKey(entries, key) then |entries| else |entries| + 1
    ensures DistinctKeys(entries) ==> DistinctKeys(r)
  {
    if |entries| == 0 then [(key, v)]
    else if entries[0].0 == key then [(key, v)] + entries[1..]
    else [entries[0]] + Put(entries[1..], key, v)
  }

  /** `Map.remove`: drops every entry for `key`, keeping the order of the rest. */
  function Remove(entries: seq<(string, Value)>, key: string): (r: seq<(string, Value)>)
    ensures Lookup(r, key).None?
    ensures forall k :: k != key ==> Lookup(r, k) == Lookup(entries, k)
    ensures DistinctKeys(entries) ==> DistinctKeys(r)
    ensures |r| <= |entries|
  {
    if |entries| == 0 then []
    else if entries[0].0 == key then Remove(entries[1..], key)
    else [entries[0]] + Remove(entries[1..], key)
  }

  /** `getClass().getSimpleName()`; Jackson deserialises JSON objects and
      arrays as `LinkedHashMap` and `ArrayList`. */
  function SimpleClassName(v: Value): string
    requires !v.Null?
  {
    match v
    case Str(_) => "String"
    case Int(_) => "Integer"
    case Long(_) => "Long"
    case Short(_) => "Short"
    case Byte(_) => "Byte"
    case Char(_) => "Character"
    case Bool(_) => "Boolean"
    case Decimal(isFloat, _) => if isFloat then "Float" else "Double"
    case List(_) => "ArrayList"
    case Obj(_) => "LinkedHashMap"
    case Other(name, _) => name
  }

  /** `String.valueOf(v)`: "null" for null, otherwise `toString()`, which is
      "[a, b]" for a list and "{k=v, k2=v2}" for a map. */
  function ToJavaString(v: Value): string
    decreases v, 1
  {
    match v
    case Null => "null"
    case Str(s) => s
    case Int(i) => IntToString(i)
    case Long(l) => IntToString(l)
    case Short(sh) => IntToString(sh)
    case Byte(bt) => IntToString(bt)
    case Char(c) => [c]
    case Bool(b) => if b then "true" else "false"
    case Decimal(_, text) => text
    case List(items) => "[" + ItemsText(v, items) + "]"
    case Obj(entries) => "{" + EntriesText(v, entries) + "}"
    case Other(_, text) => text
  }

  function ItemsText(owner: Value, items: seq<Value>): string
    requires forall i :: 0 <= i < |items| ==> items[i] < owner
    decreases owner, 0, |items|
  {
    if |items| == 0 then ""
    else if |items| == 1 then ToJavaString(items[0])
    else ToJavaString(items[0]) + ", " + ItemsText(owner, items[1..])
  }

  function EntriesText(owner: Value, entries: seq<(string, Value)>): string
    requires forall i :: 0 <= i < |entries| ==> entries[i].1 < owner
    decreases owner, 0, |entries|
  {
    if |entries| == 0 then ""
    else
      var first := entries[0].0 + "=" + ToJavaString(entries[0].1);
      if |entries| == 1 then first else first + ", " + EntriesText(owner, entries[1..])
  }

  /** The Java exception classes the modelled code throws or catches. */
  datatype ExceptionKind =
    | IllegalArgument
    | NoSuchMethod
    | NumberFormat
    | ClassCast
    | NullPointer
    | InvocationTarget
    | Runtime
    | Sql
    | RejectedExecution
    | IndexOutOfBounds
    | OtherException(name: string)

  /** A thrown exception and its (possibly null) `getMessage()`. */
  datatype Exception = Exception(kind: ExceptionKind, message: Option<string>)

  /** The text that `"prefix" + e.getMessage()` contributes: "null" when
      the message is null. */
  function MessageText(e: Exception): string {
    e.message.GetOr("null")
  }

  /** `(String) params.get(key)`: null stays null, a string is taken, any
      other value throws a `ClassCastException`. */
  function CastString(v: Value): (r: Result<Option<string>, Exception>)
    ensures v.Null? <==> r == Ok(None)
    ensures v.Str? <==> r.Ok? && r.value.Some?
    ensures v.Str? ==> r.value.value == v.s
    ensures r.Err? ==> r.error.kind == ClassCast
  {
    match v
    case Null => Ok(None)
    case Str(s) => Ok(Some(s))
    case _ => Err(Exception(ClassCast, None))
  }

  /** `NumberFormatException.forInputString`. */
  function NumberFormatError(s: string): (e: Exception)
    ensures e.kind == NumberFormat
  {
    Exception(NumberFormat, Some("For input string: \"" + s + "\""))
  }
}

=== FILE: wrappers.dfy ===
/**
  Failure-compatible wrappers shared by every module of the model.
  `Option` stands for a Java reference that may be null, `Result` for a
  computation that either returns a value or throws.
*/
module Wrappers {

  /** A value that may be absent (Java `null`). */
  datatype Option<+T> = None | Some(value: T) {

    /** The wrapped value, or `default` when absent. */
    function GetOr(default: T): T {
      match this
      case Some(v) => v
      case None => default
    }
  }

  /** A computation that returned `value` or threw `error`. */
  datatype Result<+T, +E> = Ok(value: T) | Err(error: E) {

    predicate IsFailure() {
      Err?
    }

    function PropagateFailure<U>(): Result<U, E>
      requires Err?
    {
      Err(error)
    }

    function Extract(): T
      requires Ok?
    {
      value
    }
  }
}
